=== FILE: README.md ===
# kaiba mapping engine: a Dafny model

kaiba maps JSON input to a JSON output described by a configuration tree.
Each node of the tree is an *object*. An object has:

- *attributes*, each built from *data fetchers* that find values at key paths;
- child objects;
- *branching objects*, which are lists of independently mapped attribute sets;
- *iterators*, which repeat the object once for each element of a list in the input.

This project models the engine's core as pure Dafny functions over an
immutable JSON `Value`, and proves properties of them. The core covered is:

- navigation and iteration (`kaiba/collection_handlers.py`);
- value transformations: if statements, separator, slicing, regular
  expressions and casting (`kaiba/functions.py`);
- the casts to decimal, integer and ISO date, and their dispatcher
  (`kaiba/casting/`);
- the data-fetcher and attribute handlers (`kaiba/handlers.py`);
- the recursive object mapper (`kaiba/mapper.py`).

Modules follow the source files:

| file | module | models |
|---|---|---|
| wrappers.dfy | `Wrappers` | `Option` (the `@maybe` container) and `Result` (the `@safe` container) |
| text.dfy | `Text` | string helpers: `str()` of an int, `int()` of a string, split/join, strip |
| values.dfy | `Values` | `Value`, `Key`, Python truthiness, `str()`, Python indexing and slicing |
| models.dfy | `Models` | the validated configuration datatypes |
| collection_handlers.dfy | `CollectionHandlers` | path lookup, `set_value_in_dict`, iterator expansion |
| functions.dfy | `Functions` | if statements, separator, slicing, regex |
| cast_decimal.dfy, cast_integer.dfy, cast_date.dfy | `CastDecimal`, `CastInteger`, `CastDate` | the three casts |
| casting.dfy | `Casting` | `get_casting_function` and `apply_casting` |
| handlers.dfy | `Handlers` | `handle_data_fetcher`, `unsafe_handle_data_fetcher`, `handle_attribute` |
| mapper.dfy | `Mapper` | `map_data` and the functions it calls |

Conventions:

- Python `None`, JSON `null` and an unset `default` are all `Value.Null`.
  The engine never tells them apart.
- A raised exception is the `Failure` of a `Result`. Its message is kept
  where the source fixes it.
- Each `unsafe_*` function the handlers call is the corresponding function
  with every exception turned into `None`: `GetOr(Null)` on its `Result`.
- The Python runtime's unmodelled collaborators are fields of an `Env`
  record:
  - `re.finditer`, as `findAll`;
  - `str()` of a Decimal, list or dict, as `show`;
  - today's year, as `currentYear`.

  `str()` of `None`, booleans, ints and strings is modelled exactly.
- Python semantics are written out: negative indices, slice bounds,
  `int()`'s whitespace, sign and underscore rules, and `Decimal`
  `ROUND_HALF_UP` quantisation (fixed by `kaiba/mapper.py:13`). The regular
  expressions of the date cast are modelled with ASCII `\d` and `\w`.
  `$` matches before one final newline.
- The configuration uses the field names of `kaiba/models/`: `data_fetchers`,
  `regex`, `cast`, `iterators`. Some source reads other names for the same
  settings; see "Left out".
- `array` is a Dafny keyword, so that field is `asArray`.

## Model

| member | source | states |
|---|---|---|
| CollectionHandlers.WalkAppend | kaiba/collection_handlers.py:31-34 | following the path `p + q` is following `p`, then `q` from where it ended; an error on `p` ends the walk |
| CollectionHandlers.FetchDataByKeys | kaiba/collection_handlers.py:23-38 | the empty path gives `None`; a missing key (KeyError) gives `None`; any other lookup error (index out of range, wrong container type) is raised; otherwise the value at the path |
| CollectionHandlers.UnsafeFetchDataByKeys | kaiba/collection_handlers.py:23-38 | the value at a non-empty path when the lookup succeeds, `None` whenever it fails |
| CollectionHandlers.FetchListByKeys | kaiba/collection_handlers.py:41-63 | succeeds exactly when the path is non-empty and holds a list, and returns that list; an empty path is `ValueError('path list empty')`; a value that is not a list is `ValueError('Non list data found: ', ...)` carrying that value; a failed lookup passes its error on |
| CollectionHandlers.SetValueInDict | kaiba/collection_handlers.py:7-20 | the empty path is an error; a one-key path into a dict always succeeds |
| CollectionHandlers.FetchAfterSet | kaiba/collection_handlers.py:7-20 | after a successful set at a path, fetching that path gives the value set |
| CollectionHandlers.SetKeepsSiblings | kaiba/collection_handlers.py:7-20 | setting under a dict adds at most the first path key, and every other key keeps its value |
| CollectionHandlers.SetUnderParent | kaiba/collection_handlers.py:13-20 | whenever all but the last key lead to a dict and the last key is a name, the set succeeds, at any depth, and that dict becomes itself with the last key set to the new value and every other key unchanged |
| CollectionHandlers.CreateIterable | kaiba/collection_handlers.py:92-116 | a ValueError or KeyError from the lookup yields exactly `[input]`; for a dict input, a list of n items yields n contexts in list order, each the input with the alias bound to one item; a non-dict input with a non-empty list raises TypeError; an empty list yields no contexts; other errors propagate |
| CollectionHandlers.IterableDataHandler | kaiba/collection_handlers.py:66-89 | no iterators is the "No iterators" failure, and that is its only cause; a single iterator is `create_iterable` |
| CollectionHandlers.NestedIterators | kaiba/collection_handlers.py:74-89 | with two or more iterators, an error of the first propagates, and otherwise each of its contexts is expanded by the remaining iterators and the expansions are concatenated |
| CollectionHandlers.ExpandEachAppend | kaiba/collection_handlers.py:80-89 | expanding contexts `a + b` gives the expansions of `a`, then those of `b`: the result keeps the order of the contexts it came from |
| CollectionHandlers.ExpandEachOne | kaiba/collection_handlers.py:84-87 | a single context contributes its own expansion by the remaining iterators, or nothing when that raises |
| CollectionHandlers.CaughtIteratorPassesThrough | kaiba/collection_handlers.py:99-107 | a failed lookup that `create_iterable` catches passes the context unchanged to the remaining iterators |
| CollectionHandlers.ExpandEachMember | kaiba/collection_handlers.py:80-89 | every expanded context comes from a successful expansion of one of the first iterator's contexts |
| CollectionHandlers.ContextsExtendInput | kaiba/collection_handlers.py:110-116 | every context the iterators produce is the input with only the iterators' aliases added or replaced |
| CollectionHandlers.ExpandEachCount | kaiba/collection_handlers.py:80-89 | n contexts that each expand into p contexts give n times p contexts |
| CollectionHandlers.IteratorCount | kaiba/collection_handlers.py:66-116 | with independent iterators whose lookups raise nothing uncaught, the number of contexts is the product of the list lengths, counting a passed-through lookup as 1 |
| Functions.Evaluate | kaiba/functions.py:84-96 | `is` and `not` compare with the target; `in` tests membership in a string, list or dict target and fails on a target it cannot search; `contains` tests the target in a list or dict value, and compares the `str()` forms otherwise |
| Functions.NotIsNegatedIs | kaiba/functions.py:84-88 | `not` is exactly the negation of `is` |
| Functions.ApplyStatement | kaiba/functions.py:97-100 | when the condition holds, `then`; otherwise a truthy `otherwise`, else the value unchanged; fails exactly when the condition cannot be evaluated |
| Functions.ApplyIfStatements | kaiba/functions.py:66-72 | no statements leave the value alone; one statement is that statement applied |
| Functions.IfChainAppend | kaiba/functions.py:66-72 | running `a + b` is running `a`, then `b` on its output; a failure in `a` ends the chain |
| Functions.UnmatchedIsKeepsValue | kaiba/functions.py:84-100 | `is` statements whose targets differ from the value and that have no truthy `otherwise` leave the value unchanged |
| Functions.UnsafeApplyIfStatements | kaiba/functions.py:15-72 | the chain's result, or `None` when it raises |
| Functions.ApplySeparator | kaiba/functions.py:126-132 | no values give `None`; one value is returned as it is, not stringified; two or more give a string |
| Functions.SeparatorSplitsBack | kaiba/functions.py:126-132 | joined with a one-character separator that no value's text contains, the result splits back into exactly the values' texts |
| Functions.ApplySlicing | kaiba/functions.py:157-166 | `None` stays `None`; a list slices as a list, no longer than before; anything else slices its `str()` |
| Functions.SlicingSplits | kaiba/functions.py:157-166 | `[:k]` followed by `[k:]` gives back the list, or the `str()` of a non-list value |
| Functions.PickAll | kaiba/functions.py:206-212 | a list of group indices picks the matches at those indices, in order, with negative indices counting from the end, or fails when any index is out of range |
| Functions.SelectMatches | kaiba/functions.py:202-216 | an int group picks one match or `None`; an empty list picks every match; a non-empty list picks those matches or `None` |
| Functions.ApplyRegex | kaiba/functions.py:202-216 | only a string can be searched, and anything else is an error; a string gives the selected matches |
| CastDecimal.DecimalLiteral | kaiba/casting/_cast_to_decimal.py:31-47 | `Decimal()` of a malformed literal fails with the conversion-syntax error |
| CastDecimal.PointLiteral | kaiba/casting/_cast_to_decimal.py:47 | `Decimal()` of digits, a point and digits is the exact decimal value |
| CastDecimal.IntLiteral | kaiba/casting/_cast_to_decimal.py:47 | `Decimal()` of an int's `str()` is that int |
| CastDecimal.Convert | kaiba/casting/_cast_to_decimal.py:30-47 | the only failure after the character check is the conversion-syntax error |
| CastDecimal.CastToDecimal | kaiba/casting/_cast_to_decimal.py:17-47 | the value with spaces removed fails the character check exactly when it is refused with "Illegal characters in value"; any other failure is the conversion-syntax error |
| CastDecimal.SpacesIgnored | kaiba/casting/_cast_to_decimal.py:23 | two values whose texts differ only by spaces cast to the same result, under any format |
| CastDecimal.SpacesIgnoredInStrings | kaiba/casting/_cast_to_decimal.py:23 | a string casts exactly as the same string with every space removed does (`'1 234 567.89'` as `'1234567.89'`) |
| CastDecimal.CastPlain | kaiba/casting/_cast_to_decimal.py:23-47 | a value whose text is non-empty, holds only digits, `-`, `.` and `,`, and does not end in a newline passes the character check and is decided by the separator rules alone |
| CastDecimal.CastIntegerExact | kaiba/casting/_cast_to_decimal.py:30-47 | an int casts to itself, and to itself divided by 100 under the `integer_containing_decimals` format |
| CastDecimal.SeparatorConventionsAgree | kaiba/casting/_cast_to_decimal.py:33-45 | `1,234,567.89` and `1.234.567,89` written from the same digit groups cast to the same decimal |
| CastDecimal.PeriodRuleApplies | kaiba/casting/_cast_to_decimal.py:37-39 | comma-grouped digits followed by a point and digits match the "period after commas" pattern |
| CastDecimal.CommaRuleApplies | kaiba/casting/_cast_to_decimal.py:41-45 | point-grouped digits with two or more groups, followed by a comma and digits, skip the single-comma and period rules and match the "comma after periods" pattern |
| CastInteger.RoundHalfUpNearest | kaiba/casting/_cast_to_integer.py:26-28 | quantising to a whole number gives a nearest integer, with ties away from zero, and leaves whole numbers unchanged |
| CastInteger.CastToInteger | kaiba/casting/_cast_to_integer.py:13-28 | succeeds exactly when the decimal cast without a format does, with the same error otherwise; the result is a nearest integer to that decimal, and a tie goes away from zero (122.5 to 123, 123.5 to 124) |
| CastInteger.CastIntegerRoundTrip | kaiba/casting/_cast_to_integer.py:13-28 | an int casts to itself, whatever the format |
| CastDate.MakeDate | kaiba/casting/_cast_to_date.py:153-158 | a date is built exactly when year, month and day form a real calendar date; its ISO text reads back as those three numbers |
| CastDate.IsoFormatShape | kaiba/casting/_cast_to_date.py:158 | the ISO text is the zero-padded year, month and day joined by dashes |
| CastDate.ValidateDate | kaiba/casting/_cast_to_date.py:151-158 | splitting on `-`, `int()` of each part and building the date yields only calendar ISO dates |
| CastDate.ValidateIsoUnchanged | kaiba/casting/_cast_to_date.py:151-158 | validating a calendar ISO date gives it back unchanged |
| CastDate.MatchWhole | kaiba/casting/_cast_to_date.py:161-167 | the digit pattern matches digit groups of its widths, with a separator or none between them, as the whole text |
| CastDate.SubstituteWhole | kaiba/casting/_cast_to_date.py:161-167 | `re.sub` on such a text is the arrangement with the three groups filled in |
| CastDate.FirstMatching | kaiba/casting/_cast_to_date.py:83-104 | the chosen layout is one of the candidates and its format pattern matches the original format; none is chosen exactly when none matches |
| CastDate.FirstMatchingIsFirst | kaiba/casting/_cast_to_date.py:83-104 | the chosen layout is the first in candidate order whose pattern matches: when the layout at position j matches, a layout at or before j is chosen |
| CastDate.Wrap | kaiba/casting/_cast_to_date.py:60-67 | a success is kept; a failure becomes "Unable to cast (value) to ISO date. Exc(cause)" |
| CastDate.CastWithMillennia | kaiba/casting/_cast_to_date.py:78-112 | fails exactly when no four-digit-year format matches the original format |
| CastDate.InferYear | kaiba/casting/_cast_to_date.py:179-187 | a two-digit year becomes the latest year, no later than the current one, that ends in those two digits |
| CastDate.ConvertDdmmyy | kaiba/casting/_cast_to_date.py:170-190 | yields only calendar ISO dates |
| CastDate.CastWithNoMillennia | kaiba/casting/_cast_to_date.py:115-148 | yields only calendar ISO dates, and fails with "Unable to cast to no millennia format" when no two-digit-year format matches |
| CastDate.CastFormatted | kaiba/casting/_cast_to_date.py:44-68 | yields only calendar ISO dates; an unrecognised format gives the wrapped no-millennia error |
| CastDate.CastToDate | kaiba/casting/_cast_to_date.py:23-68 | every success is a real calendar date in ISO form |
| CastDate.IsoIgnoresFormat | kaiba/casting/_cast_to_date.py:43-59 | a value whose text starts like an ISO date is only validated, whatever the original format |
| CastDate.FailuresWrapped | kaiba/casting/_cast_to_date.py:60-67 | every failure carries the "Unable to cast (value) to ISO date" prefix, except a non-ISO value without a format, whose TypeError escapes the wrapping |
| CastDate.UnknownFormat | kaiba/casting/_cast_to_date.py:142-148 | a non-ISO value with an unrecognised format fails with the wrapped no-millennia error |
| CastDate.CastIsoUnchanged | kaiba/casting/_cast_to_date.py:71-75 | a calendar ISO date casts to itself, whatever the format |
| CastDate.CastIdempotent | kaiba/casting/_cast_to_date.py:23-68 | casting a cast result again, with any format, gives the same result |
| CastDate.MillenniaRearranges | kaiba/casting/_cast_to_date.py:78-104 | a date written as the matched four-digit-year format says, with any separators, is rearranged to year-month-day and validated |
| CastDate.IsoOnlyWhenDashed | kaiba/casting/_cast_to_date.py:18 | such a written date starts like an ISO date only when it already is year-month-day with dashes |
| CastDate.NoMillenniaRearranges | kaiba/casting/_cast_to_date.py:115-140 | a date written as the matched two-digit-year format says becomes the date with the inferred century |
| CastDate.NoMillenniaExcludesMillennia | kaiba/casting/_cast_to_date.py:11-17 | an original format that matches a two-digit-year pattern matches no four-digit-year pattern |
| Casting.GetCastingFunction | kaiba/casting/__init__.py:13-22 | integer dispatches to the integer cast, decimal to the decimal cast, and every other option, `string` included, to the date cast |
| Casting.ApplyCasting | kaiba/functions.py:219-242 | a successful cast is an int, a decimal or the ISO text of a real date, as `to` asks |
| Casting.UnsafeApplyCasting | kaiba/functions.py:219-242 | the cast value, or `None` when the cast fails |
| Casting.StringCastIsDateCast | kaiba/casting/__init__.py:22 | casting to `string` is casting to `date` |
| Casting.IntegerCastRoundsDecimal | kaiba/casting/_cast_to_integer.py:13-28 | the integer cast ignores the format, succeeds exactly when the decimal cast does, and gives a nearest integer to it, a tie going away from zero |
| Casting.IntegerCastKeepsInts | kaiba/casting/_cast_to_integer.py:13-28 | an int cast to integer is unchanged |
| Casting.DateCastIdempotent | kaiba/casting/_cast_to_date.py:23-68 | a date cast applied to its own result, with any format, changes nothing |
| Handlers.WithDefault | kaiba/handlers.py:61-68 | `None` becomes the default; a `None` default is the "Failed to produce a value" failure; a success is never `None` |
| Handlers.HandleDataFetcher | kaiba/handlers.py:22-68 | fails exactly when the pipeline ends with `None` and there is no default; a success is the pipeline's value, or the default when the pipeline gave `None` |
| Handlers.UnsafeHandleDataFetcher | kaiba/handlers.py:71-113 | `None` exactly when the pipeline and the default are both `None`; otherwise the pipeline's value, or else the default |
| Handlers.UnsafeFetcherAgrees | kaiba/handlers.py:71-113 | the unsafe handler is the safe one with its failure turned into `None` |
| Handlers.PlainFetcherReturnsFound | kaiba/handlers.py:46-68 | with no regex, slicing or if statements, a value found at the path is returned unchanged |
| Handlers.FalsyFoundSkipsRefinement | kaiba/handlers.py:50-54 | regex and slicing see only truthy values: a falsy value found goes straight to the if statements |
| Handlers.RegexOnNonStringLosesValue | kaiba/handlers.py:50-51 | a truthy non-string value cannot be searched, so a fetcher with a regex hands `None` to its if statements |
| Handlers.IfToNoneGivesDefault | kaiba/handlers.py:56-66 | an `is` statement that maps the found value to `None` gives the default, or the failure when there is none |
| Handlers.NonNull | kaiba/handlers.py:134-141 | the kept values are exactly the non-`None` ones |
| Handlers.NonNullAppend | kaiba/handlers.py:134-141 | filtering `a + b` is filtering `a`, then `b` |
| Handlers.NonNullKeepsPresent | kaiba/handlers.py:134-141 | values none of which is `None` are all kept, in order |
| Handlers.FetchedValuesAppend | kaiba/handlers.py:134-141 | the fetched values of `a + b` are those of `a`, then those of `b` |
| Handlers.HandleAttribute | kaiba/handlers.py:116-164 | fails exactly when the attribute's value and default are both `None`; a success is never `None`, and is the attribute's value unless that was `None`, then the default; a cast applied to a truthy value yields the int, decimal or ISO date it asks for, or else the default |
| Handlers.OneFetcherAttribute | kaiba/handlers.py:134-164 | an attribute with one fetcher and nothing of its own behaves exactly as that fetcher |
| Handlers.SeveralFetchersJoin | kaiba/handlers.py:145-149 | with two or more fetchers all producing values and no if statements or cast, the attribute is their texts joined by the separator, in fetcher order |
| Handlers.RegexMissFailsAttribute | kaiba/handlers.py:50-51 | a single-group regex that finds nothing in the only fetcher's string, with no default, makes the attribute fail: the string is lost, not kept |
| Mapper.CollectKeys | kaiba/mapper.py:117-121 | the dict built by the loop has a key exactly when some step of that name produced a value, and every stored value is one of those values |
| Mapper.CollectLastWins | kaiba/mapper.py:117-121 | under a repeated name, the last step that produced a value wins |
| Mapper.CollectEmpty | kaiba/mapper.py:123 | the dict is empty exactly when no step produced a value |
| Mapper.EntriesKeys | kaiba/mapper.py:141-145 | a name is set exactly when some configured item of that name produced a value |
| Mapper.CollectAll | kaiba/mapper.py:117-121 | a property every produced value has holds of every stored value |
| Mapper.Somes | kaiba/mapper.py:44-50 | keeps the produced values and only those, never more than there were steps, and nothing exactly when nothing was produced |
| Mapper.SomesAppend | kaiba/mapper.py:44-50 | the values kept from `a + b` are those kept from `a`, then those kept from `b`: the original order is kept |
| Mapper.SomesSingle | kaiba/mapper.py:44-50 | one step keeps its value, or nothing |
| Mapper.SomesAll | kaiba/mapper.py:162-167 | a property every produced value has holds of every kept value |
| Mapper.SetArray | kaiba/mapper.py:55-59 | wraps in a one-element list when `array` is set, and otherwise returns the data unchanged |
| Mapper.MapAttributes | kaiba/mapper.py:102-123 | nothing exactly when every attribute fails; otherwise the dict is non-empty |
| Mapper.AttributeKeys | kaiba/mapper.py:117-121 | an attribute name is set exactly when some attribute of that name succeeds; failed attributes are omitted |
| Mapper.AttributesNeverNull | kaiba/mapper.py:117-121 | no attribute is ever set to `None` |
| Mapper.LastAttributeWins | kaiba/mapper.py:117-121 | of several attributes with one name, the last one that succeeds sets the value |
| Mapper.MapBranchingAttributes | kaiba/mapper.py:150-170 | nothing exactly when every branch maps nothing; otherwise a non-empty list of non-empty dicts, at most one per branch |
| Mapper.BranchingAttributesOne | kaiba/mapper.py:160-170 | one branch gives the one-element list of its `map_attributes` dict, or nothing when that dict is empty |
| Mapper.BranchingAttributesAppend | kaiba/mapper.py:162-167 | the dicts of branches `a + b` are those of `a`, then those of `b`; with the one-branch case this fixes the list as the branches' dicts in branch order, empty branches left out |
| Mapper.BranchingValue | kaiba/mapper.py:185-191 | a branching object contributes exactly the dicts its branches map to, in the same order, as a list of objects; nothing when all its branches are empty |
| Mapper.MapBranchingObjects | kaiba/mapper.py:173-194 | nothing exactly when no branching object contributes |
| Mapper.BranchingKeys | kaiba/mapper.py:185-191 | a name is set exactly when some branching object of that name contributes a list |
| Mapper.BranchingKeptUnderName | kaiba/mapper.py:185-191 | a branching object's list is stored under its own name, unless a later one of the same name also contributes |
| Mapper.BranchingAlwaysList | kaiba/mapper.py:173-194 | every branching-object key holds a non-empty list of non-empty dicts, whatever the object's `array` flag says |
| Mapper.MapData | kaiba/mapper.py:18-52 | the only failure is unwrapping an object that mapped nothing |
| Mapper.NoIterationWrapsIffArray | kaiba/mapper.py:32-39 | without iteration data the object is mapped once against the input; it fails when nothing is mapped, and is a one-element list exactly when `array` is set |
| Mapper.NoIteratorsMapsOnce | kaiba/mapper.py:32-39 | an object without iterators is never iterated |
| Mapper.IterationGivesList | kaiba/mapper.py:41-52 | with iteration data the result is always the object list over the contexts, a list whatever `array` says |
| Mapper.MapEachContents | kaiba/mapper.py:44-50 | that list holds at most one non-empty dict per context, and one for every context whose object mapped something |
| Mapper.MapEachAppend | kaiba/mapper.py:44-50 | the object list over contexts `c1 + c2` is that over `c1` followed by that over `c2`: the objects are appended in context order |
| Mapper.MapEachOne | kaiba/mapper.py:45-50 | one context adds its mapped object, or nothing when the object maps nothing |
| Mapper.ObjectListShape | kaiba/mapper.py:44-50 | the kept dicts are non-empty, and never more than the contexts |
| Mapper.ObjectListComplete | kaiba/mapper.py:44-50 | every object mapped in a context is in the list |
| Mapper.EmptyIterationGivesEmptyList | kaiba/mapper.py:41-52 | an iterator over an empty list gives the empty list |
| Mapper.MissingIteratorPathGivesList | kaiba/mapper.py:41-52 | a missing iterator path still gives a list: the object mapped against the input, or the empty list |
| Mapper.SomesOne | kaiba/mapper.py:44-50 | one context gives a one-element list when its object mapped something, and the empty list otherwise |
| Mapper.MapObject | kaiba/mapper.py:62-99 | a mapped object is never an empty dict |
| Mapper.EmptyObjectDropped | kaiba/mapper.py:84-99 | an object maps to nothing exactly when its attributes, children and branching objects all map to nothing |
| Mapper.UnionEmpty | kaiba/mapper.py:99 | the merged dict is empty exactly when each of the three parts is |
| Mapper.MergeOrder | kaiba/mapper.py:84-96 | the keys are those of the three parts; a branching-object key wins over a child's, and a child's over an attribute's |
| Mapper.MapObjects | kaiba/mapper.py:126-147 | nothing exactly when every child fails |
| Mapper.ChildKeys | kaiba/mapper.py:141-147 | a child name is set exactly when some child of that name maps successfully; failed children are omitted |
| Mapper.ChildKeptUnderName | kaiba/mapper.py:141-147 | a child is stored under its own name with what it produced, even the empty list |
| Mapper.NonEmpty | kaiba/mapper.py:123 | `d or None`: nothing exactly for the empty dict |
| Text.PyIntRoundTrip | kaiba/casting/_cast_to_date.py:175-177 | `int()` of an int's `str()` gives the int back |
| Text.SplitJoin | kaiba/functions.py:132 | splitting a join on a one-character separator that no part contains gives the parts back |
| Values.SliceSplit | kaiba/functions.py:166 | Python slices `[:k]` and `[k:]` concatenate to the whole sequence, for any `k`, negative included |

## Left out

- Configuration validation (`kaiba/models/*.py` validators, the pydantic,
  jsonschema and marshmallow schemas) is not modelled. The model starts
  from already-validated configuration datatypes.
- Configuration field names disagree between modules:
  - `kaiba/mapper.py` reads `iterables` from the schema in `kaiba/pydantic_schema.py`.
  - `kaiba/handlers.py:153-154` reads `cfg.casting`.
  - `kaiba/models/attribute.py:16` names that field `cast`.

  The model has one configuration type with the `kaiba/models` names, so
  these attribute lookups cannot fail.
- `kaiba/handlers.py` imports `unsafe_*` variants that `kaiba/functions.py`
  does not define. Each is modelled as its function with exceptions mapped
  to `None`.
- `iterable_data_handler` raises instead of returning a container, yet
  `map_data` tests it with `is_successful`. It is modelled as a `Result`
  whose failures are "No iterators" and any uncaught lookup error.
- `get_casting_function` is `@safe`, so calling its result would call a
  container. `apply_casting` is modelled as dispatch followed by applying
  the chosen cast.
- Regular-expression matching for `apply_regex` is the `Env.findAll`
  parameter. The date cast's fixed patterns are modelled exactly, with
  ASCII `\d` and `\w`; Python's Unicode classes are wider.
- `str()` of a Decimal, list or dict is the `Env.show` parameter. Today's
  year is `Env.currentYear`.
- Floats are not modelled: JSON numbers are ints or exact decimals.
- The decimal context is not modelled: no precision limit and no global
  mutation. Rounding is fixed to half-up, as `kaiba/mapper.py:13` sets it.
- `kaiba/iso.py`, `kaiba/process.py` (I/O and JSON loading),
  `kaiba/casting.py`, and the `mapmallow` and `piri` packages are not part of
  this model.
- Python equality quirks are not modelled: `1 == True` and `1 == 1.0`
  across types. `is` and `not` compare model values structurally.
- CollectionHandlers.Assign: setting an integer key on a dict is an error,
  because the model's dicts are keyed by strings. Python would add the key;
  the source types the path of `set_value_in_dict` as a list of strings.
- The `print` calls in `kaiba/collection_handlers.py` have no effect on
  results and are left out.
- Some exception messages are approximated:
  - TypeError messages for unsearchable `in` operands;
  - `int()` messages of the date conversion;
  - the conversion-syntax error of `Decimal()`.

  Messages the source spells out, such as "Failed to produce a value",
  "No iterators", "Illegal characters in value" and the date-cast messages
  (typo included), are exact.
- A year, month or day beyond the C int range makes Python's date
  constructor raise OverflowError with its own message. Here it is the
  ordinary out-of-range failure. Years 0 or 10000 give the same
  "year … is out of range" ValueError as the source.
- `map_data`'s failure message is not the text of `returns`'
  `UnwrapFailedError`. Only its cause is modelled.
- CastDate.CastToDate: states only that every success is a calendar ISO
  date. The full behaviour per format is stated by the rearrangement
  lemmas, for dates written in the shape each format describes.
- Mapper.MapData: its own contract names only the failure. The wrapping
  is stated by NoIterationWrapsIffArray. The list is stated by
  IterationGivesList with MapEachOne and MapEachAppend, which together fix
  it as the mapped objects in context order.


=== FILE: cast_date.dfy ===
/** Casting a value to an ISO date string (`yyyy-mm-dd`).

    A value that already starts like an ISO date is only validated. Any other
    value is rearranged according to `original_format`: first the layouts
    with a four-digit year, then those with a two-digit year, whose century
    is inferred from the current year. The rearranged text is validated as a
    calendar date, and every failure is reported as
    `Unable to cast (<value>) to ISO date. Exc(<cause>)`.

    The engine rearranges with `re.sub`, which is modelled exactly here:
    every non-overlapping match, leftmost first, is replaced, and text around
    and between matches is kept. `\d` and `\w` are the ASCII classes.
 */
module CastDate {
  import opened Wrappers
  import opened Text
  import opened Values

  // ---------------------------------------------------------------- calendar

  predicate IsLeapYear(year: int) {
    year % 4 == 0 && (year % 100 != 0 || year % 400 == 0)
  }

  function DaysInMonth(year: int, month: int): int
    requires 1 <= month <= 12
  {
    if month == 2 then (if IsLeapYear(year) then 29 else 28)
    else if month == 4 || month == 6 || month == 9 || month == 11 then 30
    else 31
  }

  /** The dates `datetime.date` accepts: years 1 to 9999. */
  predicate ValidYmd(year: int, month: int, day: int) {
    1 <= year <= 9999 && 1 <= month <= 12 && 1 <= day <= DaysInMonth(year, month)
  }

  /** `date.isoformat()`: four-digit year, two-digit month and day. */
  function IsoFormat(year: int, month: int, day: int): string
    requires ValidYmd(year, month, day)
  {
    Dashed(Pad(year, 4), Pad(month, 2), Pad(day, 2))
  }

  function Dashed(y: string, m: string, d: string): string {
    y + ("-" + (m + ("-" + d)))
  }

  /** A string that is exactly the ISO form of a real calendar date. */
  predicate IsCalendarIso(s: string) {
    && |s| == 10 && s[4] == '-' && s[7] == '-'
    && AllDigits(s[..4]) && AllDigits(s[5..7]) && AllDigits(s[8..])
    && ValidYmd(DigitsValue(s[..4]), DigitsValue(s[5..7]), DigitsValue(s[8..]))
  }

  /** `datetime.date(year, month, day).isoformat()`, with the ValueError
      messages of the constructor, checked in this order. */
  function MakeDate(year: int, month: int, day: int): (r: Result<string, string>)
    ensures r.Success? <==> ValidYmd(year, month, day)
    ensures r.Success? ==> IsCalendarIso(r.value)
    ensures r.Success? ==> && DigitsValue(r.value[..4]) == year
                           && DigitsValue(r.value[5..7]) == month
                           && DigitsValue(r.value[8..]) == day
  {
    if !(1 <= year <= 9999) then Failure("year " + IntToString(year) + " is out of range")
    else if !(1 <= month <= 12) then Failure("month must be in 1..12")
    else if !(1 <= day <= DaysInMonth(year, month)) then Failure("day is out of range for month")
    else
      IsoFormatShape(year, month, day);
      Success(IsoFormat(year, month, day))
  }

  lemma IsoFormatShape(year: int, month: int, day: int)
    requires ValidYmd(year, month, day)
    ensures var s := IsoFormat(year, month, day);
            && |s| == 10 && s[..4] == Pad(year, 4) && s[5..7] == Pad(month, 2) && s[8..] == Pad(day, 2)
            && IsCalendarIso(s)
  {
    assert Pow10(4) == 10000;
    assert Pow10(2) == 100;
    var y, m, d := Pad(year, 4), Pad(month, 2), Pad(day, 2);
    assert |y| == 4 && |m| == 2 && |d| == 2;
    ThreeParts(y, m, d);
  }

  /** Where the parts of `y-m-d` sit, for a four-digit `y` and two-digit `m`, `d`. */
  lemma ThreeParts(y: string, m: string, d: string)
    requires |y| == 4 && |m| == 2 && |d| == 2
    ensures var s := y + ("-" + (m + ("-" + d)));
            |s| == 10 && s[..4] == y && s[4] == '-' && s[5..7] == m && s[7] == '-' && s[8..] == d
  {
  }

  // ------------------------------------------------------------- validation

  /** `map(int, parts)` forced by `*`-unpacking: the first failing `int()`
      is the error. */
  function PyIntAll(parts: seq<string>): (r: Result<seq<int>, string>)
    ensures r.Success? ==> |r.value| == |parts|
    ensures r.Success? ==> forall i :: 0 <= i < |parts| ==> PyInt(parts[i]) == Success(r.value[i])
  {
    if |parts| == 0 then Success([])
    else match PyInt(parts[0])
      case Failure(e) => Failure(e)
      case Success(first) =>
        match PyIntAll(parts[1..])
        case Failure(e) => Failure(e)
        case Success(rest) =>
          ParsedCons(PyInt, parts, first, rest);
          Success([first] + rest)
  }

  /** Parsing the head and, pointwise, the tail parses the whole list. */
  lemma ParsedCons<A, B, E>(parse: A -> Result<B, E>, parts: seq<A>, first: B, rest: seq<B>)
    requires |parts| > 0 && parse(parts[0]) == Success(first) && |rest| == |parts| - 1
    requires forall i :: 0 <= i < |rest| ==> parse(parts[1..][i]) == Success(rest[i])
    ensures forall i :: 0 <= i < |parts| ==> parse(parts[i]) == Success(([first] + rest)[i])
  {
    forall i | 0 <= i < |parts|
      ensures parse(parts[i]) == Success(([first] + rest)[i])
    {
      if i > 0 {
        assert parts[i] == parts[1..][i - 1];
      }
    }
  }

  /** `_validate_date`: `datetime.date(*map(int, s.split('-'))).isoformat()`,
      with the TypeError messages for the wrong number of parts. */
  function ValidateDate(s: string): (r: Result<string, string>)
    ensures r.Success? ==> IsCalendarIso(r.value)
  {
    var numbers :- PyIntAll(Split(s, '-'));
    if |numbers| == 1 then Failure("function missing required argument 'month' (pos 2)")
    else if |numbers| == 2 then Failure("function missing required argument 'day' (pos 3)")
    else if |numbers| > 3 then
      Failure("function takes at most 3 arguments (" + IntToString(|numbers|) + " given)")
    else MakeDate(numbers[0], numbers[1], numbers[2])
  }

  /** A string that already is the ISO form of a real date passes validation
      unchanged, so validating twice is validating once. */
  lemma ValidateIsoUnchanged(s: string)
    requires IsCalendarIso(s)
    ensures ValidateDate(s) == Success(s)
  {
    var y, m, d := s[..4], s[5..7], s[8..];
    ParseIso(s);
    ValidateThree(s);
    var year, month, day := DigitsValue(y) as int, DigitsValue(m) as int, DigitsValue(d) as int;
    assert MakeDate(year, month, day) == Success(IsoFormat(year, month, day));
    PadDigits(y);
    PadDigits(m);
    PadDigits(d);
    assert IsoFormat(year, month, day) == y + ("-" + (m + ("-" + d)));
  }

  /** The parts of an ISO date parse to its year, month and day. */
  lemma ParseIso(s: string)
    requires IsCalendarIso(s)
    ensures PyIntAll(Split(s, '-')).Success? && |Split(s, '-')| == 3
    ensures var ns := PyIntAll(Split(s, '-')).value;
            ns[0] == DigitsValue(s[..4]) as int && ns[1] == DigitsValue(s[5..7]) as int && ns[2] == DigitsValue(s[8..]) as int
    ensures s == s[..4] + ("-" + (s[5..7] + ("-" + s[8..])))
  {
    SplitIso(s);
    DigitPartsParse(Split(s, '-'));
  }

  /** A string of three parts that all parse is validated as a date. */
  lemma ValidateThree(s: string)
    requires PyIntAll(Split(s, '-')).Success? && |Split(s, '-')| == 3
    ensures var ns := PyIntAll(Split(s, '-')).value;
            ValidateDate(s) == MakeDate(ns[0], ns[1], ns[2])
  {
  }

  lemma SplitIso(s: string)
    requires IsCalendarIso(s)
    ensures Split(s, '-') == [s[..4], s[5..7], s[8..]]
    ensures forall i :: 0 <= i < |Split(s, '-')| ==> |Split(s, '-')[i]| > 0 && AllDigits(Split(s, '-')[i])
    ensures s == s[..4] + ("-" + (s[5..7] + ("-" + s[8..])))
  {
    var y, m, d := s[..4], s[5..7], s[8..];
    assert Join([y, m, d], "-") == s by {
      assert [y, m, d][1..] == [m, d];
      assert [m, d][1..] == [d];
      assert Join([m, d], "-") == m + "-" + d;
      assert s == y + "-" + (m + "-" + d);
    }
    assert '-' !in y && '-' !in m && '-' !in d by {
      assert forall i :: 0 <= i < |y| ==> IsDigit(y[i]);
      assert forall i :: 0 <= i < |m| ==> IsDigit(m[i]);
      assert forall i :: 0 <= i < |d| ==> IsDigit(d[i]);
    }
    SplitJoin([y, m, d], '-');
  }

  /** Parts that are all plain digit strings parse to the numbers they denote. */
  lemma DigitPartsParse(parts: seq<string>)
    requires forall i :: 0 <= i < |parts| ==> |parts[i]| > 0 && AllDigits(parts[i])
    ensures PyIntAll(parts).Success?
    ensures forall i :: 0 <= i < |parts| ==> PyIntAll(parts).value[i] == DigitsValue(parts[i]) as int
  {
    forall i | 0 <= i < |parts|
      ensures PyInt(parts[i]) == Success(DigitsValue(parts[i]) as int)
    {
      PyIntDigits(parts[i]);
    }
    PyIntAllSucceeds(parts);
  }

  /** `map(int, parts)` succeeds when every part parses. */
  lemma {:induction false} PyIntAllSucceeds(parts: seq<string>)
    requires forall i :: 0 <= i < |parts| ==> PyInt(parts[i]).Success?
    ensures PyIntAll(parts).Success?
  {
    if |parts| > 0 {
      assert forall i :: 0 <= i < |parts| - 1 ==> parts[1..][i] == parts[i + 1];
      PyIntAllSucceeds(parts[1..]);
    }
  }

  // ------------------------------------------------------------- re.sub

  /** One piece of a replacement template: a back-reference `\n` or text. */
  datatype Piece = Group(n: nat) | Lit(text: string)

  /** The substitution `(\d{w1})[^\w]?(\d{w2})[^\w]?(\d{w3})` -> `template`. */
  datatype Layout = Layout(w1: nat, w2: nat, w3: nat, template: seq<Piece>)

  predicate WellFormed(l: Layout) {
    l.w1 >= 1 && l.w2 >= 1 && l.w3 >= 1
  }

  /** A match at the front of a text: its three groups and the text after it. */
  datatype Match = Match(groups: seq<string>, rest: string)

  /** What `[^\w]?` leaves of `t`: it takes one character exactly when that
      character is not a word character. (Backtracking never gives it back,
      since the `\d` that follows cannot match a non-word character.) */
  function SkipSep(t: string): (r: string)
    ensures |r| <= |t| <= |r| + 1
  {
    if |t| > 0 && !IsWordChar(t[0]) then t[1..] else t
  }

  /** `w` digits at the front of `t`, and what follows them. */
  function TakeDigits(t: string, w: nat): (r: Option<(string, string)>)
    ensures r.Some? ==> |r.value.0| == w && AllDigits(r.value.0) && r.value.0 + r.value.1 == t
  {
    if w <= |t| && AllDigits(t[..w]) then
      assert t[..w] + t[w..] == t;
      Some((t[..w], t[w..]))
    else None
  }

  /** The match of the layout's pattern at the very front of `t`, if any. */
  function MatchFront(t: string, l: Layout): (m: Option<Match>)
    ensures m.Some? ==> |m.value.groups| == 3 && |m.value.rest| + l.w1 + l.w2 + l.w3 <= |t|
  {
    match TakeDigits(t, l.w1)
    case None => None
    case Some((g1, t1)) =>
      match TakeDigits(SkipSep(t1), l.w2)
      case None => None
      case Some((g2, t2)) =>
        match TakeDigits(SkipSep(t2), l.w3)
        case None => None
        case Some((g3, t3)) => Some(Match([g1, g2, g3], t3))
  }

  /** A template with the groups of a match filled in. */
  function Expand(template: seq<Piece>, groups: seq<string>): string {
    if |template| == 0 then "" else PieceText(template[0], groups) + Expand(template[1..], groups)
  }

  function PieceText(p: Piece, groups: seq<string>): string {
    match p
    case Group(n) => if 1 <= n <= |groups| then groups[n - 1] else ""
    case Lit(t) => t
  }

  lemma ExpandDashed(i: nat, j: nat, k: nat, g: seq<string>)
    requires 1 <= i <= |g| && 1 <= j <= |g| && 1 <= k <= |g|
    ensures Expand([Group(i), Lit("-"), Group(j), Lit("-"), Group(k)], g) == Dashed(g[i - 1], g[j - 1], g[k - 1])
  {
    ExpandFive(Group(i), Lit("-"), Group(j), Lit("-"), Group(k), g);
    GroupText(i, g);
    GroupText(j, g);
    GroupText(k, g);
  }

  lemma ExpandJoined(i: nat, j: nat, k: nat, g: seq<string>)
    requires 1 <= i <= |g| && 1 <= j <= |g| && 1 <= k <= |g|
    ensures Expand([Group(i), Group(j), Group(k)], g) == g[i - 1] + (g[j - 1] + g[k - 1])
  {
    ExpandThree(Group(i), Group(j), Group(k), g);
    GroupText(i, g);
    GroupText(j, g);
    GroupText(k, g);
  }

  lemma GroupText(i: nat, g: seq<string>)
    requires 1 <= i <= |g|
    ensures PieceText(Group(i), g) == g[i - 1]
  {
  }

  lemma ExpandThree(p: Piece, q: Piece, r: Piece, g: seq<string>)
    ensures Expand([p, q, r], g) == PieceText(p, g) + (PieceText(q, g) + PieceText(r, g))
  {
    assert [p, q, r][1..] == [q, r];
    assert [q, r][1..] == [r];
    assert [r][1..] == [];
    assert Expand([r], g) == PieceText(r, g) + "" == PieceText(r, g);
    assert Expand([q, r], g) == PieceText(q, g) + Expand([r], g);
  }

  lemma ExpandFive(p: Piece, q: Piece, r: Piece, s: Piece, t: Piece, g: seq<string>)
    ensures Expand([p, q, r, s, t], g)
         == PieceText(p, g) + (PieceText(q, g) + (PieceText(r, g) + (PieceText(s, g) + PieceText(t, g))))
  {
    assert [p, q, r, s, t][1..] == [q, r, s, t];
    assert [q, r, s, t][1..] == [r, s, t];
    ExpandThree(r, s, t, g);
  }


  /** `re.sub(pattern, template, t)`: scanning left to right, each match is
      replaced by the expanded template and scanning resumes after it; a
      character where no match starts is kept. */
  function Substitute(t: string, l: Layout): string
    requires WellFormed(l)
    decreases |t|
  {
    if |t| == 0 then ""
    else match MatchFront(t, l)
      case Some(m) => Expand(l.template, m.groups) + Substitute(m.rest, l)
      case None => [t[0]] + Substitute(t[1..], l)
  }

  /** `""` or one non-word character: what `[^\w]?` can match. */
  predicate IsSeparator(o: string) {
    |o| == 0 || (|o| == 1 && !IsWordChar(o[0]))
  }

  /** The three digit groups with optional separators between them. */
  function Spaced(a: string, o1: string, b: string, o2: string, c: string): string {
    a + (o1 + (b + (o2 + c)))
  }

  /** A value made of exactly the layout's digit groups, separated by at
      most one non-word character each, is replaced as a whole. */
  lemma SubstituteWhole(l: Layout, a: string, o1: string, b: string, o2: string, c: string)
    requires WellFormed(l)
    requires |a| == l.w1 && |b| == l.w2 && |c| == l.w3
    requires AllDigits(a) && AllDigits(b) && AllDigits(c)
    requires IsSeparator(o1) && IsSeparator(o2)
    ensures Substitute(Spaced(a, o1, b, o2, c), l) == Expand(l.template, [a, b, c])
  {
    var t := Spaced(a, o1, b, o2, c);
    MatchWhole(l, a, o1, b, o2, c);
    assert Substitute("", l) == "";
  }

  lemma MatchWhole(l: Layout, a: string, o1: string, b: string, o2: string, c: string)
    requires WellFormed(l)
    requires |a| == l.w1 && |b| == l.w2 && |c| == l.w3
    requires AllDigits(a) && AllDigits(b) && AllDigits(c)
    requires IsSeparator(o1) && IsSeparator(o2)
    ensures MatchFront(Spaced(a, o1, b, o2, c), l) == Some(Match([a, b, c], ""))
  {
    var t2 := o2 + c;
    var t1 := o1 + (b + t2);
    assert Spaced(a, o1, b, o2, c) == a + t1;
    TakeFront(a, t1);
    SkipSeparator(o1, b + t2);
    TakeFront(b, t2);
    SkipSeparator(o2, c);
    TakeFront(c, "");
    assert c + "" == c;
    MatchFrontSteps(a + t1, l, a, t1, b, t2, c, "");
  }

  /** Three successful digit-group steps make a match. */
  lemma MatchFrontSteps(t: string, l: Layout, a: string, t1: string, b: string, t2: string, c: string, t3: string)
    requires TakeDigits(t, l.w1) == Some((a, t1))
    requires TakeDigits(SkipSep(t1), l.w2) == Some((b, t2))
    requires TakeDigits(SkipSep(t2), l.w3) == Some((c, t3))
    ensures MatchFront(t, l) == Some(Match([a, b, c], t3))
  {
  }


  /** Digits at the front are taken, leaving what follows them. */
  lemma TakeFront(x: string, rest: string)
    requires AllDigits(x)
    ensures TakeDigits(x + rest, |x|) == Some((x, rest))
  {
    assert (x + rest)[..|x|] == x;
    assert (x + rest)[|x|..] == rest;
  }

  /** `[^\w]?` takes exactly the separator in front of a digit. */
  lemma SkipSeparator(o: string, rest: string)
    requires IsSeparator(o)
    requires |rest| > 0 && IsDigit(rest[0])
    ensures SkipSep(o + rest) == rest
  {
    if |o| == 0 {
      assert o + rest == rest;
    } else {
      assert (o + rest)[0] == o[0];
      assert (o + rest)[1..] == rest;
    }
  }

  // ------------------------------------------------------------- formats

  /** A layout name such as `mm.dd.yyyy`: three tokens with at most one
      non-word character between neighbours. */
  datatype Format = Format(first: string, second: string, third: string)

  /** `s` with `token` taken off its front, then what `[^\w]?` takes. */
  function AfterToken(s: string, token: string): Option<string> {
    if |token| <= |s| && s[..|token|] == token then Some(SkipSep(s[|token|..])) else None
  }

  /** `re.match('^first[^\w]?second[^\w]?third$', fmt)` for letter tokens. */
  predicate FormatMatches(fmt: string, f: Format) {
    match AfterToken(BeforeFinalNewline(fmt), f.first)
    case None => false
    case Some(r1) =>
      match AfterToken(r1, f.second)
      case None => false
      case Some(r2) => r2 == f.third
  }

  /** A recognised original format and the rearrangement it selects. */
  datatype DateLayout = DateLayout(format: Format, layout: Layout)

  const MonthDayYear: DateLayout :=
    DateLayout(Format("mm", "dd", "yyyy"), Layout(2, 2, 4, [Group(3), Lit("-"), Group(1), Lit("-"), Group(2)]))
  const DayMonthYear: DateLayout :=
    DateLayout(Format("dd", "mm", "yyyy"), Layout(2, 2, 4, [Group(3), Lit("-"), Group(2), Lit("-"), Group(1)]))
  const YearMonthDay: DateLayout :=
    DateLayout(Format("yyyy", "mm", "dd"), Layout(4, 2, 2, [Group(1), Lit("-"), Group(2), Lit("-"), Group(3)]))

  /** Layouts with a four-digit year, in the order they are tried; each
      rearranges straight to `yyyy-mm-dd`. */
  const MillenniaLayouts: seq<DateLayout> := [MonthDayYear, DayMonthYear, YearMonthDay]

  const ShortYearMonthDay: DateLayout :=
    DateLayout(Format("yy", "mm", "dd"), Layout(2, 2, 2, [Group(3), Group(2), Group(1)]))
  const ShortDayMonthYear: DateLayout :=
    DateLayout(Format("dd", "mm", "yy"), Layout(2, 2, 2, [Group(1), Group(2), Group(3)]))
  const ShortMonthDayYear: DateLayout :=
    DateLayout(Format("mm", "dd", "yy"), Layout(2, 2, 2, [Group(2), Group(1), Group(3)]))

  /** Layouts with a two-digit year, in the order they are tried; each
      rearranges to `ddmmyy`. */
  const NoMillenniaLayouts: seq<DateLayout> := [ShortYearMonthDay, ShortDayMonthYear, ShortMonthDayYear]

  /** The first layout whose format matches `fmt`. */
  function FirstMatching(fmt: string, layouts: seq<DateLayout>): (r: Option<DateLayout>)
    ensures r.Some? ==> r.value in layouts && FormatMatches(fmt, r.value.format)
    ensures r.None? <==> forall i :: 0 <= i < |layouts| ==> !FormatMatches(fmt, layouts[i].format)
  {
    if |layouts| == 0 then None
    else if FormatMatches(fmt, layouts[0].format) then Some(layouts[0])
    else FirstMatching(fmt, layouts[1..])
  }

  /** The layout chosen is the first in the list whose format matches:
      when the layout at `j` matches, one at or before `j` is chosen. */
  lemma FirstMatchingIsFirst(fmt: string, layouts: seq<DateLayout>, j: nat)
    requires j < |layouts| && FormatMatches(fmt, layouts[j].format)
    ensures FirstMatching(fmt, layouts).Some? && FirstMatching(fmt, layouts).value in layouts[..j + 1]
  {
    FirstMatchingWhere(fmt, layouts);
    FirstWhereWithin((l: DateLayout) => FormatMatches(fmt, l.format), layouts, j);
  }

  /** The first element of `xs` satisfying `p`, if any. */
  function FirstWhere<T>(p: T -> bool, xs: seq<T>): Option<T> {
    if |xs| == 0 then None
    else if p(xs[0]) then Some(xs[0])
    else FirstWhere(p, xs[1..])
  }

  lemma {:induction false} FirstMatchingWhere(fmt: string, layouts: seq<DateLayout>)
    ensures FirstMatching(fmt, layouts) == FirstWhere((l: DateLayout) => FormatMatches(fmt, l.format), layouts)
  {
    if |layouts| > 0 {
      FirstMatchingWhere(fmt, layouts[1..]);
    }
  }

  lemma {:induction false} FirstWhereWithin<T>(p: T -> bool, xs: seq<T>, j: nat)
    requires j < |xs| && p(xs[j])
    ensures FirstWhere(p, xs).Some? && FirstWhere(p, xs).value in xs[..j + 1]
  {
    if !p(xs[0]) {
      assert xs[1..][j - 1] == xs[j];
      FirstWhereWithin(p, xs[1..], j - 1);
      assert xs[1..][..j] == xs[1..j + 1];
    }
  }

  // ------------------------------------------------------------- casting

  /** `str(failure)` of the ValueError every date-cast failure becomes. */
  function DateError(dateValue: string, cause: string): string {
    DatePrefix(dateValue) + cause + ")"
  }

  lemma DateErrorPrefix(dateValue: string, cause: string)
    ensures DatePrefix(dateValue) <= DateError(dateValue, cause)
  {
    assert DateError(dateValue, cause) == DatePrefix(dateValue) + (cause + ")");
  }

  function DatePrefix(dateValue: string): string {
    "Unable to cast (" + dateValue + ") to ISO date. Exc("
  }

  function Wrap(dateValue: string, r: Result<string, string>): (w: Result<string, string>)
    ensures w.Success? <==> r.Success?
    ensures r.Success? ==> w == r
    ensures r.Failure? ==> w.error == DateError(dateValue, r.error)
  {
    match r
    case Success(s) => Success(s)
    case Failure(e) => Failure(DateError(dateValue, e))
  }

  /** `re.match(r'^\d{4}-\d{2}-\d{2}', s)`: the value starts like an ISO date. */
  predicate IsoPrefixed(s: string) {
    && |s| >= 10 && s[4] == '-' && s[7] == '-'
    && AllDigits(s[..4]) && AllDigits(s[5..7]) && AllDigits(s[8..10])
  }

  /** The message of the TypeError `re.match` raises for a `None` format. */
  const NoFormatError: string := "expected string or bytes-like object"

  /** `_cast_with_millennia`. */
  function CastWithMillennia(dateValue: string, fmt: string): (r: Result<string, string>)
    ensures r.Failure? <==> FirstMatching(fmt, MillenniaLayouts).None?
  {
    match FirstMatching(fmt, MillenniaLayouts)
    case Some(d) => Success(Substitute(dateValue, d.layout))
    case None => Failure("Unable to case to milennia format: " + dateValue)
  }

  /** The year a two-digit year denotes: the latest year not after
      `currentYear` that ends in those digits. */
  function InferYear(currentYear: int, inYear: int): (year: int)
    ensures 0 <= inYear < 100 ==> currentYear - 100 < year <= currentYear && year % 100 == inYear
  {
    var century := (currentYear / 100) * 100;
    var yy := currentYear % 100;
    if inYear > yy then century - 100 + inYear else century + inYear
  }

  /** `_convert_ddmmyy_to_iso_date`: day, month and two-digit year from the
      first six characters. */
  function ConvertDdmmyy(currentYear: int, s: string): (r: Result<string, string>)
    ensures r.Success? ==> IsCalendarIso(r.value)
  {
    var day :- PyInt(PySlice(s, 0, Some(2)));
    var month :- PyInt(PySlice(s, 2, Some(4)));
    var year :- PyInt(PySlice(s, 4, Some(6)));
    MakeDate(InferYear(currentYear, year), month, day)
  }

  /** `_cast_with_no_millennia`. */
  function CastWithNoMillennia(currentYear: int, dateValue: string, fmt: string): (r: Result<string, string>)
    ensures r.Success? ==> IsCalendarIso(r.value)
    ensures FirstMatching(fmt, NoMillenniaLayouts).None? ==>
              r == Failure("Unable to cast to no millennia format: " + dateValue)
  {
    ConvertChosen(currentYear, dateValue, FirstMatching(fmt, NoMillenniaLayouts))
  }

  /** The six-digit conversion under the chosen two-digit-year layout. */
  function ConvertChosen(currentYear: int, dateValue: string, chosen: Option<DateLayout>): (r: Result<string, string>)
    requires chosen.Some? ==> WellFormed(chosen.value.layout)
    ensures r.Success? ==> IsCalendarIso(r.value)
  {
    match chosen
    case Some(d) => ConvertDdmmyy(currentYear, Substitute(dateValue, d.layout))
    case None => Failure("Unable to cast to no millennia format: " + dateValue)
  }

  /** The part of `cast_to_date` after the ISO check, for a format given:
      four-digit-year layouts, then two-digit-year layouts, then validation,
      with every failure wrapped. */
  function CastFormatted(currentYear: int, dateValue: string, fmt: string): (r: Result<string, string>)
    ensures r.Success? ==> IsCalendarIso(r.value)
    ensures FirstMatching(fmt, MillenniaLayouts).None? && FirstMatching(fmt, NoMillenniaLayouts).None? ==>
              r == Failure(DateError(dateValue, "Unable to cast to no millennia format: " + dateValue))
  {
    match CastWithMillennia(dateValue, fmt)
    case Success(s) => Wrap(dateValue, ValidateDate(s))
    case Failure(_) =>
      match CastWithNoMillennia(currentYear, dateValue, fmt)
      case Success(s) => Wrap(dateValue, ValidateDate(s))
      case Failure(e) => Failure(DateError(dateValue, e))
  }

  /** `cast_to_date`. A `None` format makes `re.match` raise a TypeError that
      escapes the function unwrapped; the model returns it as a failure. */
  function CastToDate(env: Env, v: Value, originalFormat: Option<string>): (r: Result<string, string>)
    ensures r.Success? ==> IsCalendarIso(r.value)
  {
    var dv := Stringify(env, v);
    if IsoPrefixed(dv) then Wrap(dv, ValidateDate(dv))
    else match originalFormat
      case None => Failure(NoFormatError)
      case Some(fmt) => CastFormatted(env.currentYear, dv, fmt)
  }

  /** A value that starts like an ISO date is only validated: the format is
      not consulted. */
  lemma IsoIgnoresFormat(env: Env, v: Value, f: Option<string>, g: Option<string>)
    requires IsoPrefixed(Stringify(env, v))
    ensures CastToDate(env, v, f) == CastToDate(env, v, g)
    ensures var dv := Stringify(env, v);
            CastToDate(env, v, f) == Wrap(dv, ValidateDate(dv))
  {
  }

  /** Every failure, except the TypeError of a missing format, carries the
      value and is worded `Unable to cast (<value>) to ISO date. Exc(...)`. */
  lemma FailuresWrapped(env: Env, v: Value, originalFormat: Option<string>)
    requires CastToDate(env, v, originalFormat).Failure?
    ensures var dv := Stringify(env, v);
            IsoPrefixed(dv) || originalFormat.Some? ==> DatePrefix(dv) <= CastToDate(env, v, originalFormat).error
    ensures var dv := Stringify(env, v);
            !IsoPrefixed(dv) && originalFormat.None? ==> CastToDate(env, v, originalFormat) == Failure(NoFormatError)
  {
    var dv := Stringify(env, v);
    if IsoPrefixed(dv) {
      DateErrorPrefix(dv, ValidateDate(dv).error);
    } else if originalFormat.Some? {
      var fmt := originalFormat.value;
      match CastWithMillennia(dv, fmt)
      case Success(s) =>
        DateErrorPrefix(dv, ValidateDate(s).error);
      case Failure(_) =>
        match CastWithNoMillennia(env.currentYear, dv, fmt)
        case Success(s) =>
          DateErrorPrefix(dv, ValidateDate(s).error);
        case Failure(e) =>
          DateErrorPrefix(dv, e);
    }
  }

  /** A format none of the six layouts recognises fails with the message of
      the two-digit-year step, wrapped. */
  lemma UnknownFormat(env: Env, v: Value, fmt: string)
    requires !IsoPrefixed(Stringify(env, v))
    requires FirstMatching(fmt, MillenniaLayouts).None? && FirstMatching(fmt, NoMillenniaLayouts).None?
    ensures var dv := Stringify(env, v);
            CastToDate(env, v, Some(fmt)) == Failure(DateError(dv, "Unable to cast to no millennia format: " + dv))
  {
  }

  // ------------------------------------------------------------- properties

  /** A value that is already the ISO form of a real date comes back
      unchanged, whatever the format says. */
  lemma CastIsoUnchanged(env: Env, s: string, originalFormat: Option<string>)
    requires IsCalendarIso(s)
    ensures CastToDate(env, Str(s), originalFormat) == Success(s)
  {
    assert Stringify(env, Str(s)) == s;
    assert IsoPrefixed(s) by {
      assert s[8..10] == s[8..];
    }
    IsoIgnoresFormat(env, Str(s), originalFormat, originalFormat);
    assert Wrap(s, ValidateDate(s)) == Success(s) by {
      ValidateIsoUnchanged(s);
    }
  }

  /** Casting the result of a successful cast again changes nothing. */
  lemma CastIdempotent(env: Env, v: Value, f: Option<string>, g: Option<string>)
    requires CastToDate(env, v, f).Success?
    ensures CastToDate(env, Str(CastToDate(env, v, f).value), g) == CastToDate(env, v, f)
  {
    CastIsoUnchanged(env, CastToDate(env, v, f).value, g);
  }

  /** How a date is written in the `i`-th four-digit-year layout. */
  function WrittenMillennia(i: nat, year: string, month: string, day: string, o1: string, o2: string): string {
    if i == 0 then Spaced(month, o1, day, o2, year)
    else if i == 1 then Spaced(day, o1, month, o2, year)
    else Spaced(year, o1, month, o2, day)
  }

  /** How a date is written in the `i`-th two-digit-year layout. */
  function WrittenShort(i: nat, year: string, month: string, day: string, o1: string, o2: string): string {
    if i == 0 then Spaced(year, o1, month, o2, day)
    else if i == 1 then Spaced(day, o1, month, o2, year)
    else Spaced(month, o1, day, o2, year)
  }

  /** A value written in the four-digit-year layout its format names is
      rearranged to `yyyy-mm-dd` before validation. */
  lemma MillenniaRearranges(env: Env, fmt: string, i: nat, year: string, month: string, day: string, o1: string, o2: string)
    requires i < |MillenniaLayouts| && FormatMatches(fmt, MillenniaLayouts[i].format)
    requires |year| == 4 && |month| == 2 && |day| == 2
    requires AllDigits(year) && AllDigits(month) && AllDigits(day)
    requires IsSeparator(o1) && IsSeparator(o2)
    ensures var dv := WrittenMillennia(i, year, month, day, o1, o2);
            CastToDate(env, Str(dv), Some(fmt)) == Wrap(dv, ValidateDate(Dashed(year, month, day)))
  {
    var dv := WrittenMillennia(i, year, month, day, o1, o2);
    var dl := MillenniaLayouts[i];
    assert Substitute(dv, dl.layout) == Dashed(year, month, day) by {
      MillenniaSubstitute(i, year, month, day, o1, o2);
    }
    IsoOnlyWhenDashed(i, year, month, day, o1, o2);
    if IsoPrefixed(dv) {
      CastIsoString(env, dv, Some(fmt));
    } else {
      MillenniaChosen(fmt, i);
      CastByMillennia(env, dv, fmt, dl);
    }
  }

  /** A string that starts like an ISO date is validated as it is. */
  lemma CastIsoString(env: Env, dv: string, f: Option<string>)
    requires IsoPrefixed(dv)
    ensures CastToDate(env, Str(dv), f) == Wrap(dv, ValidateDate(dv))
  {
    IsoIgnoresFormat(env, Str(dv), f, f);
  }

  /** Otherwise the first four-digit-year layout the format matches is applied. */
  lemma CastByMillennia(env: Env, dv: string, fmt: string, dl: DateLayout)
    requires !IsoPrefixed(dv) && WellFormed(dl.layout) && FirstMatching(fmt, MillenniaLayouts) == Some(dl)
    ensures CastToDate(env, Str(dv), Some(fmt)) == Wrap(dv, ValidateDate(Substitute(dv, dl.layout)))
  {
    StringifyStr(env, dv);
    CastByFormat(env, Str(dv), dv, fmt);
    FormattedWithMillennia(env.currentYear, dv, fmt, dl);
  }

  /** Failing every four-digit-year layout, the first two-digit-year layout
      the format matches is applied. */
  lemma CastByShort(env: Env, dv: string, fmt: string, dl: DateLayout)
    requires !IsoPrefixed(dv) && WellFormed(dl.layout)
    requires FirstMatching(fmt, MillenniaLayouts).None? && FirstMatching(fmt, NoMillenniaLayouts) == Some(dl)
    ensures CastToDate(env, Str(dv), Some(fmt)) == Wrap(dv, ConvertDdmmyy(env.currentYear, Substitute(dv, dl.layout)))
  {
    StringifyStr(env, dv);
    CastByFormat(env, Str(dv), dv, fmt);
    FormattedWithShort(env.currentYear, dv, fmt, dl);
  }

  /** The four-digit-year layout a format names is the one chosen. */
  lemma MillenniaChosen(fmt: string, i: nat)
    requires i < |MillenniaLayouts| && FormatMatches(fmt, MillenniaLayouts[i].format)
    ensures FirstMatching(fmt, MillenniaLayouts) == Some(MillenniaLayouts[i])
  {
    FirstOfThree(fmt, MillenniaLayouts, i);
  }

  /** The two-digit-year layout a format names is the one chosen, and no
      four-digit-year layout is. */
  lemma ShortChosen(fmt: string, i: nat)
    requires i < |NoMillenniaLayouts| && FormatMatches(fmt, NoMillenniaLayouts[i].format)
    ensures FirstMatching(fmt, MillenniaLayouts).None?
    ensures FirstMatching(fmt, NoMillenniaLayouts) == Some(NoMillenniaLayouts[i])
  {
    NoMillenniaExcludesMillennia(fmt, i);
    FirstOfThree(fmt, NoMillenniaLayouts, i);
  }

  /** Without an ISO prefix the value goes through the format's layouts. */
  lemma CastByFormat(env: Env, v: Value, dv: string, fmt: string)
    requires Stringify(env, v) == dv && !IsoPrefixed(dv)
    ensures CastToDate(env, v, Some(fmt)) == CastFormatted(env.currentYear, dv, fmt)
  {
  }


  /** A four-digit-year layout that matches is applied, then the result validated. */
  lemma FormattedWithMillennia(currentYear: int, dateValue: string, fmt: string, dl: DateLayout)
    requires WellFormed(dl.layout) && FirstMatching(fmt, MillenniaLayouts) == Some(dl)
    ensures CastFormatted(currentYear, dateValue, fmt) == Wrap(dateValue, ValidateDate(Substitute(dateValue, dl.layout)))
  {
  }

  /** Otherwise a two-digit-year layout that matches is applied and the
      century inferred; the ISO date that gives is valid already. */
  lemma FormattedWithShort(currentYear: int, dateValue: string, fmt: string, dl: DateLayout)
    requires WellFormed(dl.layout)
    requires FirstMatching(fmt, MillenniaLayouts).None? && FirstMatching(fmt, NoMillenniaLayouts) == Some(dl)
    ensures CastFormatted(currentYear, dateValue, fmt) == Wrap(dateValue, ConvertDdmmyy(currentYear, Substitute(dateValue, dl.layout)))
  {
    var converted := ConvertDdmmyy(currentYear, Substitute(dateValue, dl.layout));
    if converted.Success? {
      ValidateIsoUnchanged(converted.value);
    }
  }

  /** The only way a value written in a four-digit-year layout can start like
      an ISO date is to already be `yyyy-mm-dd`. */
  lemma IsoOnlyWhenDashed(i: nat, year: string, month: string, day: string, o1: string, o2: string)
    requires i < 3
    requires |year| == 4 && |month| == 2 && |day| == 2
    requires AllDigits(year) && AllDigits(month) && AllDigits(day)
    requires IsSeparator(o1) && IsSeparator(o2)
    ensures var dv := WrittenMillennia(i, year, month, day, o1, o2);
            IsoPrefixed(dv) ==> dv == Dashed(year, month, day)
  {
    var dv := WrittenMillennia(i, year, month, day, o1, o2);
    if IsoPrefixed(dv) {
      assert IsDigit(dv[..4][2]);
      if i == 2 {
        assert o1 == "-";
        assert o2 == "-";
      } else {
        assert false;
      }
    }
  }

  /** A value written in the two-digit-year layout its format names is
      rearranged to `ddmmyy`, and the century is the one that puts the year
      in the hundred years up to the current one. */
  lemma NoMillenniaRearranges(env: Env, fmt: string, i: nat, year: string, month: string, day: string, o1: string, o2: string)
    requires i < |NoMillenniaLayouts| && FormatMatches(fmt, NoMillenniaLayouts[i].format)
    requires |year| == 2 && |month| == 2 && |day| == 2
    requires AllDigits(year) && AllDigits(month) && AllDigits(day)
    requires IsSeparator(o1) && IsSeparator(o2)
    ensures var dv := WrittenShort(i, year, month, day, o1, o2);
            CastToDate(env, Str(dv), Some(fmt)) ==
              Wrap(dv, MakeDate(InferYear(env.currentYear, DigitsValue(year)), DigitsValue(month), DigitsValue(day)))
  {
    var dv := WrittenShort(i, year, month, day, o1, o2);
    var dl := NoMillenniaLayouts[i];
    assert Substitute(dv, dl.layout) == day + (month + year) by {
      ShortSubstitute(i, year, month, day, o1, o2);
    }
    ConvertSixDigits(env.currentYear, day, month, year);
    assert !IsoPrefixed(dv) by {
      ShortNotIso(i, year, month, day, o1, o2);
    }
    ShortChosen(fmt, i);
    CastByShort(env, dv, fmt, dl);
  }

  /** A value written with two-digit years is too short, or has a digit
      where an ISO date has its first dash. */
  lemma ShortNotIso(i: nat, year: string, month: string, day: string, o1: string, o2: string)
    requires |year| == 2 && |month| == 2 && |day| == 2
    requires AllDigits(year) && AllDigits(month) && AllDigits(day)
    requires IsSeparator(o1) && IsSeparator(o2)
    ensures !IsoPrefixed(WrittenShort(i, year, month, day, o1, o2))
  {
  }

  /** Six digits `ddmmyy` convert to the date they denote. */
  lemma ConvertSixDigits(currentYear: int, day: string, month: string, year: string)
    requires |year| == 2 && |month| == 2 && |day| == 2
    requires AllDigits(year) && AllDigits(month) && AllDigits(day)
    ensures ConvertDdmmyy(currentYear, day + (month + year)) ==
              MakeDate(InferYear(currentYear, DigitsValue(year)), DigitsValue(month), DigitsValue(day))
  {
    SixSlices(day, month, year);
    PyIntDigits(day);
    PyIntDigits(month);
    PyIntDigits(year);
    ConvertParsed(currentYear, day + (month + year), DigitsValue(day), DigitsValue(month), DigitsValue(year));
  }

  /** The slices `[0:2]`, `[2:4]` and `[4:6]` of `a + (b + c)` are its three
      two-element pieces. */
  lemma SixSlices<T>(a: seq<T>, b: seq<T>, c: seq<T>)
    requires |a| == 2 && |b| == 2 && |c| == 2
    ensures var s := a + (b + c);
            PySlice(s, 0, Some(2)) == a && PySlice(s, 2, Some(4)) == b && PySlice(s, 4, Some(6)) == c
  {
    var s := a + (b + c);
    assert s[0..2] == a;
    assert s[2..4] == b;
    assert s[4..6] == c;
  }

  /** Once the three slices parse, the conversion is `MakeDate` of them. */
  lemma ConvertParsed(currentYear: int, s: string, day: int, month: int, year: int)
    requires PyInt(PySlice(s, 0, Some(2))) == Success(day)
    requires PyInt(PySlice(s, 2, Some(4))) == Success(month)
    requires PyInt(PySlice(s, 4, Some(6))) == Success(year)
    ensures ConvertDdmmyy(currentYear, s) == MakeDate(InferYear(currentYear, year), month, day)
  {
  }

  /** The substitution of each four-digit-year layout. */
  lemma MillenniaSubstitute(i: nat, year: string, month: string, day: string, o1: string, o2: string)
    requires i < 3
    requires |year| == 4 && |month| == 2 && |day| == 2
    requires AllDigits(year) && AllDigits(month) && AllDigits(day)
    requires IsSeparator(o1) && IsSeparator(o2)
    ensures Substitute(WrittenMillennia(i, year, month, day, o1, o2), MillenniaLayouts[i].layout) == Dashed(year, month, day)
  {
    var dl := MillenniaLayouts[i];
    if i == 0 {
      SubstituteWhole(dl.layout, month, o1, day, o2, year);
      ExpandDashed(3, 1, 2, [month, day, year]);
    } else if i == 1 {
      SubstituteWhole(dl.layout, day, o1, month, o2, year);
      ExpandDashed(3, 2, 1, [day, month, year]);
    } else {
      SubstituteWhole(dl.layout, year, o1, month, o2, day);
      ExpandDashed(1, 2, 3, [year, month, day]);
    }
  }

  /** The substitution of each two-digit-year layout. */
  lemma ShortSubstitute(i: nat, year: string, month: string, day: string, o1: string, o2: string)
    requires i < 3
    requires |year| == 2 && |month| == 2 && |day| == 2
    requires AllDigits(year) && AllDigits(month) && AllDigits(day)
    requires IsSeparator(o1) && IsSeparator(o2)
    ensures Substitute(WrittenShort(i, year, month, day, o1, o2), NoMillenniaLayouts[i].layout) == day + (month + year)
  {
    var dl := NoMillenniaLayouts[i];
    if i == 0 {
      SubstituteWhole(dl.layout, year, o1, month, o2, day);
      ExpandJoined(3, 2, 1, [year, month, day]);
    } else if i == 1 {
      SubstituteWhole(dl.layout, day, o1, month, o2, year);
      ExpandJoined(1, 2, 3, [day, month, year]);
    } else {
      SubstituteWhole(dl.layout, month, o1, day, o2, year);
      ExpandJoined(2, 1, 3, [month, day, year]);
    }
  }

  /** A format that matches starts with the first letter of its first token. */
  lemma FormatStart(fmt: string, f: Format)
    requires FormatMatches(fmt, f) && |f.first| > 0
    ensures |BeforeFinalNewline(fmt)| > 0 && BeforeFinalNewline(fmt)[0] == f.first[0]
  {
    var b := BeforeFinalNewline(fmt);
    assert b[..|f.first|] == f.first;
  }

  /** Among three formats with different first letters, the one `fmt`
      matches is the one chosen. */
  lemma FirstOfThree(fmt: string, layouts: seq<DateLayout>, i: nat)
    requires |layouts| == 3 && i < 3 && FormatMatches(fmt, layouts[i].format)
    requires forall j :: 0 <= j < 3 ==> |layouts[j].format.first| > 0
    requires layouts[0].format.first[0] != layouts[1].format.first[0]
    requires layouts[0].format.first[0] != layouts[2].format.first[0]
    requires layouts[1].format.first[0] != layouts[2].format.first[0]
    ensures FirstMatching(fmt, layouts) == Some(layouts[i])
  {
    FormatStart(fmt, layouts[i].format);
    if i > 0 && FormatMatches(fmt, layouts[0].format) {
      FormatStart(fmt, layouts[0].format);
    }
    if i > 1 && FormatMatches(fmt, layouts[1].format) {
      FormatStart(fmt, layouts[1].format);
    }
    var t := layouts[1..];
    assert t[0] == layouts[1] && t[1..] == [layouts[2]];
    if i == 2 {
      assert FirstMatching(fmt, [layouts[2]]) == Some(layouts[2]);
    }
  }

  /** A two-digit-year format never matches a four-digit-year one, so the
      four-digit-year layouts are tried first without shadowing any. */
  lemma NoMillenniaExcludesMillennia(fmt: string, i: nat)
    requires i < |NoMillenniaLayouts| && FormatMatches(fmt, NoMillenniaLayouts[i].format)
    ensures FirstMatching(fmt, MillenniaLayouts).None?
  {
    var short := NoMillenniaLayouts[i].format;
    MatchCount(fmt, short);
    ShortYearLetters(i);
    forall j | 0 <= j < |MillenniaLayouts|
      ensures !FormatMatches(fmt, MillenniaLayouts[j].format)
    {
      LongYearLetters(j);
      if FormatMatches(fmt, MillenniaLayouts[j].format) {
        MatchCount(fmt, MillenniaLayouts[j].format);
      }
    }
  }

  lemma ShortYearLetters(i: nat)
    requires i < |NoMillenniaLayouts|
    ensures YearLetters(NoMillenniaLayouts[i].format) == 2
  {
  }

  lemma LongYearLetters(j: nat)
    requires j < |MillenniaLayouts|
    ensures YearLetters(MillenniaLayouts[j].format) == 4
  {
  }

  /** How many `y` the three tokens of a format hold. */
  function YearLetters(f: Format): nat {
    Count(f.first, 'y') + Count(f.second, 'y') + Count(f.third, 'y')
  }

  /** A format string holds exactly the `y` of the layout name it matches:
      the separators between tokens are not word characters. */
  lemma MatchCount(fmt: string, f: Format)
    requires FormatMatches(fmt, f)
    ensures Count(BeforeFinalNewline(fmt), 'y') == YearLetters(f)
  {
    var s := BeforeFinalNewline(fmt);
    var r1 := AfterToken(s, f.first).value;
    AfterTokenCount(s, f.first);
    AfterTokenCount(r1, f.second);
  }

  lemma AfterTokenCount(s: string, token: string)
    requires AfterToken(s, token).Some?
    ensures Count(s, 'y') == Count(token, 'y') + Count(AfterToken(s, token).value, 'y')
  {
    var t := s[|token|..];
    assert s == token + t;
    CountAppend(token, t, 'y');
    if |t| > 0 && !IsWordChar(t[0]) {
      assert t == [t[0]] + t[1..];
      CountAppend([t[0]], t[1..], 'y');
    }
  }
}

=== FILE: cast_decimal.dfy ===
/** Casting a value to a decimal number, accepting the usual thousands and
    decimal separator conventions (`1,234.5`, `1.234,5`, `1234,5`).

    Results are exact rationals; the 28-digit precision of Python's decimal
    context is not modelled.
 */
module CastDecimal {
  import opened Wrappers
  import opened Text
  import opened Values

  /** The `original_format` that marks an integer holding hundredths. */
  const IntegerContainingDecimals: string := "integer_containing_decimals"

  /** The message of the InvalidOperation `Decimal()` raises on bad syntax. */
  const ConversionSyntax: string := "[<class 'decimal.ConversionSyntax'>]"

  function IllegalCharacters(theValue: string): string {
    "Illegal characters in value '" + theValue + "'"
  }

  predicate IsDecimalChar(c: char) {
    IsDigit(c) || c == '-' || c == '.' || c == ','
  }

  /** `^([0-9]|-|\.|,)+$` matches. */
  predicate LegalDecimal(s: string) {
    var b := BeforeFinalNewline(s);
    |b| > 0 && forall i :: 0 <= i < |b| ==> IsDecimalChar(b[i])
  }

  /** `s` without one leading minus sign. */
  function Unsigned(s: string): string {
    if |s| > 0 && s[0] == '-' then s[1..] else s
  }

  predicate DigitGroups(groups: seq<string>) {
    forall i :: 0 <= i < |groups| ==> |groups[i]| > 0 && AllDigits(groups[i])
  }

  /** `^-?(\d+\,)*\d+\.\d+$`: comma-grouped digits, then one period and decimals. */
  predicate PeriodAfterCommas(b: string) {
    var parts := Split(Unsigned(b), '.');
    |parts| == 2 && |parts[1]| > 0 && AllDigits(parts[1]) && DigitGroups(Split(parts[0], ','))
  }

  /** `^-?(\d+\.)*\d+\,\d+$`: period-grouped digits, then one comma and decimals. */
  predicate CommaAfterPeriods(b: string) {
    var parts := Split(Unsigned(b), ',');
    |parts| == 2 && |parts[1]| > 0 && AllDigits(parts[1]) && DigitGroups(Split(parts[0], '.'))
  }

  /** `whole.frac` read as a number. */
  function PointValue(whole: string, frac: string): real
    requires AllDigits(whole) && AllDigits(frac)
  {
    DigitsValue(whole) as real + DigitsValue(frac) as real / Pow10(|frac|) as real
  }

  /** An unsigned decimal literal: digits with at most one period, and at
      least one digit. */
  function UnsignedLiteral(s: string): Option<real> {
    if '.' in s then
      var k := IndexOf(s, '.');
      var whole := s[..k];
      var frac := s[k + 1..];
      if AllDigits(whole) && AllDigits(frac) && |whole| + |frac| > 0
      then Some(PointValue(whole, frac))
      else None
    else if |s| > 0 && AllDigits(s) then Some(DigitsValue(s) as real)
    else None
  }

  /** `Decimal(s)` for a string over digits, `-`, `.` and `,`. */
  function DecimalLiteral(s: string): (r: Result<real, string>)
    ensures r.Failure? ==> r.error == ConversionSyntax
  {
    var negative := |s| > 0 && s[0] == '-';
    match UnsignedLiteral(if negative then s[1..] else s)
    case None => Failure(ConversionSyntax)
    case Some(x) => Success(if negative then -x else x)
  }

  /** `whole.frac` as a literal reads as its point value. */
  lemma PointLiteral(whole: string, frac: string)
    requires |whole| > 0 && AllDigits(whole) && AllDigits(frac)
    ensures DecimalLiteral(whole + ("." + frac)) == Success(PointValue(whole, frac))
  {
    var s := whole + ("." + frac);
    assert s[|whole|] == '.';
    assert forall j :: 0 <= j < |whole| ==> s[j] == whole[j];
    var k := IndexOf(s, '.');
    assert k == |whole|;
    assert s[..k] == whole;
    assert s[k + 1..] == frac;
  }

  /** `str(i)` reads back as the integer `i`. */
  lemma IntLiteral(i: int)
    ensures DecimalLiteral(IntToString(i)) == Success(i as real)
  {
    var s := IntToString(i);
    if i < 0 {
      var digits := NatToDigits(-i);
      assert s[1..] == digits;
      assert '.' !in digits by {
        assert forall j :: 0 <= j < |digits| ==> IsDigit(digits[j]);
      }
    } else {
      assert '.' !in s by {
        assert forall j :: 0 <= j < |s| ==> IsDigit(s[j]);
      }
    }
  }

  /** The conversion of a legal value `b` (trailing newline dropped): the
      separator convention decides which of `.` and `,` is the decimal point. */
  function Convert(b: string, originalFormat: Option<string>): (r: Result<real, string>)
    ensures r.Failure? ==> r.error == ConversionSyntax
  {
    if originalFormat == Some(IntegerContainingDecimals) then
      var x :- DecimalLiteral(b);
      Success(x / 100.0)
    else if Count(b, ',') == 1 && Count(b, '.') == 0 then DecimalLiteral(ReplaceChar(b, ',', '.'))
    else if PeriodAfterCommas(b) then DecimalLiteral(RemoveChar(b, ','))
    else if CommaAfterPeriods(b) then DecimalLiteral(ReplaceChar(RemoveChar(b, '.'), ',', '.'))
    else DecimalLiteral(b)
  }

  /** `cast_to_decimal`: spaces are removed and characters other than
      digits, `-`, `.` and `,` are rejected before conversion. A final
      newline passes the `$` of the check and `Decimal()` ignores it as
      surrounding whitespace, so it is dropped before conversion. */
  function CastToDecimal(env: Env, v: Value, originalFormat: Option<string>): (r: Result<real, string>)
    ensures var theValue := RemoveChar(Stringify(env, v), ' ');
            !LegalDecimal(theValue) <==> r == Failure(IllegalCharacters(theValue))
    ensures r.Failure? ==> r.error == ConversionSyntax || !LegalDecimal(RemoveChar(Stringify(env, v), ' '))
  {
    var theValue := RemoveChar(Stringify(env, v), ' ');
    assert IllegalCharacters(theValue)[0] != ConversionSyntax[0];
    if !LegalDecimal(theValue) then Failure(IllegalCharacters(theValue))
    else Convert(BeforeFinalNewline(theValue), originalFormat)
  }

  /** A string of legal characters without spaces or a final newline is
      converted as it stands. */
  lemma CastPlain(env: Env, v: Value, s: string, originalFormat: Option<string>)
    requires Stringify(env, v) == s
    requires |s| > 0 && s[|s| - 1] != '\n'
    requires forall i :: 0 <= i < |s| ==> IsDecimalChar(s[i])
    ensures CastToDecimal(env, v, originalFormat) == Convert(s, originalFormat)
  {
    assert ' ' !in s by {
      assert forall i :: 0 <= i < |s| ==> IsDecimalChar(s[i]);
    }
    RemoveCharAbsent(s, ' ');
    assert BeforeFinalNewline(s) == s;
    assert LegalDecimal(s);
  }

  /** Spaces do not matter: two values whose texts differ only by spaces
      cast alike, whatever the format. */
  lemma SpacesIgnored(env: Env, v: Value, w: Value, originalFormat: Option<string>)
    requires Stringify(env, w) == RemoveChar(Stringify(env, v), ' ')
    ensures CastToDecimal(env, w, originalFormat) == CastToDecimal(env, v, originalFormat)
  {
    RemoveCharAbsent(RemoveChar(Stringify(env, v), ' '), ' ');
  }

  /** In particular `'1 234 567.89'` casts as `'1234567.89'` does. */
  lemma SpacesIgnoredInStrings(env: Env, s: string, originalFormat: Option<string>)
    ensures CastToDecimal(env, Str(RemoveChar(s, ' ')), originalFormat) == CastToDecimal(env, Str(s), originalFormat)
  {
    StringifyStr(env, s);
    StringifyStr(env, RemoveChar(s, ' '));
    SpacesIgnored(env, Str(s), Str(RemoveChar(s, ' ')), originalFormat);
  }

  /** `str(i)` holds only digits and possibly a leading minus sign. */
  lemma IntToStringChars(i: int)
    ensures var s := IntToString(i);
            |s| > 0 && IsDigit(s[|s| - 1]) && Unsigned(s) == NatToDigits(if i < 0 then -i else i) &&
            forall j :: 0 <= j < |s| ==> IsDigit(s[j]) || (j == 0 && s[j] == '-')
  {
    var s := IntToString(i);
    if i < 0 {
      var d := NatToDigits(-i);
      assert s == "-" + d;
      assert forall j :: 1 <= j < |s| ==> s[j] == d[j - 1];
    }
  }

  /** An integer casts to exactly itself, and to its hundredth part when it
      is marked as an integer containing decimals. */
  lemma CastIntegerExact(env: Env, i: int)
    ensures CastToDecimal(env, Int(i), None) == Success(i as real)
    ensures CastToDecimal(env, Int(i), Some(IntegerContainingDecimals)) == Success(i as real / 100.0)
  {
    var s := IntToString(i);
    IntToStringChars(i);
    assert forall j :: 0 <= j < |s| ==> IsDecimalChar(s[j]);
    assert Stringify(env, Int(i)) == s;
    CastPlain(env, Int(i), s, None);
    CastPlain(env, Int(i), s, Some(IntegerContainingDecimals));
    IntLiteral(i);
    var u := Unsigned(s);
    assert ',' !in u && '.' !in u by {
      assert forall j :: 0 <= j < |u| ==> IsDigit(u[j]);
    }
    assert ',' !in s && '.' !in s by {
      assert forall j :: 0 <= j < |s| ==> s[j] != ',' && s[j] != '.';
    }
    CountAbsent(s, ',');
    assert !PeriodAfterCommas(s) && !CommaAfterPeriods(s);
  }

  /** Digits grouped by commas with a decimal period, and the same digits
      grouped by periods with a decimal comma, cast to the same number. */
  lemma SeparatorConventionsAgree(env: Env, groups: seq<string>, frac: string)
    requires |groups| >= 1 && DigitGroups(groups)
    requires |frac| > 0 && AllDigits(frac)
    ensures AllDigits(Concat(groups))
    ensures CastToDecimal(env, Str(Join(groups, ",") + "." + frac), None)
            == Success(PointValue(Concat(groups), frac))
    ensures CastToDecimal(env, Str(Join(groups, ".") + "," + frac), None)
            == Success(PointValue(Concat(groups), frac))
  {
    ConcatDigits(groups);
    var whole := Concat(groups);
    assert |whole| > 0 by {
      assert Concat(groups) == groups[0] + Concat(groups[1..]);
    }
    PointLiteral(whole, frac);
    AppendAssoc(Join(groups, ","), ".", frac);
    AppendAssoc(Join(groups, "."), ",", frac);
    GroupedChars(groups, ',', frac, '.');
    GroupedChars(groups, '.', frac, ',');
    var commas, periods := Join(groups, ",") + "." + frac, Join(groups, ".") + "," + frac;
    StringifyStr(env, commas);
    StringifyStr(env, periods);
    CastPlain(env, Str(commas), commas, None);
    CastPlain(env, Str(periods), periods, None);
    PeriodForm(groups, frac);
    CommaForm(groups, frac);
  }

  lemma AppendAssoc(a: string, b: string, c: string)
    ensures a + b + c == a + (b + c)
  {
  }

  lemma DigitsLack(s: string, c: char)
    requires forall i :: 0 < i < |s| ==> IsDigit(s[i])
    requires !IsDigit(c) && (|s| > 0 ==> s[0] != c)
    ensures c !in s
  {
  }

  lemma GroupsLack(groups: seq<string>, c: char)
    requires DigitGroups(groups) && !IsDigit(c)
    ensures forall i :: 0 <= i < |groups| ==> c !in groups[i]
  {
    forall i | 0 <= i < |groups| ensures c !in groups[i] {
      DigitsLack(groups[i], c);
    }
  }

  /** The characters of a grouped number are digits and separators only. */
  lemma GroupedChars(groups: seq<string>, sep: char, frac: string, point: char)
    requires |groups| >= 1 && DigitGroups(groups) && AllDigits(frac) && |frac| > 0
    requires sep != point && !IsDigit(sep) && !IsDigit(point)
    ensures var s := Join(groups, [sep]) + ([point] + frac);
            |s| > 0 && s[|s| - 1] != '\n' &&
            forall i :: 0 <= i < |s| ==> IsDigit(s[i]) || s[i] == sep || s[i] == point
    ensures sep !in frac && point !in frac && point !in Join(groups, [sep])
    ensures forall i :: 0 <= i < |groups| ==> sep !in groups[i] && point !in groups[i]
  {
    var j := Join(groups, [sep]);
    var s := j + ([point] + frac);
    JoinChars(groups, sep);
    GroupsLack(groups, sep);
    GroupsLack(groups, point);
    forall i | 0 <= i < |j| ensures IsDigit(j[i]) || j[i] == sep {
      if j[i] != sep {
        var k :| 0 <= k < |groups| && j[i] in groups[k];
        assert AllDigits(groups[k]);
      }
    }
    assert forall i :: 0 <= i < |frac| ==> IsDigit(frac[i]);
    forall i | 0 <= i < |s| ensures IsDigit(s[i]) || s[i] == sep || s[i] == point {
      if i < |j| {
        assert s[i] == j[i];
      } else if i > |j| {
        assert s[i] == frac[i - |j| - 1];
      }
    }
    assert s[|s| - 1] == frac[|frac| - 1];
  }

  /** `1,234,567.89`: the period-after-commas rule removes the commas. */
  lemma PeriodForm(groups: seq<string>, frac: string)
    requires |groups| >= 1 && DigitGroups(groups)
    requires |frac| > 0 && AllDigits(frac)
    ensures Convert(Join(groups, ",") + ("." + frac), None) == DecimalLiteral(Concat(groups) + ("." + frac))
  {
    var j := Join(groups, ",");
    var s := j + ("." + frac);
    assert Convert(s, None) == DecimalLiteral(RemoveChar(s, ',')) by {
      assert s[|j|] == '.';
      CountAbsent(s, '.');
      PeriodRuleApplies(groups, frac);
    }
    CommasRemoved(groups, frac);
  }

  lemma CommasRemoved(groups: seq<string>, frac: string)
    requires |groups| >= 1 && DigitGroups(groups)
    requires |frac| > 0 && AllDigits(frac)
    ensures RemoveChar(Join(groups, ",") + ("." + frac), ',') == Concat(groups) + ("." + frac)
  {
    var j := Join(groups, ",");
    var tail := "." + frac;
    GroupsLack(groups, ',');
    DigitsLack(tail, ',');
    RemoveCharAbsent(tail, ',');
    RemoveCharJoin(groups, ',');
    RemoveCharAppend(j, tail, ',');
  }

  lemma PeriodRuleApplies(groups: seq<string>, frac: string)
    requires |groups| >= 1 && DigitGroups(groups)
    requires |frac| > 0 && AllDigits(frac)
    ensures PeriodAfterCommas(Join(groups, ",") + ("." + frac))
  {
    var j := Join(groups, ",");
    var s := j + ("." + frac);
    GroupedChars(groups, ',', frac, '.');
    assert Unsigned(s) == s;
    SplitAtFirst(j, '.', frac);
    AppendAssoc(j, ".", frac);
    assert Split(frac, '.') == [frac];
    assert Split(s, '.') == [j, frac];
    SplitJoin(groups, ',');
  }

  /** `1.234.567,89`: the comma-after-periods rule removes the periods and
      turns the comma into the decimal point; `1234567,89` has the comma
      replaced directly. */
  lemma CommaForm(groups: seq<string>, frac: string)
    requires |groups| >= 1 && DigitGroups(groups)
    requires |frac| > 0 && AllDigits(frac)
    ensures Convert(Join(groups, ".") + ("," + frac), None) == DecimalLiteral(Concat(groups) + ("." + frac))
  {
    CommaReplaced(groups, frac);
    if |groups| == 1 {
      assert Join(groups, ".") == groups[0];
      CommaSingleGroup(groups[0], frac);
    } else {
      CommaRuleApplies(groups, frac);
    }
  }

  /** Removing the periods and then turning the comma into a period gives
      the plain `digits.frac` literal. */
  lemma CommaReplaced(groups: seq<string>, frac: string)
    requires |groups| >= 1 && DigitGroups(groups)
    requires |frac| > 0 && AllDigits(frac)
    ensures ReplaceChar(RemoveChar(Join(groups, ".") + ("," + frac), '.'), ',', '.') == Concat(groups) + ("." + frac)
  {
    var j := Join(groups, ".");
    var whole := Concat(groups);
    var removed := RemoveChar(j + ("," + frac), '.');
    assert removed == whole + ("," + frac) by {
      GroupsLack(groups, '.');
      DigitsLack("," + frac, '.');
      RemoveCharJoin(groups, '.');
      RemoveCharAppend(j, "," + frac, '.');
      RemoveCharAbsent("," + frac, '.');
    }
    ConcatDigits(groups);
    Replaced(whole, frac);
  }

  lemma Replaced(whole: string, frac: string)
    requires AllDigits(whole) && AllDigits(frac)
    ensures ReplaceChar(whole + ("," + frac), ',', '.') == whole + ("." + frac)
  {
    var removed := whole + ("," + frac);
    var replaced := ReplaceChar(removed, ',', '.');
    var target := whole + ("." + frac);
    assert |replaced| == |target|;
    forall i | 0 <= i < |target| ensures replaced[i] == target[i] {
      if i < |whole| {
        assert removed[i] == whole[i] && IsDigit(whole[i]);
      } else if i > |whole| {
        assert removed[i] == frac[i - |whole| - 1] && IsDigit(frac[i - |whole| - 1]);
      }
    }
  }

  /** `1234567,89`: a single comma and no period. */
  lemma CommaSingleGroup(digits: string, frac: string)
    requires |digits| > 0 && AllDigits(digits)
    requires |frac| > 0 && AllDigits(frac)
    ensures Convert(digits + ("," + frac), None)
            == DecimalLiteral(ReplaceChar(RemoveChar(digits + ("," + frac), '.'), ',', '.'))
  {
    var s := digits + ("," + frac);
    SingleCommaCounts(digits, frac);
    assert '.' !in s by {
      CountAbsent(s, '.');
    }
    RemoveCharAbsent(s, '.');
  }

  lemma SingleCommaCounts(digits: string, frac: string)
    requires AllDigits(digits) && AllDigits(frac)
    ensures Count(digits + ("," + frac), ',') == 1 && Count(digits + ("," + frac), '.') == 0
  {
    DigitsLack(digits, ',');
    DigitsLack(digits, '.');
    DigitsLack(frac, ',');
    DigitsLack(frac, '.');
    CountAbsent(digits, ',');
    CountAbsent(digits, '.');
    CountAbsent(frac, ',');
    CountAbsent(frac, '.');
    CountAppend(digits, "," + frac, ',');
    CountAppend(",", frac, ',');
    CountAppend(digits, "," + frac, '.');
    CountAppend(",", frac, '.');
  }

  /** With two or more period groups only the comma-after-periods rule applies. */
  lemma CommaRuleApplies(groups: seq<string>, frac: string)
    requires |groups| >= 2 && DigitGroups(groups)
    requires |frac| > 0 && AllDigits(frac)
    ensures var s := Join(groups, ".") + ("," + frac);
            !(Count(s, ',') == 1 && Count(s, '.') == 0) && !PeriodAfterCommas(s) && CommaAfterPeriods(s)
  {
    var j := Join(groups, ".");
    var s := j + ("," + frac);
    assert Count(s, '.') != 0 by {
      assert j == groups[0] + "." + Join(groups[1..], ".");
      assert s[|groups[0]|] == '.';
      CountAbsent(s, '.');
    }
    PeriodRuleFails(groups, frac);
    CommaRuleMatches(groups, frac);
  }

  /** What follows the first period holds the comma, so it is no fraction. */
  lemma PeriodRuleFails(groups: seq<string>, frac: string)
    requires |groups| >= 2 && DigitGroups(groups)
    requires |frac| > 0 && AllDigits(frac)
    ensures !PeriodAfterCommas(Join(groups, ".") + ("," + frac))
  {
    var j := Join(groups, ".");
    var s := j + ("," + frac);
    var j1 := Join(groups[1..], ".");
    var rest := j1 + ("," + frac);
    assert s[0] == groups[0][0];
    assert Unsigned(s) == s;
    assert s == groups[0] + ['.'] + rest by {
      assert j == groups[0] + "." + j1;
      AppendAssoc(groups[0] + ".", j1, "," + frac);
    }
    DigitsLack(groups[0], '.');
    SplitAtFirst(groups[0], '.', rest);
    assert rest[|j1|] == ',';
    if '.' in rest {
      var k := IndexOf(rest, '.');
      assert |Split(rest, '.')| >= 2;
    } else {
      assert Split(rest, '.') == [rest];
      assert !AllDigits(rest);
    }
  }

  lemma CommaRuleMatches(groups: seq<string>, frac: string)
    requires |groups| >= 1 && DigitGroups(groups)
    requires |frac| > 0 && AllDigits(frac)
    ensures CommaAfterPeriods(Join(groups, ".") + ("," + frac))
  {
    var j := Join(groups, ".");
    var s := j + ("," + frac);
    GroupedChars(groups, '.', frac, ',');
    assert Unsigned(s) == s;
    SplitAtFirst(j, ',', frac);
    AppendAssoc(j, ",", frac);
    assert Split(frac, ',') == [frac];
    SplitJoin(groups, '.');
  }
}

=== FILE: cast_integer.dfy ===
/** Casting a value to an integer: the decimal cast, rounded to a whole
    number. The mapper sets the decimal context's rounding to
    ROUND_HALF_UP, which rounds ties away from zero.
 */
module CastInteger {
  import opened Wrappers
  import opened Values
  import opened CastDecimal

  /** `Decimal.quantize(Decimal('1.'))` under ROUND_HALF_UP, then `int()`. */
  function RoundHalfUp(x: real): (r: int) {
    if x >= 0.0 then (x + 0.5).Floor else -((-x + 0.5).Floor)
  }

  /** The rounded value is a nearest integer, ties go away from zero, and
      whole numbers are left as they are. */
  lemma RoundHalfUpNearest(x: real)
    ensures -0.5 <= x - RoundHalfUp(x) as real <= 0.5
    ensures x - RoundHalfUp(x) as real == 0.5 ==> x < 0.0
    ensures RoundHalfUp(x) as real - x == 0.5 ==> x > 0.0
    ensures x == x.Floor as real ==> RoundHalfUp(x) == x.Floor
  {
    if x >= 0.0 {
      var f := (x + 0.5).Floor;
      assert f as real <= x + 0.5 < f as real + 1.0;
    } else {
      var f := (-x + 0.5).Floor;
      assert f as real <= -x + 0.5 < f as real + 1.0;
    }
  }

  /** `cast_to_integer`: the decimal cast of the value with no format (the
      format given is not passed on), rounded half away from zero. */
  function CastToInteger(env: Env, v: Value, originalFormat: Option<string>): (r: Result<int, string>)
    ensures r.Success? <==> CastToDecimal(env, v, None).Success?
    ensures r.Failure? ==> r.error == CastToDecimal(env, v, None).error
    ensures r.Success? ==> -0.5 <= CastToDecimal(env, v, None).value - r.value as real <= 0.5
    ensures r.Success? && CastToDecimal(env, v, None).value - r.value as real == 0.5 ==>
              CastToDecimal(env, v, None).value < 0.0
    ensures r.Success? && r.value as real - CastToDecimal(env, v, None).value == 0.5 ==>
              CastToDecimal(env, v, None).value > 0.0
  {
    var d :- CastToDecimal(env, v, None);
    RoundHalfUpNearest(d);
    Success(RoundHalfUp(d))
  }

  /** An integer value casts to itself, whatever the format says. */
  lemma CastIntegerRoundTrip(env: Env, i: int, originalFormat: Option<string>)
    ensures CastToInteger(env, Int(i), originalFormat) == Success(i)
  {
    CastIntegerExact(env, i);
    RoundHalfUpNearest(i as real);
  }
}

=== FILE: casting.dfy ===
/** Choosing and applying a cast (`kaiba/casting/__init__.py` and
    `apply_casting`).

    The dispatcher is a `@safe` function, so the engine's call of its
    result would call a container; the evident intent, modelled here, is
    to dispatch and then apply the chosen function to the value and the
    original format.
 */
module Casting {
  import opened Wrappers
  import opened Values
  import opened Models
  import opened CastDecimal
  import opened CastInteger
  import opened CastDate

  /** The three casting functions the dispatcher can return. */
  datatype CastingFunction = IntegerCast | DecimalCast | DateCast

  /** `get_casting_function`: integer and decimal have their own casts;
      every other option, `string` included, is a date cast. */
  function GetCastingFunction(to: CastTo): (f: CastingFunction)
    ensures f == IntegerCast <==> to == ToInteger
    ensures f == DecimalCast <==> to == ToDecimal
    ensures f == DateCast <==> to == ToString || to == ToDate
  {
    match to
    case ToInteger => IntegerCast
    case ToDecimal => DecimalCast
    case _ => DateCast
  }

  /** The kind of value a successful cast to `to` produces. */
  predicate ProducesKind(to: CastTo, v: Value) {
    match to
    case ToInteger => v.Int?
    case ToDecimal => v.Dec?
    case _ => v.Str? && IsCalendarIso(v.s)
  }

  /** A casting function called with the value and the original format. */
  function Call(env: Env, f: CastingFunction, v: Value, originalFormat: Option<string>): Result<Value, string> {
    match f
    case IntegerCast =>
      var i :- CastToInteger(env, v, originalFormat);
      Success(Int(i))
    case DecimalCast =>
      var d :- CastToDecimal(env, v, originalFormat);
      Success(Dec(d))
    case DateCast =>
      var s :- CastToDate(env, v, originalFormat);
      Success(Str(s))
  }

  /** `apply_casting`: dispatch on `cast.to`, then apply. A success is an
      int, a decimal or the ISO text of a real date, as `cast.to` asks. */
  function ApplyCasting(env: Env, v: Value, cast: Cast): (r: Result<Value, string>)
    ensures r.Success? ==> ProducesKind(cast.to, r.value)
  {
    Call(env, GetCastingFunction(cast.to), v, cast.originalFormat)
  }

  /** The variant the attribute handler calls: a failed cast is `None`. */
  function UnsafeApplyCasting(env: Env, v: Value, cast: Cast): (r: Value)
    ensures ApplyCasting(env, v, cast).Success? ==> r == ApplyCasting(env, v, cast).value
    ensures ApplyCasting(env, v, cast).Failure? ==> r == Null
  {
    ApplyCasting(env, v, cast).GetOr(Null)
  }

  /** Casting to `string` is casting to `date`. */
  lemma StringCastIsDateCast(env: Env, v: Value, originalFormat: Option<string>)
    ensures ApplyCasting(env, v, Cast(ToString, originalFormat)) == ApplyCasting(env, v, Cast(ToDate, originalFormat))
  {
  }

  /** The integer cast succeeds exactly when the decimal cast without a
      format does and rounds it to a nearest integer, a tie going away from
      zero (122.5 to 123, -122.5 to -123); whatever format is given changes
      nothing. */
  lemma IntegerCastRoundsDecimal(env: Env, v: Value, f: Option<string>, g: Option<string>)
    ensures ApplyCasting(env, v, Cast(ToInteger, f)) == ApplyCasting(env, v, Cast(ToInteger, g))
    ensures ApplyCasting(env, v, Cast(ToInteger, f)).Success? <==> ApplyCasting(env, v, Cast(ToDecimal, None)).Success?
    ensures ApplyCasting(env, v, Cast(ToInteger, f)).Success? ==>
              -0.5 <= ApplyCasting(env, v, Cast(ToDecimal, None)).value.d - ApplyCasting(env, v, Cast(ToInteger, f)).value.i as real <= 0.5
    ensures ApplyCasting(env, v, Cast(ToInteger, f)).Success? &&
            ApplyCasting(env, v, Cast(ToDecimal, None)).value.d - ApplyCasting(env, v, Cast(ToInteger, f)).value.i as real == 0.5 ==>
              ApplyCasting(env, v, Cast(ToDecimal, None)).value.d < 0.0
    ensures ApplyCasting(env, v, Cast(ToInteger, f)).Success? &&
            ApplyCasting(env, v, Cast(ToInteger, f)).value.i as real - ApplyCasting(env, v, Cast(ToDecimal, None)).value.d == 0.5 ==>
              ApplyCasting(env, v, Cast(ToDecimal, None)).value.d > 0.0
  {
  }

  /** An int cast to an integer is unchanged. */
  lemma IntegerCastKeepsInts(env: Env, i: int, f: Option<string>)
    ensures ApplyCasting(env, Int(i), Cast(ToInteger, f)) == Success(Int(i))
  {
    CastIntegerRoundTrip(env, i, f);
  }

  /** Casting the result of a date cast to a date again gives the same
      result, whatever formats the two casts name. */
  lemma DateCastIdempotent(env: Env, v: Value, f: Option<string>, g: Option<string>)
    requires ApplyCasting(env, v, Cast(ToDate, f)).Success?
    ensures ApplyCasting(env, ApplyCasting(env, v, Cast(ToDate, f)).value, Cast(ToDate, g)) == ApplyCasting(env, v, Cast(ToDate, f))
  {
    CastIdempotent(env, v, f, g);
  }
}

=== FILE: collection_handlers.dfy ===
/** Navigation of nested input data by key paths, and the iterator
    expansion that turns one input context into several.

    Python raises an exception where a lookup fails; each exception the
    engine distinguishes is a constructor of `CollectionError`.
 */
module CollectionHandlers {
  import opened Wrappers
  import opened Values
  import opened Models

  datatype CollectionError =
    | PathEmpty                   // ValueError('path list empty')
    | KeyMissing(key: Key)        // KeyError
    | IndexOutOfRange(index: int) // IndexError
    | BadKeyType(key: Key)        // TypeError: not subscriptable by that key
    | NotAList(found: Value)      // ValueError('Non list data found: ')
    | NotAMapping(found: Value)   // TypeError from `{**input_data, ...}`
    | NoIterators                 // ValueError('No iterators')

  /** The errors `create_iterable` catches: ValueError and KeyError. */
  predicate IsCaught(e: CollectionError) {
    e.PathEmpty? || e.KeyMissing? || e.NotAList?
  }

  /** `container[key]` for one path element. */
  function Step(container: Value, key: Key): Result<Value, CollectionError> {
    match (container, key)
    case (Obj(m), Field(name)) =>
      if name in m then Success(m[name]) else Failure(KeyMissing(key))
    case (Obj(_), Index(_)) => Failure(KeyMissing(key))
    case (Arr(items), Index(i)) =>
      (match NormalizeIndex(i, |items|)
       case Some(j) => Success(items[j])
       case None => Failure(IndexOutOfRange(i)))
    case (Str(s), Index(i)) =>
      (match NormalizeIndex(i, |s|)
       case Some(j) => Success(Str([s[j]]))
       case None => Failure(IndexOutOfRange(i)))
    case _ => Failure(BadKeyType(key))
  }

  /** Follows every key of `path` in turn; the first failing lookup decides. */
  function Walk(v: Value, path: seq<Key>): (r: Result<Value, CollectionError>)
    ensures r.Failure? ==> r.error.KeyMissing? || r.error.IndexOutOfRange? || r.error.BadKeyType?
    decreases |path|
  {
    if |path| == 0 then Success(v)
    else
      match Step(v, path[0])
      case Failure(e) => Failure(e)
      case Success(w) => Walk(w, path[1..])
  }

  /** Walking `p + q` is walking `p`, then walking `q` from where `p` ended. */
  lemma {:induction false} WalkAppend(v: Value, p: seq<Key>, q: seq<Key>)
    ensures Walk(v, p + q) ==
            (match Walk(v, p)
             case Success(w) => Walk(w, q)
             case Failure(e) => Failure(e))
    decreases |p|
  {
    if |p| == 0 {
      assert p + q == q;
    } else {
      assert (p + q)[0] == p[0];
      assert (p + q)[1..] == p[1..] + q;
      match Step(v, p[0]) {
        case Failure(e) =>
        case Success(w) => WalkAppend(w, p[1..], q);
      }
    }
  }

  /** `fetch_data_by_keys`: a missing key (KeyError) yields `Null`, any other
      failed lookup is an error, and the empty path yields `Null`. */
  function FetchDataByKeys(collection: Value, path: seq<Key>): (r: Result<Value, CollectionError>)
    ensures |path| == 0 ==> r == Success(Null)
    ensures |path| > 0 && Walk(collection, path).Success? ==> r == Walk(collection, path)
    ensures r.Failure? <==> Walk(collection, path).Failure? && !Walk(collection, path).error.KeyMissing?
    ensures r.Failure? ==> r == Walk(collection, path)
  {
    if |path| == 0 then Success(Null)
    else
      match Walk(collection, path)
      case Success(v) => Success(v)
      case Failure(KeyMissing(_)) => Success(Null)
      case Failure(e) => Failure(e)
  }

  /** The unwrapped fetch the handlers use: every failure becomes `Null`. */
  function UnsafeFetchDataByKeys(collection: Value, path: seq<Key>): (r: Value)
    ensures |path| > 0 && Walk(collection, path).Success? ==> r == Walk(collection, path).value
    ensures |path| == 0 || Walk(collection, path).Failure? ==> r == Null
  {
    FetchDataByKeys(collection, path).GetOr(Null)
  }

  /** `fetch_list_by_keys`: the value at a non-empty path, which must be a list. */
  function FetchListByKeys(collection: Value, path: seq<Key>): (r: Result<seq<Value>, CollectionError>)
    ensures r.Success? <==> |path| > 0 && Walk(collection, path).Success? && Walk(collection, path).value.Arr?
    ensures r.Success? ==> Walk(collection, path) == Success(Arr(r.value))
    ensures |path| == 0 ==> r == Failure(PathEmpty)
    ensures |path| > 0 && Walk(collection, path).Failure? ==> r == Failure(Walk(collection, path).error)
    ensures |path| > 0 && Walk(collection, path).Success? && !Walk(collection, path).value.Arr? ==>
              r == Failure(NotAList(Walk(collection, path).value))
  {
    if |path| == 0 then Failure(PathEmpty)
    else
      match Walk(collection, path)
      case Failure(e) => Failure(e)
      case Success(Arr(items)) => Success(items)
      case Success(v) => Failure(NotAList(v))
  }

  /** `collection[key] = value` on one container, as a new container. A dict
      keyed by an integer cannot be represented, so that case is an error. */
  function Assign(container: Value, key: Key, value: Value): (r: Result<Value, CollectionError>)
    ensures r.Success? ==> Step(r.value, key) == Success(value)
    ensures container.Obj? && key.Field? ==> r == Success(Obj(container.fields[key.name := value]))
    ensures container.Arr? && r.Success? ==> r.value.Arr? && |r.value.items| == |container.items|
  {
    match (container, key)
    case (Obj(m), Field(name)) => Success(Obj(m[name := value]))
    case (Arr(items), Index(i)) =>
      (match NormalizeIndex(i, |items|)
       case Some(j) => Success(Arr(items[j := value]))
       case None => Failure(IndexOutOfRange(i)))
    case _ => Failure(BadKeyType(key))
  }

  /** `set_value_in_dict`: walks all but the last key and assigns at the last.
      The source mutates the input in place; here the updated root is returned. */
  function SetValueInDict(newValue: Value, collection: Value, path: seq<Key>): (r: Result<Value, CollectionError>)
    ensures |path| == 0 ==> r == Failure(PathEmpty)
    ensures |path| == 1 && collection.Obj? && path[0].Field? ==> r.Success?
    decreases |path|
  {
    if |path| == 0 then Failure(PathEmpty)
    else if |path| == 1 then Assign(collection, path[0], newValue)
    else
      match Step(collection, path[0])
      case Failure(e) => Failure(e)
      case Success(child) =>
        match SetValueInDict(newValue, child, path[1..])
        case Failure(e) => Failure(e)
        case Success(newChild) => Assign(collection, path[0], newChild)
  }

  /** After a successful set, fetching the same path finds the new value. */
  lemma {:induction false} FetchAfterSet(newValue: Value, collection: Value, path: seq<Key>)
    requires SetValueInDict(newValue, collection, path).Success?
    ensures Walk(SetValueInDict(newValue, collection, path).value, path) == Success(newValue)
    decreases |path|
  {
    var r := SetValueInDict(newValue, collection, path).value;
    if |path| == 1 {
      assert Step(r, path[0]) == Success(newValue);
    } else {
      var child := Step(collection, path[0]).value;
      var newChild := SetValueInDict(newValue, child, path[1..]).value;
      FetchAfterSet(newValue, child, path[1..]);
      assert Step(r, path[0]) == Success(newChild);
    }
  }

  /** Setting under a dict leaves every other key of that dict as it was. */
  lemma SetKeepsSiblings(newValue: Value, collection: Value, path: seq<Key>)
    requires collection.Obj? && |path| >= 1 && path[0].Field?
    requires SetValueInDict(newValue, collection, path).Success?
    ensures SetValueInDict(newValue, collection, path).value.Obj?
    ensures SetValueInDict(newValue, collection, path).value.fields.Keys
            == collection.fields.Keys + {path[0].name}
    ensures forall k :: k in collection.fields && k != path[0].name ==>
              SetValueInDict(newValue, collection, path).value.fields[k] == collection.fields[k]
  {
  }

  /** Every lookup into a string gives a string, so no path from a string
      ever reaches a dict or a list. */
  lemma {:induction false} WalkFromString(s: string, path: seq<Key>)
    requires Walk(Str(s), path).Success?
    ensures Walk(Str(s), path).value.Str?
    decreases |path|
  {
    if |path| > 0 {
      WalkFromString(Step(Str(s), path[0]).value.s, path[1..]);
    }
  }

  /** A set succeeds whenever all but the last key lead to a dict and the
      last key is a name: the dict at that place gains (or replaces) the
      last key, and nothing else in it changes. */
  lemma {:induction false} SetUnderParent(newValue: Value, collection: Value, path: seq<Key>)
    requires |path| >= 1 && path[|path| - 1].Field?
    requires Walk(collection, path[..|path| - 1]).Success? && Walk(collection, path[..|path| - 1]).value.Obj?
    ensures SetValueInDict(newValue, collection, path).Success?
    ensures Walk(SetValueInDict(newValue, collection, path).value, path[..|path| - 1])
            == Success(Obj(Walk(collection, path[..|path| - 1]).value.fields[path[|path| - 1].name := newValue]))
    decreases |path|
  {
    var n := |path|;
    var prefix := path[..n - 1];
    if n > 1 {
      var child := Step(collection, path[0]).value;
      var rest := path[1..];
      assert rest[..|rest| - 1] == prefix[1..];
      assert rest[|rest| - 1] == path[n - 1];
      if collection.Str? {
        WalkFromString(collection.s, prefix);
        assert false;
      }
      SetUnderParent(newValue, child, rest);
      var newChild := SetValueInDict(newValue, child, rest).value;
      var r := Assign(collection, path[0], newChild);
      assert r.Success?;
      assert Step(r.value, prefix[0]) == Success(newChild);
    }
  }

  /** `create_iterable`: one context per element of the list at the iterator's
      path, each the input extended with `alias` bound to that element. A
      ValueError or KeyError from the lookup leaves the input as the only context;
      a non-empty list under an input that is not a dict is a TypeError. */
  function CreateIterable(inputData: Value, iter: Iterator): (r: Result<seq<Value>, CollectionError>)
    ensures FetchListByKeys(inputData, iter.path).Failure? ==>
              if IsCaught(FetchListByKeys(inputData, iter.path).error) then r == Success([inputData])
              else r == Failure(FetchListByKeys(inputData, iter.path).error)
    ensures FetchListByKeys(inputData, iter.path).Success? && inputData.Obj? ==>
              r.Success? && |r.value| == |FetchListByKeys(inputData, iter.path).value| &&
              forall i :: 0 <= i < |r.value| ==>
                r.value[i] == Obj(inputData.fields[iter.alias := FetchListByKeys(inputData, iter.path).value[i]])
    ensures FetchListByKeys(inputData, iter.path) == Success([]) ==> r == Success([])
    ensures (FetchListByKeys(inputData, iter.path).Success? && |FetchListByKeys(inputData, iter.path).value| > 0 &&
             !inputData.Obj?) ==> r == Failure(NotAMapping(inputData))
    ensures r.Failure? ==> !IsCaught(r.error) && !r.error.NoIterators?
  {
    match FetchListByKeys(inputData, iter.path)
    case Failure(e) => if IsCaught(e) then Success([inputData]) else Failure(e)
    case Success(items) =>
      if |items| == 0 then Success([])
      else if inputData.Obj? then
        Success(seq(|items|, i requires 0 <= i < |items| => Obj(inputData.fields[iter.alias := items[i]])))
      else Failure(NotAMapping(inputData))
  }

  /** `iterable_data_handler`: expands the first iterator, then every resulting
      context by the remaining iterators. A context whose further expansion
      raises contributes nothing; an error of the first iterator propagates. */
  function IterableDataHandler(rawData: Value, iterators: seq<Iterator>): (r: Result<seq<Value>, CollectionError>)
    ensures |iterators| == 0 <==> r == Failure(NoIterators)
    ensures |iterators| == 1 ==> r == CreateIterable(rawData, iterators[0])
    decreases |iterators|, 1, 0
  {
    if |iterators| == 0 then Failure(NoIterators)
    else if |iterators| == 1 then CreateIterable(rawData, iterators[0])
    else
      match CreateIterable(rawData, iterators[0])
      case Failure(e) => Failure(e)
      case Success(contexts) => Success(ExpandEach(contexts, iterators[1..]))
  }

  /** The concatenated expansions of `contexts`, dropping those that fail. */
  function ExpandEach(contexts: seq<Value>, rest: seq<Iterator>): seq<Value>
    requires |rest| >= 1
    decreases |rest| + 1, 0, |contexts|
  {
    if |contexts| == 0 then []
    else
      ExpandEach(contexts[..|contexts| - 1], rest)
        + IterableDataHandler(contexts[|contexts| - 1], rest).GetOr([])
  }

  /** With two or more iterators, the first one's contexts are each expanded
      by the rest, in order; an error of the first iterator propagates. */
  lemma NestedIterators(rawData: Value, iterators: seq<Iterator>)
    requires |iterators| >= 2
    ensures CreateIterable(rawData, iterators[0]).Failure? ==>
              IterableDataHandler(rawData, iterators) == Failure(CreateIterable(rawData, iterators[0]).error)
    ensures CreateIterable(rawData, iterators[0]).Success? ==>
              IterableDataHandler(rawData, iterators)
              == Success(ExpandEach(CreateIterable(rawData, iterators[0]).value, iterators[1..]))
  {
  }

  /** The expansion of a non-empty list ends with that of its last context. */
  lemma ExpandEachLast(s: seq<Value>, rest: seq<Iterator>)
    requires |rest| >= 1 && |s| > 0
    ensures ExpandEach(s, rest) == ExpandEach(s[..|s| - 1], rest) + IterableDataHandler(s[|s| - 1], rest).GetOr([])
  {
  }

  /** Expanding `a + b` is expanding `a`, then `b`: the contexts keep the
      order of the contexts they came from. */
  lemma {:induction false} ExpandEachAppend(a: seq<Value>, b: seq<Value>, rest: seq<Iterator>)
    requires |rest| >= 1
    ensures ExpandEach(a + b, rest) == ExpandEach(a, rest) + ExpandEach(b, rest)
    decreases |b|
  {
    if |b| == 0 {
      assert a + b == a;
    } else {
      var ab := a + b;
      var front := b[..|b| - 1];
      assert ab[..|ab| - 1] == a + front;
      assert ab[|ab| - 1] == b[|b| - 1];
      ExpandEachLast(ab, rest);
      ExpandEachLast(b, rest);
      ExpandEachAppend(a, front, rest);
    }
  }

  /** One context expands to its own expansion, or to nothing when that
      raises. */
  lemma ExpandEachOne(c: Value, rest: seq<Iterator>)
    requires |rest| >= 1
    ensures ExpandEach([c], rest) == IterableDataHandler(c, rest).GetOr([])
  {
    assert [c][..0] == [];
  }

  /** A failing lookup that `create_iterable` catches passes the context on
      unchanged to the remaining iterators, wherever it sits in the chain. */
  lemma CaughtIteratorPassesThrough(ctx: Value, iterators: seq<Iterator>)
    requires |iterators| >= 2
    requires FetchListByKeys(ctx, iterators[0].path).Failure?
    requires IsCaught(FetchListByKeys(ctx, iterators[0].path).error)
    ensures IterableDataHandler(ctx, iterators) == Success(IterableDataHandler(ctx, iterators[1..]).GetOr([]))
  {
    var rest := iterators[1..];
    assert CreateIterable(ctx, iterators[0]) == Success([ctx]);
    assert [ctx][..0] == [];
    assert ExpandEach([ctx], rest) == ExpandEach([], rest) + IterableDataHandler(ctx, rest).GetOr([]);
    assert ExpandEach([ctx], rest) == IterableDataHandler(ctx, rest).GetOr([]);
    assert IterableDataHandler(ctx, iterators) == Success(ExpandEach([ctx], rest));
  }

  /** The elements of an expansion all come from expanding some context. */
  lemma {:induction false} ExpandEachMember(contexts: seq<Value>, rest: seq<Iterator>, x: Value)
    requires |rest| >= 1
    requires x in ExpandEach(contexts, rest)
    ensures exists i :: 0 <= i < |contexts| && IterableDataHandler(contexts[i], rest).Success?
                        && x in IterableDataHandler(contexts[i], rest).value
    decreases |contexts|
  {
    var n := |contexts|;
    var front := contexts[..n - 1];
    if x in ExpandEach(front, rest) {
      ExpandEachMember(front, rest, x);
      var i :| 0 <= i < |front| && IterableDataHandler(front[i], rest).Success?
               && x in IterableDataHandler(front[i], rest).value;
      assert front[i] == contexts[i];
    } else {
      assert x in IterableDataHandler(contexts[n - 1], rest).GetOr([]);
    }
  }

  /** The set of names the iterators bind. */
  function Aliases(iterators: seq<Iterator>): set<string> {
    set i | 0 <= i < |iterators| :: iterators[i].alias
  }

  /** `c` is the context `ctx` with (at most) the names in `aliases` rebound. */
  predicate Extends(c: Value, ctx: Value, aliases: set<string>) {
    c.Obj? && ctx.Obj? &&
    c.fields.Keys <= ctx.fields.Keys + aliases &&
    forall k :: k in ctx.fields && k !in aliases ==> k in c.fields && c.fields[k] == ctx.fields[k]
  }

  /** Every expanded context is the input with only the iterators' aliases
      added or replaced: iteration never loses or alters other input keys. */
  lemma {:induction false} ContextsExtendInput(ctx: Value, iterators: seq<Iterator>)
    requires ctx.Obj?
    requires IterableDataHandler(ctx, iterators).Success?
    ensures forall c :: c in IterableDataHandler(ctx, iterators).value ==> Extends(c, ctx, Aliases(iterators))
    decreases |iterators|
  {
    var first := CreateIterable(ctx, iterators[0]);
    assert first.Success?;
    assert iterators[0].alias in Aliases(iterators);
    forall c | c in first.value
      ensures Extends(c, ctx, {iterators[0].alias})
    {
    }
    if |iterators| > 1 {
      var rest := iterators[1..];
      assert Aliases(iterators) == {iterators[0].alias} + Aliases(rest) by {
        forall a | a in Aliases(iterators) ensures a in {iterators[0].alias} + Aliases(rest) {
          var i :| 0 <= i < |iterators| && iterators[i].alias == a;
          if i > 0 { assert rest[i - 1] == iterators[i]; }
        }
        forall a | a in Aliases(rest) ensures a in Aliases(iterators) {
          var i :| 0 <= i < |rest| && rest[i].alias == a;
          assert iterators[i + 1] == rest[i];
        }
      }
      forall x | x in IterableDataHandler(ctx, iterators).value
        ensures Extends(x, ctx, Aliases(iterators))
      {
        ExpandEachMember(first.value, rest, x);
        var i :| 0 <= i < |first.value| && IterableDataHandler(first.value[i], rest).Success?
                 && x in IterableDataHandler(first.value[i], rest).value;
        var c := first.value[i];
        ContextsExtendInput(c, rest);
        assert Extends(x, c, Aliases(rest));
        assert Extends(c, ctx, {iterators[0].alias});
      }
    } else {
      forall c | c in first.value ensures Extends(c, ctx, Aliases(iterators)) {
        assert Extends(c, ctx, {iterators[0].alias});
      }
    }
  }

  /** A later path does not look up through the alias an earlier iterator binds. */
  predicate NotThrough(path: seq<Key>, alias: string) {
    |path| == 0 || path[0] != Field(alias)
  }

  /** Each iterator's lookup is unaffected by the aliases bound before it. */
  predicate Independent(iterators: seq<Iterator>) {
    forall j, k :: 0 <= j < k < |iterators| ==> NotThrough(iterators[k].path, iterators[j].alias)
  }

  /** No iterator's lookup raises an error `create_iterable` lets through. */
  predicate NoUncaught(ctx: Value, iterators: seq<Iterator>) {
    forall k :: 0 <= k < |iterators| ==>
      FetchListByKeys(ctx, iterators[k].path).Success? || IsCaught(FetchListByKeys(ctx, iterators[k].path).error)
  }

  /** How many contexts one iterator yields: the list's length, or 1 when
      the lookup fails and the context passes through. */
  function FoundCount(ctx: Value, path: seq<Key>): nat {
    match FetchListByKeys(ctx, path)
    case Success(items) => |items|
    case Failure(_) => 1
  }

  function Product(ctx: Value, iterators: seq<Iterator>): nat
    decreases |iterators|
  {
    if |iterators| == 0 then 1 else FoundCount(ctx, iterators[0].path) * Product(ctx, iterators[1..])
  }

  /** Binding an alias no path starts with leaves the path's list unchanged. */
  lemma FetchUnaffected(m: map<string, Value>, alias: string, e: Value, path: seq<Key>)
    requires NotThrough(path, alias)
    ensures FetchListByKeys(Obj(m[alias := e]), path) == FetchListByKeys(Obj(m), path)
  {
    if |path| > 0 {
      assert Step(Obj(m[alias := e]), path[0]) == Step(Obj(m), path[0]);
    }
  }

  lemma {:induction false} ProductCongruent(a: Value, b: Value, iterators: seq<Iterator>)
    requires forall k :: 0 <= k < |iterators| ==>
               FetchListByKeys(a, iterators[k].path) == FetchListByKeys(b, iterators[k].path)
    ensures Product(a, iterators) == Product(b, iterators)
    decreases |iterators|
  {
    if |iterators| > 0 {
      assert FetchListByKeys(a, iterators[0].path) == FetchListByKeys(b, iterators[0].path);
      ProductCongruent(a, b, iterators[1..]);
    }
  }

  lemma {:induction false} ExpandEachCount(contexts: seq<Value>, rest: seq<Iterator>, p: nat)
    requires |rest| >= 1
    requires forall i :: 0 <= i < |contexts| ==>
               IterableDataHandler(contexts[i], rest).Success? && |IterableDataHandler(contexts[i], rest).value| == p
    ensures |ExpandEach(contexts, rest)| == |contexts| * p
    decreases |contexts|
  {
    if |contexts| > 0 {
      var n := |contexts|;
      var init := contexts[..n - 1];
      assert forall i :: 0 <= i < |init| ==> init[i] == contexts[i];
      ExpandEachCount(init, rest, p);
      var last := IterableDataHandler(contexts[n - 1], rest);
      assert last.Success? && |last.value| == p;
      ExpandEachLast(contexts, rest);
      MulStep(n, p);
    }
  }

  lemma MulStep(n: nat, p: nat)
    requires n >= 1
    ensures (n - 1) * p + p == n * p
  {
  }

  /** With independent iterators and no uncaught lookup errors, the handler
      yields one context per combination: the product of the list lengths,
      a failed lookup counting as one. */
  lemma {:induction false} IteratorCount(ctx: Value, iterators: seq<Iterator>)
    requires ctx.Obj? && |iterators| >= 1
    requires Independent(iterators) && NoUncaught(ctx, iterators)
    ensures IterableDataHandler(ctx, iterators).Success?
    ensures |IterableDataHandler(ctx, iterators).value| == Product(ctx, iterators)
    decreases |iterators|
  {
    var found := FetchListByKeys(ctx, iterators[0].path);
    assert found.Success? || IsCaught(found.error);
    var first := CreateIterable(ctx, iterators[0]);
    assert first.Success? && |first.value| == FoundCount(ctx, iterators[0].path);
    if |iterators| == 1 {
      assert Product(ctx, iterators[1..]) == 1;
    } else {
      var rest := iterators[1..];
      var p := Product(ctx, rest);
      forall i | 0 <= i < |first.value|
        ensures IterableDataHandler(first.value[i], rest).Success?
        ensures |IterableDataHandler(first.value[i], rest).value| == p
      {
        var c := first.value[i];
        if found.Success? {
          var alias := iterators[0].alias;
          assert c == Obj(ctx.fields[alias := found.value[i]]);
          forall k | 0 <= k < |rest|
            ensures FetchListByKeys(c, rest[k].path) == FetchListByKeys(ctx, rest[k].path)
          {
            assert rest[k] == iterators[k + 1];
            FetchUnaffected(ctx.fields, alias, found.value[i], rest[k].path);
          }
          ProductCongruent(c, ctx, rest);
        } else {
          assert c == ctx;
        }
        assert Independent(rest) by {
          forall j, k | 0 <= j < k < |rest| ensures NotThrough(rest[k].path, rest[j].alias) {
            assert rest[k] == iterators[k + 1] && rest[j] == iterators[j + 1];
          }
        }
        assert NoUncaught(c, rest) by {
          forall k | 0 <= k < |rest|
            ensures FetchListByKeys(c, rest[k].path).Success? || IsCaught(FetchListByKeys(c, rest[k].path).error)
          {
            assert rest[k] == iterators[k + 1];
          }
        }
        IteratorCount(c, rest);
      }
      ExpandEachCount(first.value, rest, p);
    }
  }
}

=== FILE: functions.dfy ===
/** The value transformations a data fetcher or attribute applies: if
    statements, separator joining, slicing and regular expressions.

    Each `unsafe_*` variant the handlers call is the function itself with a
    raised exception turned into `None`; here that is `GetOr(Null)` on the
    `Result` the function returns.
 */
module Functions {
  import opened Wrappers
  import opened Text
  import opened Values
  import opened Models

  /** Values Python can hash, i.e. use as a dict key in `x in some_dict`. */
  predicate IsHashable(v: Value) {
    !v.Arr? && !v.Obj?
  }

  /** Python's `x in container`, or the TypeError it raises. */
  function PyIn(x: Value, container: Value): Result<bool, string> {
    match container
    case Str(hay) =>
      if x.Str? then Success(IsSubstring(x.s, hay))
      else Failure("'in <string>' requires string as left operand")
    case Arr(items) => Success(x in items)
    case Obj(fields) =>
      if IsHashable(x) then Success(x.Str? && x.s in fields)
      else Failure("unhashable type")
    case _ => Failure("argument is not iterable")
  }

  /** Whether an if statement's condition holds for `v`.
      `in` tests `v in target`; `contains` tests `target in v` for a list or
      dict and compares the `str()` forms otherwise. */
  function Evaluate(env: Env, v: Value, statement: IfStatement): (r: Result<bool, string>)
    ensures statement.condition == Is ==> r == Success(v == statement.target)
    ensures statement.condition == Not ==> r == Success(v != statement.target)
    ensures statement.condition == In ==>
              (r.Success? <==>
                 (statement.target.Str? && v.Str?) || statement.target.Arr?
                 || (statement.target.Obj? && IsHashable(v)))
    ensures statement.condition == In && r.Success? ==>
              (r.value <==>
                 (statement.target.Str? && exists i :: OccursAt(v.s, statement.target.s, i))
                 || (statement.target.Arr? && exists i :: 0 <= i < |statement.target.items| && statement.target.items[i] == v)
                 || (statement.target.Obj? && v.Str? && v.s in statement.target.fields))
    ensures statement.condition == Contains ==>
              (r.Success? <==> !v.Obj? || IsHashable(statement.target))
    ensures statement.condition == Contains && r.Success? ==>
              (r.value <==>
                 (v.Arr? && exists i :: 0 <= i < |v.items| && v.items[i] == statement.target)
                 || (v.Obj? && statement.target.Str? && statement.target.s in v.fields)
                 || (!v.Arr? && !v.Obj? &&
                     exists i :: OccursAt(Stringify(env, statement.target), Stringify(env, v), i)))
  {
    var target := statement.target;
    match statement.condition
    case Is => Success(v == target)
    case Not => Success(v != target)
    case In => PyIn(v, target)
    case Contains =>
      if v.Arr? || v.Obj? then PyIn(target, v)
      else Success(IsSubstring(Stringify(env, target), Stringify(env, v)))
  }

  /** `not` is exactly the negation of `is` for the same target. */
  lemma NotIsNegatedIs(env: Env, v: Value, target: Value, thenValue: Value, otherwise: Value)
    ensures Evaluate(env, v, IfStatement(Not, target, thenValue, otherwise)).value
            == !Evaluate(env, v, IfStatement(Is, target, thenValue, otherwise)).value
  {
  }

  /** `_apply_statement`: `then` when the condition holds, else `otherwise`
      when it is truthy, else the value unchanged. */
  function ApplyStatement(env: Env, v: Value, statement: IfStatement): (r: Result<Value, string>)
    ensures r.Success? <==> Evaluate(env, v, statement).Success?
    ensures r.Success? && Evaluate(env, v, statement).value ==> r.value == statement.thenValue
    ensures r.Success? && !Evaluate(env, v, statement).value ==>
              r.value == (if Truthy(statement.otherwise) then statement.otherwise else v)
  {
    var holds :- Evaluate(env, v, statement);
    Success(if holds then statement.thenValue else Or(statement.otherwise, v))
  }

  /** `apply_if_statements`: each statement works on the previous one's
      output; the first error ends the chain. */
  function ApplyIfStatements(env: Env, v: Value, statements: seq<IfStatement>): (r: Result<Value, string>)
    ensures |statements| == 0 ==> r == Success(v)
    ensures |statements| == 1 ==> r == ApplyStatement(env, v, statements[0])
    decreases |statements|
  {
    if |statements| == 0 then Success(v)
    else
      match ApplyStatement(env, v, statements[0])
      case Failure(e) => Failure(e)
      case Success(w) => ApplyIfStatements(env, w, statements[1..])
  }

  /** Running `a + b` is running `a`, then `b` on its output. */
  lemma {:induction false} IfChainAppend(env: Env, v: Value, a: seq<IfStatement>, b: seq<IfStatement>)
    ensures ApplyIfStatements(env, v, a + b) ==
            (match ApplyIfStatements(env, v, a)
             case Success(w) => ApplyIfStatements(env, w, b)
             case Failure(e) => Failure(e))
    decreases |a|
  {
    if |a| == 0 {
      assert a + b == b;
    } else {
      assert (a + b)[0] == a[0];
      assert (a + b)[1..] == a[1..] + b;
      match ApplyStatement(env, v, a[0]) {
        case Failure(e) =>
        case Success(w) => IfChainAppend(env, w, a[1..], b);
      }
    }
  }

  /** `is` statements whose target differs from the value and which have no
      truthy `otherwise` leave the value unchanged. */
  lemma {:induction false} UnmatchedIsKeepsValue(env: Env, v: Value, statements: seq<IfStatement>)
    requires forall i :: 0 <= i < |statements| ==>
               statements[i].condition == Is && statements[i].target != v && !Truthy(statements[i].otherwise)
    ensures ApplyIfStatements(env, v, statements) == Success(v)
    decreases |statements|
  {
    if |statements| > 0 {
      assert ApplyStatement(env, v, statements[0]) == Success(v);
      UnmatchedIsKeepsValue(env, v, statements[1..]);
    }
  }

  /** The unwrapped chain the handlers use: an error becomes `Null`. */
  function UnsafeApplyIfStatements(env: Env, v: Value, statements: seq<IfStatement>): (r: Value)
    ensures ApplyIfStatements(env, v, statements).Failure? ==> r == Null
    ensures ApplyIfStatements(env, v, statements).Success? ==> r == ApplyIfStatements(env, v, statements).value
  {
    ApplyIfStatements(env, v, statements).GetOr(Null)
  }

  /** `str()` of each value. */
  function StringifyAll(env: Env, values: seq<Value>): (r: seq<string>)
    ensures |r| == |values|
    ensures forall i :: 0 <= i < |values| ==> r[i] == Stringify(env, values[i])
  {
    seq(|values|, i requires 0 <= i < |values| => Stringify(env, values[i]))
  }

  /** `apply_separator`: nothing gives `None`, one value is kept as it is
      (not stringified), several are stringified and joined. */
  function ApplySeparator(env: Env, values: seq<Value>, separator: string): (r: Value)
    ensures |values| == 0 ==> r == Null
    ensures |values| == 1 ==> r == values[0]
    ensures |values| >= 2 ==> r.Str?
  {
    if |values| == 0 then Null
    else if |values| == 1 then values[0]
    else Str(Join(StringifyAll(env, values), separator))
  }

  /** With a one-character separator that no value's text contains, the
      joined string splits back into exactly the values' texts. */
  lemma SeparatorSplitsBack(env: Env, values: seq<Value>, c: char)
    requires |values| >= 2
    requires forall i :: 0 <= i < |values| ==> c !in Stringify(env, values[i])
    ensures Split(ApplySeparator(env, values, [c]).s, c) == StringifyAll(env, values)
  {
    SplitJoin(StringifyAll(env, values), c);
  }

  /** `apply_slicing`: `None` stays `None`, a list is sliced as a list, any
      other value is sliced as its `str()`. */
  function ApplySlicing(env: Env, v: Value, slicing: Slicing): (r: Value)
    ensures v.Null? <==> r.Null?
    ensures v.Arr? ==> r.Arr? && |r.items| <= |v.items|
    ensures !v.Null? && !v.Arr? ==> r.Str? && |r.s| <= |Stringify(env, v)|
  {
    match v
    case Null => Null
    case Arr(items) => Arr(PySlice(items, slicing.sliceFrom, slicing.sliceTo))
    case _ => Str(PySlice(Stringify(env, v), slicing.sliceFrom, slicing.sliceTo))
  }

  /** Slicing `[:k]` and `[k:]` and concatenating the two parts gives back
      the list, or the `str()` of any other non-`None` value. */
  lemma SlicingSplits(env: Env, v: Value, k: int)
    requires !v.Null?
    ensures v.Arr? ==>
              ApplySlicing(env, v, Slicing(0, Some(k))).items + ApplySlicing(env, v, Slicing(k, None)).items == v.items
    ensures !v.Arr? ==>
              ApplySlicing(env, v, Slicing(0, Some(k))).s + ApplySlicing(env, v, Slicing(k, None)).s == Stringify(env, v)
  {
    if v.Arr? {
      SliceSplit(v.items, k);
    } else {
      SliceSplit(Stringify(env, v), k);
    }
  }

  /** The matches at the given indices, or `None` for the first index out of
      range. */
  function PickAll(matches: seq<string>, indices: seq<int>): (r: Option<seq<Value>>)
    ensures r.Some? <==> forall k :: 0 <= k < |indices| ==> NormalizeIndex(indices[k], |matches|).Some?
    ensures r.Some? ==> |r.value| == |indices|
    ensures r.Some? ==>
              forall k :: 0 <= k < |indices| ==>
                r.value[k] == Str(matches[NormalizeIndex(indices[k], |matches|).value])
    decreases |indices|
  {
    if |indices| == 0 then Some([])
    else
      match NormalizeIndex(indices[0], |matches|)
      case None => None
      case Some(j) =>
        match PickAll(matches, indices[1..])
        case None => None
        case Some(rest) => Some([Str(matches[j])] + rest)
  }

  /** The `group` selection of `apply_regex` over the whole matches. */
  function SelectMatches(matches: seq<string>, group: Group): (r: Value)
    ensures group.Single? ==>
              if NormalizeIndex(group.index, |matches|).Some?
              then r == Str(matches[NormalizeIndex(group.index, |matches|).value])
              else r == Null
    ensures group == Many([]) ==>
              r.Arr? && |r.items| == |matches| && forall i :: 0 <= i < |matches| ==> r.items[i] == Str(matches[i])
    ensures group.Many? && |group.indices| > 0 ==>
              (r.Arr? <==> PickAll(matches, group.indices).Some?) && (!r.Arr? ==> r == Null)
  {
    match group
    case Single(i) =>
      (match NormalizeIndex(i, |matches|)
       case Some(j) => Str(matches[j])
       case None => Null)
    case Many(indices) =>
      if |indices| == 0 then Arr(seq(|matches|, i requires 0 <= i < |matches| => Str(matches[i])))
      else
        match PickAll(matches, indices)
        case Some(picked) => Arr(picked)
        case None => Null
  }

  /** `apply_regex`: only strings can be searched (anything else is a
      TypeError); an index out of range gives `None`. */
  function ApplyRegex(env: Env, v: Value, regex: Regex): (r: Result<Value, string>)
    ensures r.Success? <==> v.Str?
    ensures r.Success? ==> r.value == SelectMatches(env.findAll(regex.expression, v.s), regex.group)
  {
    if v.Str? then Success(SelectMatches(env.findAll(regex.expression, v.s), regex.group))
    else Failure("expected string or bytes-like object")
  }

  function UnsafeApplyRegex(env: Env, v: Value, regex: Regex): Value {
    ApplyRegex(env, v, regex).GetOr(Null)
  }
}

=== FILE: handlers.dfy ===
/** Producing one value from the input (`kaiba/handlers.py`): a data
    fetcher finds a value at a path and refines it; an attribute combines
    the values of its data fetchers, decides on it and casts it.

    Both fall back to their `default` when they end with `None`, and fail
    with "Failed to produce a value" when the default is `None` as well.
 */
module Handlers {
  import opened Wrappers
  import opened Text
  import opened Values
  import opened Models
  import opened CollectionHandlers
  import opened Functions
  import opened Casting

  /** The error of a handler that produced `None` and has no default. */
  const NoValueError := "Failed to produce a value"

  /** The closing step both handlers share: `None` becomes the default, and
      a `None` default is the failure. */
  function WithDefault(produced: Value, default: Value): (r: Result<Value, string>)
    ensures r.Failure? <==> produced.Null? && default.Null?
    ensures r.Failure? ==> r.error == NoValueError
    ensures r.Success? ==> !r.value.Null?
    ensures r.Success? && !produced.Null? ==> r.value == produced
    ensures r.Success? && produced.Null? ==> r.value == default
  {
    if produced.Null? then
      if default.Null? then Failure(NoValueError) else Success(default)
    else Success(produced)
  }

  /** The value found at the fetcher's path, after the regular expression
      when it is truthy. */
  function Matched(env: Env, collection: Value, cfg: DataFetcher): Value {
    var found := UnsafeFetchDataByKeys(collection, cfg.path);
    if Truthy(found) && cfg.regex.Some? then UnsafeApplyRegex(env, found, cfg.regex.value) else found
  }

  /** The fetcher's value before its default is considered: found, matched
      and sliced while it stays truthy, then put through the if statements. */
  function Produce(env: Env, collection: Value, cfg: DataFetcher): Value {
    var matched := Matched(env, collection, cfg);
    var sliced := if Truthy(matched) && cfg.slicing.Some? then ApplySlicing(env, matched, cfg.slicing.value) else matched;
    UnsafeApplyIfStatements(env, sliced, cfg.ifStatements)
  }

  /** `handle_data_fetcher`: the produced value, else the default, else the
      failure; a success is never `None`. */
  function HandleDataFetcher(env: Env, collection: Value, cfg: DataFetcher): (r: Result<Value, string>)
    ensures r.Success? ==> !r.value.Null?
    ensures r.Failure? <==> Produce(env, collection, cfg).Null? && cfg.default.Null?
    ensures r.Failure? ==> r.error == NoValueError
    ensures r.Success? && r.value != Produce(env, collection, cfg) ==>
              Produce(env, collection, cfg).Null? && r.value == cfg.default
  {
    WithDefault(Produce(env, collection, cfg), cfg.default)
  }

  /** `unsafe_handle_data_fetcher`: the produced value, else the default
      (which may be `None`). */
  function UnsafeHandleDataFetcher(env: Env, collection: Value, cfg: DataFetcher): (r: Value)
    ensures r.Null? <==> Produce(env, collection, cfg).Null? && cfg.default.Null?
    ensures !r.Null? && r != Produce(env, collection, cfg) ==> r == cfg.default
  {
    var produced := Produce(env, collection, cfg);
    if produced.Null? then cfg.default else produced
  }

  /** The two fetcher handlers agree: the unsafe one is the safe one with
      the failure turned into `None`. */
  lemma UnsafeFetcherAgrees(env: Env, collection: Value, cfg: DataFetcher)
    ensures UnsafeHandleDataFetcher(env, collection, cfg) == HandleDataFetcher(env, collection, cfg).GetOr(Null)
  {
  }

  /** A fetcher with no regular expression, slicing or if statements returns
      the value at its path unchanged when there is one. */
  lemma PlainFetcherReturnsFound(env: Env, collection: Value, cfg: DataFetcher)
    requires cfg.regex.None? && cfg.slicing.None? && |cfg.ifStatements| == 0
    requires |cfg.path| > 0 && Walk(collection, cfg.path).Success? && !Walk(collection, cfg.path).value.Null?
    ensures HandleDataFetcher(env, collection, cfg) == Success(Walk(collection, cfg.path).value)
  {
  }

  /** Regular expression and slicing only see truthy values: a falsy value
      found at the path goes straight to the if statements. */
  lemma FalsyFoundSkipsRefinement(env: Env, collection: Value, cfg: DataFetcher)
    requires !Truthy(UnsafeFetchDataByKeys(collection, cfg.path))
    ensures Produce(env, collection, cfg) ==
            UnsafeApplyIfStatements(env, UnsafeFetchDataByKeys(collection, cfg.path), cfg.ifStatements)
  {
  }

  /** A truthy value that is not a string cannot be searched, so a fetcher
      with a regular expression loses it: the if statements see `None`. */
  lemma RegexOnNonStringLosesValue(env: Env, collection: Value, cfg: DataFetcher)
    requires cfg.regex.Some?
    requires Truthy(UnsafeFetchDataByKeys(collection, cfg.path)) && !UnsafeFetchDataByKeys(collection, cfg.path).Str?
    ensures Produce(env, collection, cfg) == UnsafeApplyIfStatements(env, Null, cfg.ifStatements)
  {
  }

  /** An if statement that maps the found value to `None` hands the
      decision to the default, which then wins over the found value. */
  lemma IfToNoneGivesDefault(env: Env, collection: Value, cfg: DataFetcher)
    requires cfg.regex.None? && cfg.slicing.None? && |cfg.ifStatements| == 1
    requires cfg.ifStatements[0].condition == Is && cfg.ifStatements[0].thenValue == Null
    requires UnsafeFetchDataByKeys(collection, cfg.path) == cfg.ifStatements[0].target
    ensures HandleDataFetcher(env, collection, cfg) ==
            (if cfg.default.Null? then Failure(NoValueError) else Success(cfg.default))
  {
  }

  /** The values that are not `None`, in order. */
  function NonNull(values: seq<Value>): (r: seq<Value>)
    ensures |r| <= |values|
    ensures forall x :: x in r <==> x in values && !x.Null?
    decreases |values|
  {
    if |values| == 0 then []
    else if values[0].Null? then NonNull(values[1..])
    else [values[0]] + NonNull(values[1..])
  }

  /** Filtering `a + b` is filtering `a`, then `b`. */
  lemma {:induction false} NonNullAppend(a: seq<Value>, b: seq<Value>)
    ensures NonNull(a + b) == NonNull(a) + NonNull(b)
    decreases |a|
  {
    if |a| == 0 {
      assert a + b == b;
    } else {
      assert (a + b)[0] == a[0];
      assert (a + b)[1..] == a[1..] + b;
      NonNullAppend(a[1..], b);
    }
  }

  /** Filtering values none of which is `None` keeps them all. */
  lemma {:induction false} NonNullKeepsPresent(values: seq<Value>)
    requires forall i :: 0 <= i < |values| ==> !values[i].Null?
    ensures NonNull(values) == values
    decreases |values|
  {
    if |values| > 0 {
      NonNullKeepsPresent(values[1..]);
      assert [values[0]] + values[1..] == values;
    }
  }

  /** What each of the attribute's fetchers gives, `None` included. */
  function FetcherResults(env: Env, collection: Value, fetchers: seq<DataFetcher>): (r: seq<Value>)
    ensures |r| == |fetchers|
    ensures forall j :: 0 <= j < |fetchers| ==> r[j] == UnsafeHandleDataFetcher(env, collection, fetchers[j])
  {
    seq(|fetchers|, j requires 0 <= j < |fetchers| => UnsafeHandleDataFetcher(env, collection, fetchers[j]))
  }

  /** The non-`None` results of the attribute's fetchers, in order. */
  function FetchedValues(env: Env, collection: Value, fetchers: seq<DataFetcher>): seq<Value> {
    NonNull(FetcherResults(env, collection, fetchers))
  }

  /** Fetching for `a + b` is fetching for `a`, then for `b`. */
  lemma FetchedValuesAppend(env: Env, collection: Value, a: seq<DataFetcher>, b: seq<DataFetcher>)
    ensures FetchedValues(env, collection, a + b) == FetchedValues(env, collection, a) + FetchedValues(env, collection, b)
  {
    var ra, rb := FetcherResults(env, collection, a), FetcherResults(env, collection, b);
    var rab := FetcherResults(env, collection, a + b);
    assert rab == ra + rb by {
      forall j | 0 <= j < |rab|
        ensures rab[j] == (ra + rb)[j]
      {
        if j < |a| {
          assert (a + b)[j] == a[j];
        } else {
          assert (a + b)[j] == b[j - |a|];
        }
      }
    }
    NonNullAppend(ra, rb);
  }

  /** The attribute's fetched values joined, or `None` when there are none. */
  function Joined(env: Env, collection: Value, cfg: Attribute): Value {
    var fetched := FetchedValues(env, collection, cfg.dataFetchers);
    if |fetched| > 0 then ApplySeparator(env, fetched, cfg.separator) else Null
  }

  /** The joined value after the attribute's if statements. */
  function Decided(env: Env, collection: Value, cfg: Attribute): Value {
    UnsafeApplyIfStatements(env, Joined(env, collection, cfg), cfg.ifStatements)
  }

  /** The decided value, cast when it is truthy and a cast is configured; a
      failed cast is `None`. */
  function AttributeValue(env: Env, collection: Value, cfg: Attribute): Value {
    var decided := Decided(env, collection, cfg);
    if Truthy(decided) && cfg.cast.Some? then UnsafeApplyCasting(env, decided, cfg.cast.value) else decided
  }

  /** `handle_attribute`: the attribute's value, else its default, else the
      failure. A successful cast shows in the kind of the result. */
  function HandleAttribute(env: Env, collection: Value, cfg: Attribute): (r: Result<Value, string>)
    ensures r.Success? ==> !r.value.Null?
    ensures r.Failure? <==> AttributeValue(env, collection, cfg).Null? && cfg.default.Null?
    ensures r.Failure? ==> r.error == NoValueError
    ensures r.Success? && r.value != AttributeValue(env, collection, cfg) ==>
              AttributeValue(env, collection, cfg).Null? && r.value == cfg.default
    ensures r.Success? && r.value != cfg.default && cfg.cast.Some? && Truthy(Decided(env, collection, cfg)) ==>
              ProducesKind(cfg.cast.value.to, r.value)
  {
    WithDefault(AttributeValue(env, collection, cfg), cfg.default)
  }

  /** An attribute with one fetcher and nothing of its own to apply behaves
      exactly as that fetcher. */
  lemma OneFetcherAttribute(env: Env, collection: Value, name: string, f: DataFetcher, separator: string)
    ensures HandleAttribute(env, collection, Attribute(name, [f], separator, [], None, Null))
            == HandleDataFetcher(env, collection, f)
  {
    var cfg := Attribute(name, [f], separator, [], None, Null);
    var v := UnsafeHandleDataFetcher(env, collection, f);
    assert FetchedValues(env, collection, cfg.dataFetchers) == (if v.Null? then [] else [v]);
  }

  /** With every fetcher producing a value and at least two fetchers, an
      attribute without if statements or cast is the texts of the
      fetchers' values joined by the separator, in the fetchers' order. */
  lemma SeveralFetchersJoin(env: Env, collection: Value, cfg: Attribute)
    requires |cfg.dataFetchers| >= 2 && |cfg.ifStatements| == 0 && cfg.cast.None?
    requires forall j :: 0 <= j < |cfg.dataFetchers| ==> !UnsafeHandleDataFetcher(env, collection, cfg.dataFetchers[j]).Null?
    ensures HandleAttribute(env, collection, cfg) ==
            Success(Str(Join(StringifyAll(env, FetcherResults(env, collection, cfg.dataFetchers)), cfg.separator)))
  {
    var results := FetcherResults(env, collection, cfg.dataFetchers);
    NonNullKeepsPresent(results);
    var joined := Str(Join(StringifyAll(env, results), cfg.separator));
    assert Joined(env, collection, cfg) == joined;
    assert Decided(env, collection, cfg) == joined;
  }

  /** A regular expression that finds nothing in the string of the only
      fetcher, with no default anywhere, makes the attribute fail: the
      string is lost rather than kept. */
  lemma RegexMissFailsAttribute(env: Env, collection: Value, name: string, f: DataFetcher, separator: string)
    requires f.regex.Some? && f.regex.value.group.Single? && f.slicing.None? && |f.ifStatements| == 0
    requires f.default.Null?
    requires |f.path| > 0 && Walk(collection, f.path).Success? && Walk(collection, f.path).value.Str?
    requires |Walk(collection, f.path).value.s| > 0
    requires env.findAll(f.regex.value.expression, Walk(collection, f.path).value.s) == []
    ensures HandleAttribute(env, collection, Attribute(name, [f], separator, [], None, Null)) == Failure(NoValueError)
  {
    OneFetcherAttribute(env, collection, name, f, separator);
  }
}

=== FILE: mapper.dfy ===
/** The recursive object mapper (`kaiba/mapper.py`): a configuration tree of
    objects, each mapping its attributes, its child objects and its
    branching objects into one output dict.

    The engine's `@maybe` functions turn an empty dict or list into
    "nothing"; here that is `None` of `Option`. `map_data` is `@safe`: the
    one exception it can raise, unwrapping an object that mapped nothing,
    is its `Failure`.
 */
module Mapper {
  import opened Wrappers
  import opened Values
  import opened Models
  import opened CollectionHandlers
  import opened Handlers

  /** The error of `map_data` when its object mapped nothing and there was
      no iteration to fall back to. */
  const NothingMapped := "Nothing to unwrap"

  /** A name and what the step that should fill it produced, if anything. */
  datatype Entry = Entry(name: string, value: Option<Value>)

  /** The dict built by a loop that sets `d[name] = value` for each entry
      with a value, in order; a later name overwrites an earlier one. */
  function Collect(entries: seq<Entry>): map<string, Value>
    decreases |entries|
  {
    if |entries| == 0 then map[]
    else
      var last := entries[|entries| - 1];
      var front := Collect(entries[..|entries| - 1]);
      if last.value.Some? then front[last.name := last.value.value] else front
  }

  /** A name is set exactly when some entry of that name has a value, and
      every value set is the value of some entry. */
  lemma {:induction false} CollectKeys(entries: seq<Entry>)
    ensures forall k :: k in Collect(entries) <==>
              exists i :: 0 <= i < |entries| && entries[i].name == k && entries[i].value.Some?
    ensures forall k :: k in Collect(entries) ==>
              exists i :: 0 <= i < |entries| && entries[i].value == Some(Collect(entries)[k])
    decreases |entries|
  {
    if |entries| > 0 {
      var front := entries[..|entries| - 1];
      CollectKeys(front);
      assert forall i :: 0 <= i < |front| ==> front[i] == entries[i];
    }
  }

  /** `CollectKeys` for entries built from a list of items: a name is set
      exactly when some item of that name has a value. */
  lemma EntriesKeys<A>(items: seq<A>, name: A -> string, ok: A -> bool, entries: seq<Entry>)
    requires |entries| == |items|
    requires forall i :: 0 <= i < |items| ==> entries[i].name == name(items[i]) && (entries[i].value.Some? <==> ok(items[i]))
    ensures forall k :: k in Collect(entries) <==> exists i :: 0 <= i < |items| && name(items[i]) == k && ok(items[i])
  {
    CollectKeys(entries);
    forall k
      ensures k in Collect(entries) <==> exists i :: 0 <= i < |items| && name(items[i]) == k && ok(items[i])
    {
      if k in Collect(entries) {
        var i :| 0 <= i < |entries| && entries[i].name == k && entries[i].value.Some?;
        assert name(items[i]) == k && ok(items[i]);
      }
      if exists i :: 0 <= i < |items| && name(items[i]) == k && ok(items[i]) {
        var i :| 0 <= i < |items| && name(items[i]) == k && ok(items[i]);
        assert entries[i].name == k && entries[i].value.Some?;
      }
    }
  }

  /** A property every entry's value has, every value set has. */
  lemma CollectAll(entries: seq<Entry>, p: Value -> bool)
    requires forall i :: 0 <= i < |entries| && entries[i].value.Some? ==> p(entries[i].value.value)
    ensures forall k :: k in Collect(entries) ==> p(Collect(entries)[k])
  {
    CollectKeys(entries);
    forall k | k in Collect(entries)
      ensures p(Collect(entries)[k])
    {
      var i :| 0 <= i < |entries| && entries[i].value == Some(Collect(entries)[k]);
    }
  }

  /** Nothing is set exactly when no entry has a value. */
  lemma {:induction false} CollectEmpty(entries: seq<Entry>)
    ensures |Collect(entries)| == 0 <==> forall i :: 0 <= i < |entries| ==> entries[i].value.None?
    decreases |entries|
  {
    if |entries| > 0 {
      var front := entries[..|entries| - 1];
      var last := entries[|entries| - 1];
      CollectEmpty(front);
      assert forall i :: 0 <= i < |front| ==> front[i] == entries[i];
      if last.value.Some? {
        assert last.name in Collect(entries);
      }
    }
  }

  /** The value kept under a name is that of the last entry of that name
      that has one. */
  lemma {:induction false} CollectLastWins(entries: seq<Entry>, i: nat)
    requires i < |entries| && entries[i].value.Some?
    requires forall j :: i < j < |entries| && entries[j].value.Some? ==> entries[j].name != entries[i].name
    ensures entries[i].name in Collect(entries)
    ensures Collect(entries)[entries[i].name] == entries[i].value.value
    decreases |entries|
  {
    var front := entries[..|entries| - 1];
    if i < |entries| - 1 {
      assert forall j :: i < j < |front| ==> front[j] == entries[j];
      CollectLastWins(front, i);
    }
  }

  /** Each value that is present, in order. */
  function Somes<T>(xs: seq<Option<T>>): (r: seq<T>)
    ensures |r| <= |xs|
    ensures forall i :: 0 <= i < |xs| && xs[i].Some? ==> xs[i].value in r
    ensures forall j :: 0 <= j < |r| ==> Some(r[j]) in xs
    ensures |r| == 0 <==> forall i :: 0 <= i < |xs| ==> xs[i].None?
    decreases |xs|
  {
    if |xs| == 0 then []
    else if xs[0].Some? then [xs[0].value] + Somes(xs[1..])
    else Somes(xs[1..])
  }

  /** A property every present value has, every kept value has. */
  lemma {:induction false} SomesAll<T>(xs: seq<Option<T>>, p: T -> bool)
    requires forall i :: 0 <= i < |xs| && xs[i].Some? ==> p(xs[i].value)
    ensures forall j :: 0 <= j < |Somes(xs)| ==> p(Somes(xs)[j])
    decreases |xs|
  {
    if |xs| > 0 {
      SomesAll(xs[1..], p);
      assert forall i :: 1 <= i < |xs| ==> xs[i] == xs[1..][i - 1];
    }
  }

  /** Keeping the present values of `a + b` keeps those of `a`, then those
      of `b`: the kept values stay in their original order. */
  lemma {:induction false} SomesAppend<T>(a: seq<Option<T>>, b: seq<Option<T>>)
    ensures Somes(a + b) == Somes(a) + Somes(b)
    decreases |a|
  {
    if |a| == 0 {
      assert a + b == b;
    } else {
      assert (a + b)[0] == a[0];
      assert (a + b)[1..] == a[1..] + b;
      SomesAppend(a[1..], b);
    }
  }

  /** One optional value keeps its value, or nothing. */
  lemma SomesSingle<T>(x: Option<T>)
    ensures Somes([x]) == if x.Some? then [x.value] else []
  {
    assert [x][1..] == [];
  }

  /** `d or None` for a dict `d`. */
  function NonEmpty(m: map<string, Value>): (r: Option<map<string, Value>>)
    ensures r.None? <==> |m| == 0
    ensures r.Some? ==> r.value == m
  {
    if |m| == 0 then None else Some(m)
  }

  /** The value of a successful result. */
  function Present(r: Result<Value, string>): Option<Value> {
    if r.Success? then Some(r.value) else None
  }

  /** `set_array`: wrap in a one-element list when `array` is set. */
  function SetArray(v: Value, asList: bool): (r: Value)
    ensures asList ==> r.Arr? && r.items == [v]
    ensures !asList ==> r == v
  {
    if asList then Arr([v]) else v
  }

  /** The entries of an attribute list: each attribute's name and the value
      `handle_attribute` produced, if it succeeded. */
  function AttributeEntries(env: Env, input: Value, attributes: seq<Attribute>): (r: seq<Entry>)
    ensures |r| == |attributes|
    ensures forall i :: 0 <= i < |attributes| ==>
              r[i] == Entry(attributes[i].name, Present(HandleAttribute(env, input, attributes[i])))
  {
    seq(|attributes|, i requires 0 <= i < |attributes| =>
      Entry(attributes[i].name, Present(HandleAttribute(env, input, attributes[i]))))
  }

  /** `map_attributes`: each successful attribute under its name; a failed
      attribute is left out, and no attribute succeeding gives `None`. */
  function MapAttributes(env: Env, input: Value, attributes: seq<Attribute>): (r: Option<map<string, Value>>)
    ensures r.None? <==> forall i :: 0 <= i < |attributes| ==> HandleAttribute(env, input, attributes[i]).Failure?
    ensures r.Some? ==> |r.value| > 0
  {
    var entries := AttributeEntries(env, input, attributes);
    CollectEmpty(entries);
    NonEmpty(Collect(entries))
  }

  /** An attribute name is set exactly when some attribute of that name
      succeeds: a failed attribute is omitted, never set to `None`. */
  lemma AttributeKeys(env: Env, input: Value, attributes: seq<Attribute>)
    requires MapAttributes(env, input, attributes).Some?
    ensures forall k :: k in MapAttributes(env, input, attributes).value <==>
              exists i :: 0 <= i < |attributes| && attributes[i].name == k && HandleAttribute(env, input, attributes[i]).Success?
  {
    var entries := AttributeEntries(env, input, attributes);
    assert MapAttributes(env, input, attributes).value == Collect(entries);
    EntriesKeys(attributes, (a: Attribute) => a.name,
                (a: Attribute) => HandleAttribute(env, input, a).Success?, entries);
  }

  /** No attribute is ever set to `None`. */
  lemma AttributesNeverNull(env: Env, input: Value, attributes: seq<Attribute>)
    requires MapAttributes(env, input, attributes).Some?
    ensures forall k :: k in MapAttributes(env, input, attributes).value ==>
              !MapAttributes(env, input, attributes).value[k].Null?
  {
    CollectAll(AttributeEntries(env, input, attributes), (v: Value) => !v.Null?);
  }

  /** Of several attributes with one name, the last that succeeds wins. */
  lemma LastAttributeWins(env: Env, input: Value, attributes: seq<Attribute>, i: nat)
    requires i < |attributes| && HandleAttribute(env, input, attributes[i]).Success?
    requires forall j :: i < j < |attributes| && HandleAttribute(env, input, attributes[j]).Success? ==>
               attributes[j].name != attributes[i].name
    ensures MapAttributes(env, input, attributes).Some?
    ensures attributes[i].name in MapAttributes(env, input, attributes).value
    ensures MapAttributes(env, input, attributes).value[attributes[i].name] == HandleAttribute(env, input, attributes[i]).value
  {
    CollectLastWins(AttributeEntries(env, input, attributes), i);
  }

  /** Each branch's attributes mapped. */
  function BranchResults(env: Env, input: Value, branches: seq<seq<Attribute>>): (r: seq<Option<map<string, Value>>>)
    ensures |r| == |branches|
    ensures forall i :: 0 <= i < |branches| ==> r[i] == MapAttributes(env, input, branches[i])
  {
    seq(|branches|, i requires 0 <= i < |branches| => MapAttributes(env, input, branches[i]))
  }

  /** `map_branching_attributes`: the non-empty results of mapping each
      branch's attributes, in order, or `None` when every branch is empty. */
  function MapBranchingAttributes(env: Env, input: Value, branches: seq<seq<Attribute>>): (r: Option<seq<map<string, Value>>>)
    ensures r.None? <==> forall i :: 0 <= i < |branches| ==> MapAttributes(env, input, branches[i]).None?
    ensures r.Some? ==> 0 < |r.value| <= |branches|
    ensures r.Some? ==> forall j :: 0 <= j < |r.value| ==> |r.value[j]| > 0
  {
    var results := BranchResults(env, input, branches);
    var mapped := Somes(results);
    SomesAll(results, (m: map<string, Value>) => |m| > 0);
    if |mapped| == 0 then None else Some(mapped)
  }

  /** A list of dicts as a JSON value. */
  function ObjectList(ms: seq<map<string, Value>>): (r: Value)
    ensures r.Arr? && |r.items| == |ms|
    ensures forall i :: 0 <= i < |ms| ==> r.items[i] == Obj(ms[i])
  {
    Arr(seq(|ms|, i requires 0 <= i < |ms| => Obj(ms[i])))
  }

  /** The list of dicts `a + b` is that of `a` followed by that of `b`. */
  lemma ObjectListAppend(a: seq<map<string, Value>>, b: seq<map<string, Value>>)
    ensures ObjectList(a + b).items == ObjectList(a).items + ObjectList(b).items
  {
    var l := ObjectList(a + b).items;
    var r := ObjectList(a).items + ObjectList(b).items;
    assert |l| == |r|;
    forall i | 0 <= i < |l|
      ensures l[i] == r[i]
    {
      if i < |a| {
        assert (a + b)[i] == a[i];
      } else {
        assert (a + b)[i] == b[i - |a|];
      }
    }
  }

  /** The branch results of `a + b` are those of `a`, then those of `b`. */
  lemma BranchResultsAppend(env: Env, input: Value, a: seq<seq<Attribute>>, b: seq<seq<Attribute>>)
    ensures BranchResults(env, input, a + b) == BranchResults(env, input, a) + BranchResults(env, input, b)
  {
    var l := BranchResults(env, input, a + b);
    var r := BranchResults(env, input, a) + BranchResults(env, input, b);
    assert |l| == |r|;
    forall i | 0 <= i < |l|
      ensures l[i] == r[i]
    {
      if i < |a| {
        assert (a + b)[i] == a[i];
      } else {
        assert (a + b)[i] == b[i - |a|];
      }
    }
  }

  /** The dicts of the branches `a + b` are those of `a`, then those of `b`:
      each branch's dict keeps its branch's place, and an empty branch
      leaves no gap. */
  lemma BranchingAttributesAppend(env: Env, input: Value, a: seq<seq<Attribute>>, b: seq<seq<Attribute>>)
    ensures MapBranchingAttributes(env, input, a + b).GetOr([])
            == MapBranchingAttributes(env, input, a).GetOr([]) + MapBranchingAttributes(env, input, b).GetOr([])
  {
    BranchResultsAppend(env, input, a, b);
    SomesAppend(BranchResults(env, input, a), BranchResults(env, input, b));
  }

  /** One branch gives the one-element list of its mapped attributes, or
      nothing when it maps nothing. */
  lemma BranchingAttributesOne(env: Env, input: Value, branch: seq<Attribute>)
    ensures MapBranchingAttributes(env, input, [branch]) ==
            if MapAttributes(env, input, branch).Some? then Some([MapAttributes(env, input, branch).value]) else None
  {
    assert BranchResults(env, input, [branch]) == [MapAttributes(env, input, branch)];
    SomesSingle(MapAttributes(env, input, branch));
  }

  /** What a branching object contributes: the list of its branches, if any. */
  function BranchingValue(env: Env, input: Value, b: BranchingObject): (r: Option<Value>)
    ensures r.Some? ==> r.value.Arr? && |r.value.items| > 0
    ensures r.Some? ==> forall j :: 0 <= j < |r.value.items| ==> r.value.items[j].Obj? && |r.value.items[j].fields| > 0
    ensures r.None? <==> MapBranchingAttributes(env, input, b.branchingAttributes).None?
    ensures r.Some? ==> |r.value.items| == |MapBranchingAttributes(env, input, b.branchingAttributes).value|
    ensures r.Some? ==> forall j :: 0 <= j < |r.value.items| ==>
              r.value.items[j] == Obj(MapBranchingAttributes(env, input, b.branchingAttributes).value[j])
  {
    match MapBranchingAttributes(env, input, b.branchingAttributes)
    case Some(ms) =>
      ObjectListNonEmpty(ms);
      Some(ObjectList(ms))
    case None => None
  }

  /** A non-empty list of non-empty dicts stays so as a JSON list. */
  lemma ObjectListNonEmpty(ms: seq<map<string, Value>>)
    requires |ms| > 0 && forall j :: 0 <= j < |ms| ==> |ms[j]| > 0
    ensures |ObjectList(ms).items| > 0
    ensures forall j :: 0 <= j < |ObjectList(ms).items| ==> ObjectList(ms).items[j].Obj? && |ObjectList(ms).items[j].fields| > 0
  {
  }

  /** The entries of a branching object list. */
  function BranchingEntries(env: Env, input: Value, branching: seq<BranchingObject>): (r: seq<Entry>)
    ensures |r| == |branching|
    ensures forall i :: 0 <= i < |branching| ==> r[i] == Entry(branching[i].name, BranchingValue(env, input, branching[i]))
  {
    seq(|branching|, i requires 0 <= i < |branching| => Entry(branching[i].name, BranchingValue(env, input, branching[i])))
  }

  /** `map_branching_objects`: each branching object with a non-empty
      branch, under its name. */
  function MapBranchingObjects(env: Env, input: Value, branching: seq<BranchingObject>): (r: Option<map<string, Value>>)
    ensures r.None? <==> forall i :: 0 <= i < |branching| ==> BranchingValue(env, input, branching[i]).None?
  {
    var entries := BranchingEntries(env, input, branching);
    CollectEmpty(entries);
    NonEmpty(Collect(entries))
  }

  /** A branching object always contributes a non-empty list of non-empty
      dicts, whatever its `array` flag says. */
  lemma BranchingAlwaysList(env: Env, input: Value, branching: seq<BranchingObject>)
    requires MapBranchingObjects(env, input, branching).Some?
    ensures forall k :: k in MapBranchingObjects(env, input, branching).value ==>
              var v := MapBranchingObjects(env, input, branching).value[k];
              v.Arr? && |v.items| > 0 && forall j :: 0 <= j < |v.items| ==> v.items[j].Obj? && |v.items[j].fields| > 0
  {
    var entries := BranchingEntries(env, input, branching);
    CollectKeys(entries);
    forall k | k in Collect(entries)
      ensures Collect(entries)[k].Arr? && |Collect(entries)[k].items| > 0
      ensures forall j :: 0 <= j < |Collect(entries)[k].items| ==>
                Collect(entries)[k].items[j].Obj? && |Collect(entries)[k].items[j].fields| > 0
    {
      var i :| 0 <= i < |entries| && entries[i].value == Some(Collect(entries)[k]);
    }
  }

  /** A branching object's name is set exactly when some branching object
      of that name has a non-empty branch. */
  lemma BranchingKeys(env: Env, input: Value, branching: seq<BranchingObject>)
    requires MapBranchingObjects(env, input, branching).Some?
    ensures forall k :: k in MapBranchingObjects(env, input, branching).value <==>
              exists i :: 0 <= i < |branching| && branching[i].name == k && BranchingValue(env, input, branching[i]).Some?
  {
    var entries := BranchingEntries(env, input, branching);
    assert MapBranchingObjects(env, input, branching).value == Collect(entries);
    EntriesKeys(branching, (b: BranchingObject) => b.name,
                (b: BranchingObject) => BranchingValue(env, input, b).Some?, entries);
  }

  /** A branching object's list is stored under its own name, unless a
      later one of the same name also contributes. */
  lemma BranchingKeptUnderName(env: Env, input: Value, branching: seq<BranchingObject>, i: nat)
    requires i < |branching| && BranchingValue(env, input, branching[i]).Some?
    requires forall j :: i < j < |branching| && BranchingValue(env, input, branching[j]).Some? ==>
               branching[j].name != branching[i].name
    ensures MapBranchingObjects(env, input, branching).Some?
    ensures branching[i].name in MapBranchingObjects(env, input, branching).value
    ensures MapBranchingObjects(env, input, branching).value[branching[i].name] == BranchingValue(env, input, branching[i]).value
  {
    CollectLastWins(BranchingEntries(env, input, branching), i);
  }

  /** `map_data`: without iteration, the object once (wrapped as `array`
      says); with iteration, the list of the non-empty objects mapped in
      each context, whatever `array` says. */
  function MapData(env: Env, input: Value, cfg: KaibaObject): (r: Result<Value, string>)
    ensures r.Failure? ==> r.error == NothingMapped
    decreases cfg, 3, 0
  {
    match IterableDataHandler(input, cfg.iterators)
    case Failure(_) =>
      (match MapObject(env, input, cfg)
       case None => Failure(NothingMapped)
       case Some(o) => Success(SetArray(Obj(o), cfg.asArray)))
    case Success(contexts) => Success(MapEach(env, contexts, cfg))
  }

  /** The objects mapped in each iteration context, those that mapped
      nothing left out, as a list. */
  function MapEach(env: Env, contexts: seq<Value>, cfg: KaibaObject): Value
    decreases cfg, 2, 0
  {
    ObjectList(Somes(ContextResults(env, contexts, cfg)))
  }

  /** The object mapped in each context. */
  function ContextResults(env: Env, contexts: seq<Value>, cfg: KaibaObject): (r: seq<Option<map<string, Value>>>)
    ensures |r| == |contexts|
    ensures forall i :: 0 <= i < |contexts| ==> r[i] == MapObject(env, contexts[i], cfg)
    decreases cfg, 1, 1
  {
    seq(|contexts|, i requires 0 <= i < |contexts| => MapObject(env, contexts[i], cfg))
  }

  /** `map_object`: attributes, then child objects, then branching objects
      merged into one dict, a later key overwriting an earlier; an empty
      dict is `None`. */
  function MapObject(env: Env, input: Value, cfg: KaibaObject): (r: Option<map<string, Value>>)
    ensures r.Some? ==> |r.value| > 0
    decreases cfg, 1, 0
  {
    var attributes := MapAttributes(env, input, cfg.attributes).GetOr(map[]);
    var objects := MapObjects(env, input, cfg).GetOr(map[]);
    var branching := MapBranchingObjects(env, input, cfg.branchingObjects).GetOr(map[]);
    NonEmpty(attributes + objects + branching)
  }

  /** The entries of the child objects of `cfg`. */
  function ObjectEntries(env: Env, input: Value, cfg: KaibaObject): (r: seq<Entry>)
    ensures |r| == |cfg.objects|
    ensures forall i :: 0 <= i < |cfg.objects| ==>
              r[i] == Entry(cfg.objects[i].name, Present(MapData(env, input, cfg.objects[i])))
    decreases cfg, 0, 1
  {
    seq(|cfg.objects|, i requires 0 <= i < |cfg.objects| =>
      Entry(cfg.objects[i].name, Present(MapData(env, input, cfg.objects[i]))))
  }

  /** `map_objects` on the children of `cfg`: each child that mapped, under
      its name. */
  function MapObjects(env: Env, input: Value, cfg: KaibaObject): (r: Option<map<string, Value>>)
    ensures r.None? <==> forall i :: 0 <= i < |cfg.objects| ==> MapData(env, input, cfg.objects[i]).Failure?
    decreases cfg, 0, 2
  {
    var entries := ObjectEntries(env, input, cfg);
    CollectEmpty(entries);
    NonEmpty(Collect(entries))
  }

  /** Without iteration data (no iterators, or an error the iterators do
      not catch) the object is mapped once against the input: it fails when
      the object maps nothing, and is wrapped in a one-element list exactly
      when `array` is set. */
  lemma NoIterationWrapsIffArray(env: Env, input: Value, cfg: KaibaObject)
    requires IterableDataHandler(input, cfg.iterators).Failure?
    ensures MapData(env, input, cfg).Success? <==> MapObject(env, input, cfg).Some?
    ensures MapData(env, input, cfg).Success? ==>
              (MapData(env, input, cfg).value.Arr? <==> cfg.asArray)
    ensures MapData(env, input, cfg).Success? && cfg.asArray ==>
              MapData(env, input, cfg).value.items == [Obj(MapObject(env, input, cfg).value)]
    ensures MapData(env, input, cfg).Success? && !cfg.asArray ==>
              MapData(env, input, cfg).value == Obj(MapObject(env, input, cfg).value)
  {
  }

  /** An object without iterators is never iterated. */
  lemma NoIteratorsMapsOnce(env: Env, input: Value, cfg: KaibaObject)
    requires |cfg.iterators| == 0
    ensures IterableDataHandler(input, cfg.iterators).Failure?
    ensures MapData(env, input, cfg).Success? <==> MapObject(env, input, cfg).Some?
  {
    NoIterationWrapsIffArray(env, input, cfg);
  }

  /** With iteration data, the result is always a list, whatever `array`
      says: one non-empty dict for each context whose object mapped
      something, in context order. */
  lemma IterationGivesList(env: Env, input: Value, cfg: KaibaObject)
    requires IterableDataHandler(input, cfg.iterators).Success?
    ensures MapData(env, input, cfg) == Success(MapEach(env, IterableDataHandler(input, cfg.iterators).value, cfg))
    ensures MapEach(env, IterableDataHandler(input, cfg.iterators).value, cfg).Arr?
  {
    MapEachContents(env, IterableDataHandler(input, cfg.iterators).value, cfg);
  }

  /** The list of objects mapped over contexts: at most one non-empty dict
      per context, and one for each context whose object mapped. */
  lemma MapEachContents(env: Env, contexts: seq<Value>, cfg: KaibaObject)
    ensures MapEach(env, contexts, cfg).Arr?
    ensures |MapEach(env, contexts, cfg).items| <= |contexts|
    ensures forall j :: 0 <= j < |MapEach(env, contexts, cfg).items| ==>
              MapEach(env, contexts, cfg).items[j].Obj? && |MapEach(env, contexts, cfg).items[j].fields| > 0
    ensures forall i :: 0 <= i < |contexts| && MapObject(env, contexts[i], cfg).Some? ==>
              Obj(MapObject(env, contexts[i], cfg).value) in MapEach(env, contexts, cfg).items
  {
    var results := ContextResults(env, contexts, cfg);
    ObjectListShape(results);
    ObjectListComplete(results);
  }

  /** The object list over contexts `c1 + c2` is that over `c1` followed by
      that over `c2`: the mapped objects appear in context order. */
  lemma MapEachAppend(env: Env, c1: seq<Value>, c2: seq<Value>, cfg: KaibaObject)
    ensures MapEach(env, c1 + c2, cfg).items == MapEach(env, c1, cfg).items + MapEach(env, c2, cfg).items
  {
    var r1 := ContextResults(env, c1, cfg);
    var r2 := ContextResults(env, c2, cfg);
    ContextResultsAppend(env, c1, c2, cfg);
    SomesAppend(r1, r2);
    ObjectListAppend(Somes(r1), Somes(r2));
  }

  /** One context gives its mapped object as a one-element list, or the
      empty list when the object maps nothing. */
  lemma MapEachOne(env: Env, c: Value, cfg: KaibaObject)
    ensures MapEach(env, [c], cfg) == Arr(if MapObject(env, c, cfg).Some? then [Obj(MapObject(env, c, cfg).value)] else [])
  {
    assert ContextResults(env, [c], cfg) == [MapObject(env, c, cfg)];
    SomesOne(MapObject(env, c, cfg));
  }

  /** The results over contexts `c1 + c2` are those over `c1`, then `c2`. */
  lemma ContextResultsAppend(env: Env, c1: seq<Value>, c2: seq<Value>, cfg: KaibaObject)
    ensures ContextResults(env, c1 + c2, cfg) == ContextResults(env, c1, cfg) + ContextResults(env, c2, cfg)
  {
    var l := ContextResults(env, c1 + c2, cfg);
    var r := ContextResults(env, c1, cfg) + ContextResults(env, c2, cfg);
    assert |l| == |r|;
    forall i | 0 <= i < |l|
      ensures l[i] == r[i]
    {
      if i < |c1| {
        assert (c1 + c2)[i] == c1[i];
      } else {
        assert (c1 + c2)[i] == c2[i - |c1|];
      }
    }
  }

  /** The dicts kept from a list of optional dicts are non-empty when the
      present ones are. */
  lemma ObjectListShape(results: seq<Option<map<string, Value>>>)
    requires forall i :: 0 <= i < |results| && results[i].Some? ==> |results[i].value| > 0
    ensures |ObjectList(Somes(results)).items| <= |results|
    ensures forall j :: 0 <= j < |ObjectList(Somes(results)).items| ==>
              ObjectList(Somes(results)).items[j].Obj? && |ObjectList(Somes(results)).items[j].fields| > 0
  {
    SomesAll(results, (m: map<string, Value>) => |m| > 0);
  }

  /** Every present dict is kept. */
  lemma ObjectListComplete(results: seq<Option<map<string, Value>>>)
    ensures forall i :: 0 <= i < |results| && results[i].Some? ==> Obj(results[i].value) in ObjectList(Somes(results)).items
  {
    var mapped := Somes(results);
    var list := ObjectList(mapped);
    forall i | 0 <= i < |results| && results[i].Some?
      ensures Obj(results[i].value) in list.items
    {
      var j :| 0 <= j < |mapped| && mapped[j] == results[i].value;
      assert list.items[j] == Obj(mapped[j]);
    }
  }

  /** An iterator whose list is empty gives the empty list. */
  lemma EmptyIterationGivesEmptyList(env: Env, input: Value, cfg: KaibaObject)
    requires |cfg.iterators| == 1 && FetchListByKeys(input, cfg.iterators[0].path) == Success([])
    ensures MapData(env, input, cfg) == Success(Arr([]))
  {
    assert IterableDataHandler(input, cfg.iterators) == Success([]);
    assert ObjectList(Somes(ContextResults(env, [], cfg))) == Arr([]);
  }

  /** An iterator path that is missing (or holds no list) still gives a
      list: the object mapped against the input as the only context. */
  lemma MissingIteratorPathGivesList(env: Env, input: Value, cfg: KaibaObject)
    requires |cfg.iterators| == 1
    requires FetchListByKeys(input, cfg.iterators[0].path).Failure?
    requires IsCaught(FetchListByKeys(input, cfg.iterators[0].path).error)
    ensures MapData(env, input, cfg) ==
            Success(Arr(if MapObject(env, input, cfg).Some? then [Obj(MapObject(env, input, cfg).value)] else []))
  {
    assert IterableDataHandler(input, cfg.iterators) == Success([input]);
    assert MapData(env, input, cfg) == Success(MapEach(env, [input], cfg));
    var results := ContextResults(env, [input], cfg);
    assert results == [MapObject(env, input, cfg)];
    SomesOne(MapObject(env, input, cfg));
  }

  /** Keeping the present values of a one-element list. */
  lemma SomesOne(x: Option<map<string, Value>>)
    ensures ObjectList(Somes([x])) == Arr(if x.Some? then [Obj(x.value)] else [])
  {
    assert [x][1..] == [];
  }

  /** An object maps to nothing exactly when its attributes, its child
      objects and its branching objects all map to nothing. */
  lemma EmptyObjectDropped(env: Env, input: Value, cfg: KaibaObject)
    ensures MapObject(env, input, cfg).None? <==>
              MapAttributes(env, input, cfg.attributes).None? && MapObjects(env, input, cfg).None?
              && MapBranchingObjects(env, input, cfg.branchingObjects).None?
  {
    var a := MapAttributes(env, input, cfg.attributes).GetOr(map[]);
    var o := MapObjects(env, input, cfg).GetOr(map[]);
    var b := MapBranchingObjects(env, input, cfg.branchingObjects).GetOr(map[]);
    UnionEmpty(a, o, b);
  }

  /** Three dicts merged are empty exactly when each is. */
  lemma UnionEmpty(a: map<string, Value>, o: map<string, Value>, b: map<string, Value>)
    ensures |a + o + b| == 0 <==> |a| == 0 && |o| == 0 && |b| == 0
  {
    if |a| > 0 {
      var k :| k in a;
      assert k in a + o + b;
    } else if |o| > 0 {
      var k :| k in o;
      assert k in a + o + b;
    } else if |b| > 0 {
      var k :| k in b;
      assert k in a + o + b;
    } else {
      assert a + o + b == map[];
    }
  }

  /** The merge order of `map_object`: a key of a branching object wins
      over a child object's, which wins over an attribute's; no key comes
      from anywhere else. */
  lemma MergeOrder(env: Env, input: Value, cfg: KaibaObject, k: string)
    requires MapObject(env, input, cfg).Some?
    ensures var a := MapAttributes(env, input, cfg.attributes).GetOr(map[]);
            var o := MapObjects(env, input, cfg).GetOr(map[]);
            var b := MapBranchingObjects(env, input, cfg.branchingObjects).GetOr(map[]);
            var m := MapObject(env, input, cfg).value;
            (k in m <==> k in a || k in o || k in b)
            && (k in b ==> m[k] == b[k])
            && (k !in b && k in o ==> m[k] == o[k])
            && (k !in b && k !in o && k in a ==> m[k] == a[k])
  {
  }

  /** A child object name is set exactly when some child of that name
      maps successfully: a failed child is left out. */
  lemma ChildKeys(env: Env, input: Value, cfg: KaibaObject)
    requires MapObjects(env, input, cfg).Some?
    ensures forall k :: k in MapObjects(env, input, cfg).value <==>
              exists i :: 0 <= i < |cfg.objects| && cfg.objects[i].name == k && MapData(env, input, cfg.objects[i]).Success?
  {
    var entries := ObjectEntries(env, input, cfg);
    assert MapObjects(env, input, cfg).value == Collect(entries);
    EntriesKeys(cfg.objects, (c: KaibaObject) => c.name,
                (c: KaibaObject) => MapData(env, input, c).Success?, entries);
  }

  /** A child is stored under its own name, and what it produced is kept
      even when that is the empty list. */
  lemma ChildKeptUnderName(env: Env, input: Value, cfg: KaibaObject, i: nat)
    requires i < |cfg.objects| && MapData(env, input, cfg.objects[i]).Success?
    requires forall j :: i < j < |cfg.objects| && MapData(env, input, cfg.objects[j]).Success? ==>
               cfg.objects[j].name != cfg.objects[i].name
    ensures MapObjects(env, input, cfg).Some?
    ensures cfg.objects[i].name in MapObjects(env, input, cfg).value
    ensures MapObjects(env, input, cfg).value[cfg.objects[i].name] == MapData(env, input, cfg.objects[i]).value
  {
    CollectLastWins(ObjectEntries(env, input, cfg), i);
  }
}

=== FILE: models.dfy ===
/** The validated mapping configuration: one datatype per configuration
    model of the engine. Field names follow the configuration models
    (`data_fetchers`, `if_statements`, `slicing`, `regex`, `cast`,
    `iterators`, `branching_attributes`).

    Optional values that the engine tests with `is None` are `Value`s whose
    absence is `Null`; optional specifications are `Option`s.
 */
module Models {
  import opened Wrappers
  import opened Values

  /** Exposes each element of the list at `path` under the name `alias`. */
  datatype Iterator = Iterator(alias: string, path: seq<Key>)

  /** Python-style slice bounds: `value[sliceFrom:sliceTo]`. */
  datatype Slicing = Slicing(sliceFrom: int, sliceTo: Option<int>)

  /** Which whole matches of the expression to keep: one index, or a list of
      indices where the empty list keeps every match. */
  datatype Group = Single(index: int) | Many(indices: seq<int>)

  datatype Regex = Regex(expression: string, group: Group)

  datatype Condition = Is | Not | In | Contains

  /** `thenValue` is the configuration's `then`; `otherwise` is `Null` when unset. */
  datatype IfStatement = IfStatement(
    condition: Condition,
    target: Value,
    thenValue: Value,
    otherwise: Value)

  datatype CastTo = ToString | ToInteger | ToDecimal | ToDate

  datatype Cast = Cast(to: CastTo, originalFormat: Option<string>)

  /** Produces one value from the input; `default` is `Null` when unset. */
  datatype DataFetcher = DataFetcher(
    path: seq<Key>,
    slicing: Option<Slicing>,
    regex: Option<Regex>,
    ifStatements: seq<IfStatement>,
    default: Value)

  /** One named output value built from several data fetchers. */
  datatype Attribute = Attribute(
    name: string,
    dataFetchers: seq<DataFetcher>,
    separator: string,
    ifStatements: seq<IfStatement>,
    cast: Option<Cast>,
    default: Value)

  /** A named list of independently mapped small objects. The engine reads
      neither `array` nor `iterators` of a branching object. */
  datatype BranchingObject = BranchingObject(
    name: string,
    asArray: bool,
    iterators: seq<Iterator>,
    branchingAttributes: seq<seq<Attribute>>)

  /** A node of the mapping tree. */
  datatype KaibaObject = KaibaObject(
    name: string,
    asArray: bool,
    iterators: seq<Iterator>,
    attributes: seq<Attribute>,
    objects: seq<KaibaObject>,
    branchingObjects: seq<BranchingObject>)
}

=== FILE: text.dfy ===
/** String helpers with the exact behaviour of the Python built-ins the
    mapping engine leans on: `str(int)`, `int(str)`, `'%04d'`, `str.split`,
    `str.join`, `str.count`, `str.replace` and the `in` substring test.

    Characters are compared as code points; `\d` and `\w` are the ASCII
    classes (Python's Unicode digits and letters are not modelled).
 */
module Text {
  import opened Wrappers

  predicate IsDigit(c: char) {
    '0' <= c <= '9'
  }

  predicate AllDigits(s: string) {
    forall i :: 0 <= i < |s| ==> IsDigit(s[i])
  }

  /** Python's `\w` on ASCII: letters, digits and the underscore. */
  predicate IsWordChar(c: char) {
    'a' <= c <= 'z' || 'A' <= c <= 'Z' || IsDigit(c) || c == '_'
  }

  function DigitChar(d: nat): (c: char)
    requires d < 10
    ensures IsDigit(c)
  {
    (d + '0' as int) as char
  }

  /** The number a string of decimal digits denotes (leading zeros allowed). */
  function DigitsValue(s: string): nat
    requires AllDigits(s)
  {
    if |s| == 0 then 0
    else 10 * DigitsValue(s[..|s| - 1]) + (s[|s| - 1] as int - '0' as int)
  }

  /** Appending a digit shifts the value one decimal place. */
  lemma DigitsValueSnoc(s: string, c: char)
    requires AllDigits(s) && IsDigit(c)
    ensures AllDigits(s + [c])
    ensures DigitsValue(s + [c]) == 10 * DigitsValue(s) + (c as int - '0' as int)
  {
    assert (s + [c])[..|s|] == s;
  }

  /** `str(n)` for a natural number: the shortest decimal digit string. */
  function NatToDigits(n: nat): (s: string)
    ensures |s| > 0 && AllDigits(s)
    ensures DigitsValue(s) == n
    ensures s[0] == '0' ==> n == 0
    decreases n
  {
    if n < 10 then [DigitChar(n)]
    else
      var prefix := NatToDigits(n / 10);
      DigitsValueSnoc(prefix, DigitChar(n % 10));
      prefix + [DigitChar(n % 10)]
  }

  /** `str(i)` for a Python int. */
  function IntToString(i: int): string {
    if i < 0 then "-" + NatToDigits(-i) else NatToDigits(i)
  }

  function Zeros(k: nat): (s: string)
    ensures |s| == k && AllDigits(s)
  {
    if k == 0 then "" else "0" + Zeros(k - 1)
  }

  lemma {:induction false} LeadingZerosValue(z: string, s: string)
    requires AllDigits(z) && AllDigits(s)
    requires forall i :: 0 <= i < |z| ==> z[i] == '0'
    ensures AllDigits(z + s) && DigitsValue(z + s) == DigitsValue(s)
    decreases |s|
  {
    if |s| == 0 {
      assert z + s == z;
      AllZerosValue(z);
    } else {
      var init := s[..|s| - 1];
      var last := s[|s| - 1];
      assert s == init + [last];
      assert z + s == (z + init) + [last];
      LeadingZerosValue(z, init);
      DigitsValueSnoc(z + init, last);
      DigitsValueSnoc(init, last);
    }
  }

  lemma {:induction false} AllZerosValue(z: string)
    requires forall i :: 0 <= i < |z| ==> z[i] == '0'
    ensures AllDigits(z) && DigitsValue(z) == 0
    decreases |z|
  {
    if |z| > 0 {
      AllZerosValue(z[..|z| - 1]);
    }
  }

  /** `'%0<width>d' % n`: the digits of `n`, left-padded with zeros. */
  function Pad(n: nat, width: nat): (s: string)
    ensures AllDigits(s) && DigitsValue(s) == n
    ensures |s| >= width
    ensures width >= 1 && n < Pow10(width) ==> |s| == width
  {
    var digits := NatToDigits(n);
    ShortDigits(n, width);
    if |digits| >= width then digits
    else
      var z := Zeros(width - |digits|);
      assert forall i :: 0 <= i < |z| ==> z[i] == '0' by { ZerosAreZero(width - |digits|); }
      LeadingZerosValue(z, digits);
      z + digits
  }

  lemma ZerosAreZero(k: nat)
    ensures forall i :: 0 <= i < k ==> Zeros(k)[i] == '0'
  {
  }

  function Pow10(k: nat): (p: nat)
    ensures p >= 1
  {
    if k == 0 then 1 else 10 * Pow10(k - 1)
  }

  /** A number below 10^width needs at most `width` digits. */
  lemma {:induction false} ShortDigits(n: nat, width: nat)
    ensures width >= 1 && n < Pow10(width) ==> |NatToDigits(n)| <= width
    decreases n
  {
    assert Pow10(1) == 10;
    if n >= 10 && width >= 1 && n < Pow10(width) {
      ShortDigits(n / 10, width - 1);
    }
  }

  /** A string of `k` digits denotes a number below 10^k. */
  lemma {:induction false} DigitsBelow(s: string)
    requires AllDigits(s)
    ensures DigitsValue(s) < Pow10(|s|)
    decreases |s|
  {
    if |s| > 0 {
      DigitsBelow(s[..|s| - 1]);
    }
  }

  /** A number's last decimal digit and the number before it are unique. */
  lemma LastDigitUnique(x: int, y: int, dx: int, dy: int)
    requires 0 <= dx < 10 && 0 <= dy < 10 && 10 * x + dx == 10 * y + dy
    ensures dx == dy && x == y
  {
    assert 10 * (x - y) == dy - dx;
  }

  /** Two digit strings of the same length denote the same number only if
      they are the same string. */
  lemma {:induction false} DigitsInjective(a: string, b: string)
    requires AllDigits(a) && AllDigits(b) && |a| == |b|
    requires DigitsValue(a) == DigitsValue(b)
    ensures a == b
    decreases |a|
  {
    if |a| > 0 {
      var n := |a| - 1;
      var da := a[n] as int - '0' as int;
      var db := b[n] as int - '0' as int;
      assert 0 <= da < 10 && 0 <= db < 10;
      assert DigitsValue(a) == 10 * DigitsValue(a[..n]) + da;
      assert DigitsValue(b) == 10 * DigitsValue(b[..n]) + db;
      LastDigitUnique(DigitsValue(a[..n]), DigitsValue(b[..n]), da, db);
      DigitsInjective(a[..n], b[..n]);
      assert a == a[..n] + [a[n]];
      assert b == b[..n] + [b[n]];
    }
  }

  /** Zero-padding the number a digit string denotes to the string's own
      width gives the string back (`'%0kd' % int(s) == s`). */
  lemma PadDigits(s: string)
    requires |s| >= 1 && AllDigits(s)
    ensures Pad(DigitsValue(s), |s|) == s
  {
    DigitsBelow(s);
    DigitsInjective(Pad(DigitsValue(s), |s|), s);
  }

  /** `needle` occurs in `hay` starting at index `i`. */
  predicate OccursAt(needle: string, hay: string, i: int) {
    0 <= i && i + |needle| <= |hay| && hay[i..i + |needle|] == needle
  }

  /** Python's `needle in hay` on two strings. */
  function IsSubstring(needle: string, hay: string): (r: bool)
    ensures r <==> exists i :: OccursAt(needle, hay, i)
    decreases |hay|
  {
    if |needle| > |hay| then false
    else if hay[..|needle|] == needle then
      assert OccursAt(needle, hay, 0);
      true
    else
      var rest := IsSubstring(needle, hay[1..]);
      assert forall j :: OccursAt(needle, hay[1..], j) ==> OccursAt(needle, hay, j + 1) by {
        forall j | OccursAt(needle, hay[1..], j)
          ensures OccursAt(needle, hay, j + 1)
        {
          assert hay[j + 1..j + 1 + |needle|] == hay[1..][j..j + |needle|];
        }
      }
      assert forall i :: OccursAt(needle, hay, i) ==> OccursAt(needle, hay[1..], i - 1) by {
        forall i | OccursAt(needle, hay, i)
          ensures OccursAt(needle, hay[1..], i - 1)
        {
          assert i != 0;
          assert hay[1..][i - 1..i - 1 + |needle|] == hay[i..i + |needle|];
        }
      }
      rest
  }

  /** Index of the first occurrence of `c` in `s`. */
  function IndexOf(s: string, c: char): (k: nat)
    requires c in s
    ensures k < |s| && s[k] == c
    ensures forall j :: 0 <= j < k ==> s[j] != c
  {
    if s[0] == c then 0 else IndexOf(s[1..], c) + 1
  }

  /** Python's `s.split(c)` for a one-character separator. */
  function Split(s: string, c: char): (parts: seq<string>)
    ensures |parts| >= 1
    ensures forall i :: 0 <= i < |parts| ==> c !in parts[i]
    decreases |s|
  {
    if c !in s then [s]
    else
      var k := IndexOf(s, c);
      [s[..k]] + Split(s[k + 1..], c)
  }

  /** Python's `sep.join(parts)`. */
  function Join(parts: seq<string>, sep: string): string {
    if |parts| == 0 then ""
    else if |parts| == 1 then parts[0]
    else parts[0] + sep + Join(parts[1..], sep)
  }

  /** Splitting a join on a separator absent from the parts gives the parts back. */
  lemma {:induction false} SplitJoin(parts: seq<string>, c: char)
    requires |parts| >= 1
    requires forall i :: 0 <= i < |parts| ==> c !in parts[i]
    ensures Split(Join(parts, [c]), c) == parts
    decreases |parts|
  {
    if |parts| > 1 {
      var head := parts[0];
      var tail := parts[1..];
      var rest := Join(tail, [c]);
      var s := head + [c] + rest;
      assert Join(parts, [c]) == s;
      assert c !in head;
      SplitAtFirst(head, c, rest);
      SplitJoin(tail, c);
      assert parts == [head] + tail;
    }
  }

  lemma SplitAtFirst(head: string, c: char, rest: string)
    requires c !in head
    ensures Split(head + [c] + rest, c) == [head] + Split(rest, c)
  {
    var s := head + [c] + rest;
    assert s[|head|] == c;
    var k := IndexOf(s, c);
    assert forall j :: 0 <= j < |head| ==> s[j] == head[j];
    assert k == |head|;
    assert s[..k] == head;
    assert s[k + 1..] == rest;
  }

  /** Joining the pieces of a split with the same separator restores the string. */
  lemma {:induction false} JoinSplit(s: string, c: char)
    ensures Join(Split(s, c), [c]) == s
    decreases |s|
  {
    if c in s {
      var k := IndexOf(s, c);
      JoinSplit(s[k + 1..], c);
      var tail := Split(s[k + 1..], c);
      assert Split(s, c) == [s[..k]] + tail;
      assert ([s[..k]] + tail)[1..] == tail;
      assert s == s[..k] + [c] + s[k + 1..];
    }
  }

  /** Python's `s.count(c)`. */
  function Count(s: string, c: char): nat {
    if |s| == 0 then 0 else (if s[0] == c then 1 else 0) + Count(s[1..], c)
  }

  lemma {:induction false} CountAbsent(s: string, c: char)
    ensures Count(s, c) == 0 <==> c !in s
    decreases |s|
  {
    if |s| > 0 {
      CountAbsent(s[1..], c);
      assert s == [s[0]] + s[1..];
    }
  }

  lemma {:induction false} CountAppend(a: string, b: string, c: char)
    ensures Count(a + b, c) == Count(a, c) + Count(b, c)
    decreases |a|
  {
    if |a| > 0 {
      assert (a + b)[1..] == a[1..] + b;
      CountAppend(a[1..], b, c);
    } else {
      assert a + b == b;
    }
  }

  /** The parts written one after another, without separators (`''.join`). */
  function Concat(parts: seq<string>): string {
    if |parts| == 0 then "" else parts[0] + Concat(parts[1..])
  }

  lemma {:induction false} ConcatDigits(parts: seq<string>)
    requires forall i :: 0 <= i < |parts| ==> AllDigits(parts[i])
    ensures AllDigits(Concat(parts))
    decreases |parts|
  {
    if |parts| > 0 {
      ConcatDigits(parts[1..]);
    }
  }

  /** A join on `[c]` holds only the parts' characters and `c`. */
  lemma {:induction false} JoinChars(parts: seq<string>, c: char)
    ensures forall i :: 0 <= i < |Join(parts, [c])| ==>
              Join(parts, [c])[i] == c || exists k :: 0 <= k < |parts| && Join(parts, [c])[i] in parts[k]
    decreases |parts|
  {
    if |parts| > 1 {
      JoinChars(parts[1..], c);
      var rest := Join(parts[1..], [c]);
      var s := Join(parts, [c]);
      assert s == parts[0] + [c] + rest;
      forall i | 0 <= i < |s|
        ensures s[i] == c || exists k :: 0 <= k < |parts| && s[i] in parts[k]
      {
        if i < |parts[0]| {
          assert s[i] in parts[0];
        } else if i > |parts[0]| {
          var j := i - |parts[0]| - 1;
          assert s[i] == rest[j];
          if rest[j] != c {
            var k :| 0 <= k < |parts[1..]| && rest[j] in parts[1..][k];
            assert parts[1..][k] == parts[k + 1];
          }
        }
      }
    } else if |parts| == 1 {
      assert Join(parts, [c]) == parts[0];
    }
  }

  /** Removing the separator from a join on it leaves the concatenated parts. */
  lemma {:induction false} RemoveCharJoin(parts: seq<string>, c: char)
    requires forall i :: 0 <= i < |parts| ==> c !in parts[i]
    ensures RemoveChar(Join(parts, [c]), c) == Concat(parts)
    decreases |parts|
  {
    if |parts| == 1 {
      RemoveCharAbsent(parts[0], c);
      assert Concat(parts) == parts[0] + Concat(parts[1..]);
      assert Concat(parts[1..]) == "";
    } else if |parts| > 1 {
      var rest := Join(parts[1..], [c]);
      RemoveCharJoin(parts[1..], c);
      RemoveCharAppend(parts[0], [c] + rest, c);
      RemoveCharAppend([c], rest, c);
      RemoveCharAbsent(parts[0], c);
      assert parts[0] + [c] + rest == parts[0] + ([c] + rest);
    }
  }

  /** Python's `s.replace(c, '')`. */
  function RemoveChar(s: string, c: char): (r: string)
    ensures c !in r
    ensures |r| <= |s|
  {
    if |s| == 0 then ""
    else if s[0] == c then RemoveChar(s[1..], c)
    else [s[0]] + RemoveChar(s[1..], c)
  }

  /** Python's `s.replace(c, d)`. */
  function ReplaceChar(s: string, c: char, d: char): (r: string)
    ensures |r| == |s|
    ensures forall i :: 0 <= i < |s| ==> r[i] == if s[i] == c then d else s[i]
  {
    if |s| == 0 then ""
    else [if s[0] == c then d else s[0]] + ReplaceChar(s[1..], c, d)
  }

  /** Both ends of a concatenation are processed independently by `RemoveChar`. */
  lemma {:induction false} RemoveCharAppend(a: string, b: string, c: char)
    ensures RemoveChar(a + b, c) == RemoveChar(a, c) + RemoveChar(b, c)
    decreases |a|
  {
    if |a| > 0 {
      assert (a + b)[1..] == a[1..] + b;
      RemoveCharAppend(a[1..], b, c);
    } else {
      assert a + b == b;
    }
  }

  lemma {:induction false} RemoveCharAbsent(s: string, c: char)
    requires c !in s
    ensures RemoveChar(s, c) == s
    decreases |s|
  {
    if |s| > 0 {
      RemoveCharAbsent(s[1..], c);
      assert s == [s[0]] + s[1..];
    }
  }

  /** The whitespace Python's `int()` strips (the ASCII part of it). */
  predicate IsPySpace(c: char) {
    c == ' ' || '\t' <= c <= '\r' || '\U{1c}' <= c <= '\U{1f}'
  }

  function StripLeft(s: string): (r: string)
    ensures |r| <= |s|
    ensures |r| > 0 ==> !IsPySpace(r[0])
  {
    if |s| > 0 && IsPySpace(s[0]) then StripLeft(s[1..]) else s
  }

  function StripRight(s: string): (r: string)
    ensures |r| <= |s|
    ensures |r| > 0 ==> !IsPySpace(r[|r| - 1])
  {
    if |s| > 0 && IsPySpace(s[|s| - 1]) then StripRight(s[..|s| - 1]) else s
  }

  /** The part of `s` a pattern ending in `$` has to match: Python's `$` also
      matches just before a final newline. */
  function BeforeFinalNewline(s: string): (b: string)
    ensures b == s || b + "\n" == s
  {
    if |s| > 0 && s[|s| - 1] == '\n' then s[..|s| - 1] else s
  }

  /** Python's `str.strip()` on ASCII whitespace. */
  function Strip(s: string): string {
    StripRight(StripLeft(s))
  }

  /** Digits with single underscores between them, as `int()` accepts. */
  predicate IsIntBody(t: string) {
    && |t| > 0
    && IsDigit(t[0]) && IsDigit(t[|t| - 1])
    && (forall i :: 0 <= i < |t| ==> IsDigit(t[i]) || t[i] == '_')
    && (forall i :: 0 <= i < |t| - 1 ==> t[i] == '_' ==> t[i + 1] != '_')
  }

  /** `repr(s)` for a string without quotes or escapes in it. */
  function Repr(s: string): string {
    "'" + s + "'"
  }

  /** Python's `int(s)` with base 10: strip, optional sign, digits. */
  function PyInt(s: string): (r: Result<int, string>)
    ensures r.Failure? ==> r.error == "invalid literal for int() with base 10: " + Repr(s)
  {
    var t := Strip(s);
    var negative := |t| > 0 && t[0] == '-';
    var body := if |t| > 0 && (t[0] == '-' || t[0] == '+') then t[1..] else t;
    if IsIntBody(body) then
      var digits := RemoveChar(body, '_');
      RemoveUnderscores(body);
      var n: int := DigitsValue(digits);
      Success(if negative then -n else n)
    else Failure("invalid literal for int() with base 10: " + Repr(s))
  }

  /** Removing the underscores from digits and underscores leaves digits. */
  lemma {:induction false} RemoveUnderscores(s: string)
    requires forall i :: 0 <= i < |s| ==> IsDigit(s[i]) || s[i] == '_'
    ensures AllDigits(RemoveChar(s, '_'))
    decreases |s|
  {
    if |s| > 0 {
      RemoveUnderscores(s[1..]);
    }
  }

  /** A plain digit string parses to the number its digits denote. */
  lemma PyIntDigits(s: string)
    requires |s| > 0 && AllDigits(s)
    ensures PyInt(s) == Success(DigitsValue(s) as int)
  {
    assert !IsPySpace(s[0]) && !IsPySpace(s[|s| - 1]);
    StripUnchanged(s);
    assert '_' !in s;
    RemoveCharAbsent(s, '_');
    assert IsIntBody(s);
    PyIntUnsigned(s);
  }

  /** `int()` of a stripped, unsigned body is the value of its digits. */
  lemma PyIntUnsigned(s: string)
    requires Strip(s) == s && IsIntBody(s) && AllDigits(s) && RemoveChar(s, '_') == s
    ensures PyInt(s) == Success(DigitsValue(s) as int)
  {
  }

  /** A text with no whitespace at either end is its own strip. */
  lemma StripUnchanged(s: string)
    requires |s| > 0 && !IsPySpace(s[0]) && !IsPySpace(s[|s| - 1])
    ensures Strip(s) == s
  {
    assert StripLeft(s) == s;
  }

  /** `int(str(i)) == i` for every Python int. */
  lemma PyIntRoundTrip(i: int)
    ensures PyInt(IntToString(i)) == Success(i)
  {
    var s := IntToString(i);
    var d := NatToDigits(if i < 0 then -i else i);
    assert s == if i < 0 then "-" + d else d;
    assert !IsPySpace(s[0]) && !IsPySpace(s[|s| - 1]);
    StripUnchanged(s);
    var body := if i < 0 then s[1..] else s;
    assert body == d;
    assert '_' !in d;
    RemoveCharAbsent(d, '_');
  }
}

=== FILE: values.dfy ===
/** JSON-like values as the mapping engine sees them, and the parts of the
    Python runtime the engine consults but this model does not define.

    Python's `None` and JSON `null` are the same value here (`Null`): the
    engine never distinguishes "no value" from a null found in the input,
    and an unset `default` is `None` as well.
 */
module Values {
  import opened Wrappers
  import opened Text

  /** A JSON document: numbers are exact decimals (Python `Decimal`) or ints. */
  datatype Value =
    | Null
    | Bool(b: bool)
    | Int(i: int)
    | Dec(d: real)
    | Str(s: string)
    | Arr(items: seq<Value>)
    | Obj(fields: map<string, Value>)

  /** A path element: a dict key or a list (or string) index. */
  datatype Key = Field(name: string) | Index(index: int)

  /** The collaborators the engine calls but which are not modelled:
      `findAll(pattern, s)` is `[m.group(0) for m in re.finditer(pattern, s)]`,
      `show(v)` is Python's `str(v)` for a Decimal, list or dict, and
      `currentYear` is `datetime.date.today().year`. */
  datatype Env = Env(
    findAll: (string, string) -> seq<string>,
    show: Value -> string,
    currentYear: int)

  /** Python truthiness of a value (`if value:`). */
  predicate Truthy(v: Value) {
    match v
    case Null => false
    case Bool(b) => b
    case Int(i) => i != 0
    case Dec(d) => d != 0.0
    case Str(s) => |s| > 0
    case Arr(items) => |items| > 0
    case Obj(fields) => |fields| > 0
  }

  /** Python's `str(v)`; the Decimal, list and dict cases are left to `env.show`. */
  function Stringify(env: Env, v: Value): string {
    match v
    case Null => "None"
    case Bool(b) => if b then "True" else "False"
    case Int(i) => IntToString(i)
    case Str(s) => s
    case _ => env.show(v)
  }

  lemma StringifyStr(env: Env, s: string)
    ensures Stringify(env, Str(s)) == s
  {
  }

  /** Python's falsy-fallback `a or b`. */
  function Or(a: Value, b: Value): Value {
    if Truthy(a) then a else b
  }
  /** Python's sequence indexing: `-n <= i < n`, negative counting from the end. */
  function NormalizeIndex(i: int, n: nat): (r: Option<nat>)
    ensures r.Some? <==> 0 <= i + n && i < n
    ensures r.Some? ==> r.value < n && (r.value == i || r.value == i + n)
  {
    if 0 <= i < n then Some(i)
    else if 0 <= i + n && i < 0 then Some(i + n)
    else None
  }

  /** A Python slice bound `i` resolved against length `n`: negative bounds
      count from the end, and every bound is clamped into `0..n`. */
  function SliceBound(i: int, n: nat): (b: nat)
    ensures b <= n
    ensures 0 <= i <= n ==> b == i
    ensures i < 0 && 0 <= i + n ==> b == i + n
  {
    if i < 0 then (if i + n < 0 then 0 else i + n)
    else if i > n then n
    else i
  }

  /** Python's `s[from:to]` with step 1; `to` absent means the end. */
  function PySlice<T>(s: seq<T>, from: int, to: Option<int>): (r: seq<T>)
    ensures |r| <= |s|
  {
    var lo := SliceBound(from, |s|);
    var hi := match to case None => |s| case Some(t) => SliceBound(t, |s|);
    if lo < hi then s[lo..hi] else []
  }

  /** Cutting at any position `k` and rejoining both halves gives back the
      whole sequence, for negative and out-of-range `k` as well. */
  lemma SliceSplit<T>(s: seq<T>, k: int)
    ensures PySlice(s, 0, Some(k)) + PySlice(s, k, None) == s
  {
    var c := SliceBound(k, |s|);
    assert PySlice(s, 0, Some(k)) == s[..c];
    assert PySlice(s, k, None) == s[c..];
  }

  /** The slice `[from:]` is everything after dropping the first `from`
      elements, and `[0:]` is the whole sequence. */
  lemma SliceFromStart<T>(s: seq<T>, from: nat)
    ensures from <= |s| ==> PySlice(s, from, None) == s[from..]
    ensures PySlice(s, 0, None) == s
  {
  }
}

=== FILE: wrappers.dfy ===
/** Failure-compatible result types used throughout the model.

    The mapping engine is written against a monadic Result/Maybe library;
    here its containers become two plain datatypes: `Option` for the
    `@maybe`-decorated functions and `Result` for the `@safe` ones (an
    exception raised inside a `@safe` function becomes a `Failure`).
 */
module Wrappers {

  datatype Option<+T> = None | Some(value: T) {

    /** The wrapped value, or `default` when there is none. */
    function GetOr(default: T): T {
      match this
      case Some(v) => v
      case None => default
    }
  }

  datatype Result<+R, +E> = Success(value: R) | Failure(error: E) {

    predicate IsFailure() {
      Failure?
    }

    function PropagateFailure<U>(): Result<U, E>
      requires Failure?
    {
      Failure(error)
    }

    function Extract(): R
      requires Success?
    {
      value
    }

    /** The success value, or `default` on failure (`unsafe_*` unwrapping). */
    function GetOr(default: R): R {
      match this
      case Success(v) => v
      case Failure(_) => default
    }

    /** Rewrites the error of a failure, leaving a success untouched. */
    function MapFailure<NewE>(f: E -> NewE): Result<R, NewE> {
      match this
      case Success(v) => Success(v)
      case Failure(e) => Failure(f(e))
    }
  }
}
